=== FILE: README.md ===
# CS149 task systems, top-down BFS and tensor accessors in Dafny

This project models five pieces of the CS149 parallel-computing assignments and proves properties of them.

- **DAG task system** (`asst2/part_b/tasksys.cpp`, module `DagScheduler`). Bulk launches of tasks carry inter-batch dependencies. State:
  - a registry from batch id to `{numTotalTasks, deps, completedCount}`;
  - a FIFO ready queue of `(batchId, unitIndex)` pairs;
  - a monotone `nextBatchId`;
  - the destructor's stop flag.
- **Watermark task system** (`asst2/manualtest/tasksys.cpp`, module `WatermarkScheduler`):
  - each batch depends on one number, the largest id it lists;
  - batches wait in a priority queue until the finished-id watermark reaches that number;
  - ready batches hand out unit indices through a cursor;
  - per-batch counters raise the watermark.
- **Single-batch task systems** (`asst2/part_a/tasksys.cpp`, module `BulkLaunch`):
  - the serial loop;
  - the "always spawn" system, whose threads draw indices from an atomic counter;
  - the spinning thread pool, with its closure queue and `activeTasks` counter.
- **Top-down breadth-first search** (`biggraphs-ec/bfs/bfs.cpp`, module `TopDownBfs`), run sequentially:
  - the vertex-set buffers;
  - one level step over a CSR graph;
  - the level loop of `bfs_top_down`;
  - the merge of per-thread frontier buffers.
- **Flat tensor accessors** (`cs149gpt/module.cpp`, module `TensorAccess`):
  - row-major 2D and 4D addressing, with reads and in-place writes;
  - the tile bounds of the blocked loops.

Each task system is a class whose methods are the steps of its threads, and each method is atomic. The threads of a run are then any interleaving of calls to those methods. The steps follow the source's critical sections except where "## Left out" says otherwise. The watermark worker's pass is two steps: the claim under the ready-queue lock, then the run and the count. A DAG worker's pass is one step, which is coarser than the source. The user callback `runTask(i, n)` appears as the unit `(batch, i)` appended to a ghost execution log, so "each unit runs exactly once" is a statement about that log in every scheduler, and so is "no unit runs before its dependencies" in `DagScheduler`. The watermark scheduler as written does not keep that order; see "## Findings".

Module `TaskUnits` holds the unit type and the per-batch filter of a log, which the schedulers share. The state invariants are ghost predicates (`Consistent`, `Valid`). Each state-changing method is proved to keep its invariant. The lemmas then derive the promises of `run` and `sync` from that invariant.

## Model

| member | source | states |
|---|---|---|
| TaskUnits.Units | asst2/part_b/tasksys.cpp:243-246 | the units of a batch of n: (b,0), ..., (b,n-1) in index order, none when n <= 0 |
| DagScheduler.TaskSystem.constructor | asst2/part_b/tasksys.cpp:129-131 | a fresh system has no batch, an empty queue, ids from 0 and no stop request, and satisfies the invariant |
| DagScheduler.TaskSystem.RunAsyncWithDeps | asst2/part_b/tasksys.cpp:256-295 | returns the old nextBatchId and increments it; adds exactly one registry entry, under a new id, with n, the dependency set and count 0; appends (id,0..n-1) to the queue iff deps is empty; keeps the invariant |
| DagScheduler.TaskSystem.Run | asst2/part_b/tasksys.cpp:223-250 | registers a dependency-free batch under the next id and appends all of its units to the queue; keeps the invariant |
| DagScheduler.TaskSystem.Shutdown | asst2/part_b/tasksys.cpp:203-214 | sets the stop flag and changes nothing else |
| DagScheduler.TaskSystem.WorkerStep | asst2/part_b/tasksys.cpp:134-198 | with the stop flag set nothing changes; with an empty queue nothing changes; otherwise exactly the front unit is removed and run (it had not run before), its batch's count rises by one, and when that was the last unit the finished id is erased from every dependency set and exactly its newly released dependents are expanded onto the queue |
| DagScheduler.CountAndResolve | asst2/part_b/tasksys.cpp:169-196 | the counted unit's batch is registered and released, the count rises by one, the resolver runs only on the last unit, and the invariant holds with the unit logged |
| DagScheduler.Resolve | asst2/part_b/tasksys.cpp:174-195 | the loop over the registry erases the finished id from every set and lists, each once, exactly the batches whose set it empties; their units are appended in list order |
| DagScheduler.PushUnits | asst2/part_b/tasksys.cpp:183-186 | the push loop appends exactly the units (b,0..n-1) |
| DagScheduler.SubmitPreserves | asst2/part_b/tasksys.cpp:272-292 | submission keeps the invariant and the new id is unused |
| DagScheduler.StepPreserves | asst2/part_b/tasksys.cpp:152-171 | the front unit belongs to a released batch with units left and has not run; running and counting it keeps the invariant |
| DagScheduler.ResolvePreserves | asst2/part_b/tasksys.cpp:174-186 | erasing a done batch's id and enqueueing the batches it releases keeps the invariant |
| DagScheduler.DoneHasNothingQueued | asst2/part_b/tasksys.cpp:174 | a batch whose count reached its total has run every unit and has none left in the queue |
| DagScheduler.LogAndQueueDistinct | asst2/part_b/tasksys.cpp:176-186 | no unit is run twice, queued twice, or both run and queued |
| DagScheduler.DependenciesDoneFirst | asst2/part_b/tasksys.cpp:176-186 | every run or queued unit belongs to a batch all of whose declared dependencies are done |
| DagScheduler.RunReturnMeansBatchRan | asst2/part_b/tasksys.cpp:251-253 | in any reachable state where run's wait predicate (`TaskSystem.RunMayReturn`) holds for a batch, every unit of that batch ran exactly once and none is queued |
| DagScheduler.SyncReturnMeansAllRan | asst2/part_b/tasksys.cpp:304-311 | in any reachable state where sync's wait predicate (`TaskSystem.SyncMayReturn`) holds, the queue is empty and every unit of every batch ran exactly once, no unit twice |
| DagScheduler.AsWrittenBumpMiscounts | asst2/part_b/tasksys.cpp:157 | counting through tasks[taskIndex] bumps batch 0 twice and batch 1 once for batches of 1 and 2 units |
| DagScheduler.AsWrittenRequeuesFinished | asst2/part_b/tasksys.cpp:176-186 | as written, a finished batch is enqueued again, so its units would occur twice; the intended rule never releases it |
| DagScheduler.RetiredDependencyStuck | asst2/part_b/tasksys.cpp:273-292 | when a batch's set holds a dependency that is already done, no unit of either batch is in the queue and the dependent has run nothing |
| DagScheduler.StepKeepsRetiredDependency | asst2/part_b/tasksys.cpp:134-198 | every worker pass keeps such a dependency done and in the dependent's set, keeps the dependent's size, and keeps `sync`'s wait predicate false while the dependent has units |
| DagScheduler.AsWrittenRetiredDependencyHangs | asst2/part_b/tasksys.cpp:272-292 | a reachable state: batch 0 of one unit ran to completion, then batch 1 was submitted with deps [0]; batch 1's set is {0}, the queue is empty and `sync`'s wait predicate is false |
| DagScheduler.LiveDepsSplit | asst2/part_b/tasksys.cpp:273 | the corrected live set is part of the registered dependencies, every registered dependency left out of it is done, and it is empty iff every registered dependency is done |
| DagScheduler.CorrectedSubmitPreserves | asst2/part_b/tasksys.cpp:272-292 | the corrected submission (live set: the registered dependencies not done yet; units queued iff it is empty) keeps the invariant with the registered dependencies declared, and queues the batch at once iff every registered dependency is done |
| DagScheduler.CorrectedRetiredDependency | asst2/part_b/tasksys.cpp:273-292 | on the hanging input the corrected live set of deps [0] is empty, and so is that of an id never handed out, where the set as written is {0} |
| WatermarkScheduler.Dependency | asst2/manualtest/tasksys.cpp:230-233 | -1 for no dependencies, otherwise an element of deps that no element exceeds |
| WatermarkScheduler.Leading | asst2/manualtest/tasksys.cpp:147-149 | the length of the longest prefix whose dependencies are at most the watermark; the entry after it exceeds the watermark |
| WatermarkScheduler.LeadingSorted | asst2/manualtest/tasksys.cpp:147-149 | in an ordered queue an entry's dependency is at most the watermark iff it lies in that prefix |
| WatermarkScheduler.Insert | asst2/manualtest/tasksys.cpp:239 | a push adds exactly one entry, keeps all others, and keeps the queue ordered by dependency |
| WatermarkScheduler.Readied | asst2/manualtest/tasksys.cpp:150 | each promoted entry becomes a ready entry with the same id and size and cursor 0 |
| WatermarkScheduler.RecordAt | asst2/manualtest/tasksys.cpp:153 | each promoted batch gets the progress record {0, total} under its own id (the corrected line 153; see Findings) |
| WatermarkScheduler.RecordElsewhere | asst2/manualtest/tasksys.cpp:153 | promotion with the corrected records (each under the promoted batch's own id) leaves the record of every batch it does not promote unchanged |
| WatermarkScheduler.Promote | asst2/manualtest/tasksys.cpp:147-156 | the promotion loop moves exactly the leading entries whose dependency is at most the watermark, in queue order, to the ready queue and records each under its own id; the rest keep waiting |
| WatermarkScheduler.PromoteAll | asst2/manualtest/tasksys.cpp:145-156 | promotion from an empty ready queue yields the promoted queues and records and keeps the invariant |
| WatermarkScheduler.Claim | asst2/manualtest/tasksys.cpp:159-167 | the claimed unit is the front's cursor index, has neither run nor been claimed, and the cursor moves on; the invariant is kept |
| WatermarkScheduler.Finish | asst2/manualtest/tasksys.cpp:174-185 | the unit claimed under the lock (the index the corrected line 176 runs) runs for the first time and is counted in its batch's record; the count completes the batch exactly when it was the batch's last unit; the invariant is kept |
| WatermarkScheduler.TaskSystem.constructor | asst2/manualtest/tasksys.cpp:192-202 | a fresh system: empty queues and records, watermark -1, ids from 0, not killed |
| WatermarkScheduler.TaskSystem.RunAsyncWithDeps | asst2/manualtest/tasksys.cpp:228-251 | returns the old nextTaskID and increments it; pushes exactly one waiting entry with that id, the recorded dependency and n; nothing else changes |
| WatermarkScheduler.TaskSystem.Run | asst2/manualtest/tasksys.cpp:218-226 | returns the old nextTaskID and increments it; pushes exactly one waiting entry with that id, dependency -1 and n, and records n as its size; the ready queue, records, log, claims, watermark and killed flag are unchanged; keeps the invariant |
| WatermarkScheduler.TaskSystem.Shutdown | asst2/manualtest/tasksys.cpp:204-210 | sets killed and clears the progress records; queues, log and counters unchanged |
| WatermarkScheduler.TaskSystem.WorkerStep | asst2/manualtest/tasksys.cpp:131-172 | the section under the ready-queue lock: once killed nothing changes; an empty ready queue triggers promotion; an exhausted front is popped; otherwise the unit at the front's cursor, never run nor claimed, is claimed and the cursor moves on; the log and watermark are unchanged |
| WatermarkScheduler.TaskSystem.PromoteWaiting | asst2/manualtest/tasksys.cpp:145-156 | the waiting queue loses exactly its leading eligible entries, which become the ready queue with fresh records |
| WatermarkScheduler.TaskSystem.PopFront | asst2/manualtest/tasksys.cpp:159-163 | an exhausted front entry is removed; nothing else changes |
| WatermarkScheduler.TaskSystem.ClaimFront | asst2/manualtest/tasksys.cpp:159-167 | the unit at the front's cursor, never run nor claimed, becomes claimed and the cursor moves on; nothing else changes |
| WatermarkScheduler.TaskSystem.RunClaimed | asst2/manualtest/tasksys.cpp:174-186 | a claimed unit runs once and is counted; a completed batch's record is erased and the watermark raised to max(watermark, id); before shutdown this happens exactly when all of the batch's units have run |
| WatermarkScheduler.SubmitPreserves | asst2/manualtest/tasksys.cpp:228-251 | submission keeps the invariant |
| WatermarkScheduler.PromotePreserves | asst2/manualtest/tasksys.cpp:145-156 | promotion with each record under the promoted batch's id keeps the invariant, including that every promoted batch's record counts its run units |
| WatermarkScheduler.PopPreserves | asst2/manualtest/tasksys.cpp:160-163 | popping an exhausted entry keeps the invariant |
| WatermarkScheduler.ClaimPreserves | asst2/manualtest/tasksys.cpp:159-167 | the unit at the cursor was neither run nor claimed, and claiming it keeps the invariant |
| WatermarkScheduler.FinishPreserves | asst2/manualtest/tasksys.cpp:174-185 | running and counting a claimed unit keeps the invariant |
| WatermarkScheduler.FinishCompletes | asst2/manualtest/tasksys.cpp:178-185 | before shutdown a count completes its batch iff every unit of the batch has then run; after shutdown none does; a completing count implies all units ran |
| WatermarkScheduler.RunsInRange | asst2/manualtest/tasksys.cpp:159-176 | every unit run belongs to a submitted batch and has an index below its size; no batch runs more units than it has |
| WatermarkScheduler.AllDoneMeansAllRan | asst2/manualtest/tasksys.cpp:253-260 | with nothing waiting, every ready entry exhausted and every record complete, no unit is claimed and every submitted batch ran completely, each unit once |
| WatermarkScheduler.SyncAllDoneMeansAllRan | asst2/manualtest/tasksys.cpp:259-260 | when the corrected sync condition holds, every submitted batch ran completely, each unit once |
| WatermarkScheduler.EarlySync | asst2/manualtest/tasksys.cpp:259-260 | a reachable state, built from worker steps, where sync's condition as written (`TaskSystem.SyncMayReturn`) holds while batch 1 has not run and the corrected condition `AllDone` does not hold |
| WatermarkScheduler.AsWrittenZeroUnitHangs | asst2/manualtest/tasksys.cpp:160-163 | a reachable state after `run(r, 0)` on a fresh system and worker steps: both queues empty, nothing claimed, every record complete (`TaskSystem.AllDone`), yet the watermark is -1 and sync's condition as written (`TaskSystem.SyncMayReturn`) is false |
| WatermarkScheduler.AsWrittenPromotionStalls | asst2/manualtest/tasksys.cpp:148-153 | the records as written put batch 0's record under id 1; batch 0's count then creates {1, 0}, never completes, and the watermark stays -1 |
| WatermarkScheduler.DependentRunsFirst | asst2/manualtest/tasksys.cpp:147-183 | a reachable state, built from worker steps, where batch 1's unit has run while the unit of batch 0, its dependency, is claimed and has not run |
| WatermarkScheduler.CompletedPrefix | asst2/manualtest/tasksys.cpp:183 | the corrected watermark: every id above the start and at or below it has completed, the next id below n has not, and it stays below n |
| WatermarkScheduler.CompletedPrefixMonotone | asst2/manualtest/tasksys.cpp:183 | more completed batches never lower the corrected watermark |
| WatermarkScheduler.CorrectedPromotionWaits | asst2/manualtest/tasksys.cpp:149 | with the corrected watermark, a batch that line 149's test promotes has every dependency it lists completed |
| WatermarkScheduler.CorrectedSyncMeansAllCompleted | asst2/manualtest/tasksys.cpp:259-260 | with the corrected watermark, sync's condition holds iff every submitted batch has completed |
| WatermarkScheduler.CorrectedDependentWaits | asst2/manualtest/tasksys.cpp:149-183 | on DependentRunsFirst's input, with batch 2 completed and batch 0 not, the watermark as written (2) promotes batch 1 and the corrected one (-1) does not |
| WatermarkScheduler.AsWrittenDoubleRun | asst2/manualtest/tasksys.cpp:166-176 | two workers claiming both units of a 2-unit batch before running both run index 1; the two counts still complete the batch |
| BulkLaunch.SerialRun | asst2/part_a/tasksys.cpp:25-29 | calls runTask with 0, 1, ..., n-1 in order, none when n <= 0 |
| BulkLaunch.SerialRunsEachOnce | asst2/part_a/tasksys.cpp:25-28 | each index in [0,n) is called exactly once, in increasing order, and no other |
| BulkLaunch.IndexDispenser.constructor | asst2/part_a/tasksys.cpp:78 | the counter starts at 0 with nothing handed out |
| BulkLaunch.IndexDispenser.FetchAdd | asst2/part_a/tasksys.cpp:84 | returns the old counter and increments it; the value counts as handed out iff it is below n |
| BulkLaunch.ThreadTask | asst2/part_a/tasksys.cpp:82-88 | a thread runs exactly the indices it draws below n, and stops on the first draw at or above n |
| BulkLaunch.SpawnRun | asst2/part_a/tasksys.cpp:70-101 | with at least one thread the threads together run exactly 0..n-1, each once; with none, nothing runs |
| BulkLaunch.Items | asst2/part_a/tasksys.cpp:199-204 | the closures for indices 0..k-1 of a batch of n, in order |
| BulkLaunch.ItemsEachOnce | asst2/part_a/tasksys.cpp:199-204 | a batch holds the closure of each index in [0,n) exactly once and no other |
| BulkLaunch.ThreadPool.constructor | asst2/part_a/tasksys.cpp:157-172 | an empty queue, no active task, done unset |
| BulkLaunch.ThreadPool.Enqueue | asst2/part_a/tasksys.cpp:197-205 | appends exactly the n closures for indices 0..n-1, in order; nothing else changes |
| BulkLaunch.ThreadPool.Take | asst2/part_a/tasksys.cpp:132-141 | leaves iff done is set and the queue is empty; waits iff neither; otherwise removes exactly the front closure and increments activeTasks |
| BulkLaunch.ThreadPool.Finish | asst2/part_a/tasksys.cpp:147-153 | decrements activeTasks, records the closure as finished, and notifies iff the queue is empty and no closure is active |
| BulkLaunch.ThreadPool.Shutdown | asst2/part_a/tasksys.cpp:174-179 | sets done and changes nothing else |
| BulkLaunch.ThreadPool.WorkerLoop | asst2/part_a/tasksys.cpp:125-155 | after shutdown a worker runs every queued closure in queue order before it leaves |
| BulkLaunch.RunReturnMeansAllRan | asst2/part_a/tasksys.cpp:210-211 | in any reachable state where run's wait predicate (`ThreadPool.RunMayReturn`) holds, every closure ever queued has finished |
| TopDownBfs.EdgeEnd | biggraphs-ec/bfs/bfs.cpp:41-44 | a vertex's out-edges end at the next vertex's start, or at num_edges for the last vertex, never before they start |
| TopDownBfs.EdgeRangesInOrder | biggraphs-ec/bfs/bfs.cpp:41-44 | the edge ranges of the vertices follow vertex order, adjacent ones meet, and the last ends at num_edges |
| TopDownBfs.Neighbors | biggraphs-ec/bfs/bfs.cpp:47-48 | the targets of a vertex's out-edges, one per edge, all vertices of the graph |
| TopDownBfs.CountVisit | biggraphs-ec/bfs/bfs.cpp:49-50 | marking an unvisited vertex visited lowers the unvisited count by one |
| TopDownBfs.VertexSet.Init | biggraphs-ec/bfs/bfs.cpp:21-25 | capacity set to the requested count, fill count 0 |
| TopDownBfs.VertexSet.Clear | biggraphs-ec/bfs/bfs.cpp:17-19 | fill count 0, capacity and storage unchanged |
| TopDownBfs.VertexSet.Add | biggraphs-ec/bfs/bfs.cpp:51-52 | the contents grow by exactly the added vertex |
| TopDownBfs.FollowEdge | biggraphs-ec/bfs/bfs.cpp:48-53 | an edge to an unvisited vertex sets its distance to the source's plus one and appends it; an edge to a visited one changes nothing |
| TopDownBfs.VisitOutEdges | biggraphs-ec/bfs/bfs.cpp:41-54 | one frontier vertex's step: all its targets end up visited, visited distances are kept, each newly visited vertex gets its distance plus one and is appended exactly once |
| TopDownBfs.TopDownStep | biggraphs-ec/bfs/bfs.cpp:30-56 | the whole step: every target of a frontier vertex is visited after it, visited distances are unchanged, each newly visited vertex is a frontier target with that vertex's distance plus one, and the new frontier grows by exactly the newly visited vertices, each once |
| TopDownBfs.SteppedCompose | biggraphs-ec/bfs/bfs.cpp:37-55 | stepping from a frontier and then from one more vertex is the step from the extended frontier |
| TopDownBfs.UniformFrontierDistance | biggraphs-ec/bfs/bfs.cpp:107-125 | when all frontier vertices share one distance, every vertex the step visits gets distances[frontier[0]] + 1, the single value the parallel step writes |
| TopDownBfs.LevelAdvance | biggraphs-ec/bfs/bfs.cpp:190-213 | a step from the level-L frontier yields exactly the level-(L+1) frontier and state, and uses up as many unvisited vertices as it appends |
| TopDownBfs.AdvanceLevel | biggraphs-ec/bfs/bfs.cpp:196-201 | clearing the new frontier and stepping moves the search from level L to L+1 with the new frontier within capacity |
| TopDownBfs.LevelDone | biggraphs-ec/bfs/bfs.cpp:190 | an empty frontier at level L leaves the final labelling |
| TopDownBfs.BfsTopDown | biggraphs-ec/bfs/bfs.cpp:172-214 | starting from all unvisited and the root at 0, the level loop terminates with the root at 0, every edge from a visited vertex leading to a visited vertex at most one level further, and every other visited vertex one level after an in-neighbour |
| TopDownBfs.PathsNoShorter | biggraphs-ec/bfs/bfs.cpp:168-171 | every vertex a path from the root reaches is visited, at a distance no greater than the path's length |
| TopDownBfs.ParentOf | biggraphs-ec/bfs/bfs.cpp:168-171 | every visited vertex other than the root has an in-neighbour one level closer |
| TopDownBfs.ShortestPathsOnly | biggraphs-ec/bfs/bfs.cpp:168-171 | every visited vertex is reached by a path from the root whose length is exactly its distance |
| TopDownBfs.FlattenLength | biggraphs-ec/bfs/bfs.cpp:133-136 | the buffers laid end to end take exactly the total computed by the first loop |
| TopDownBfs.BlocksInOrder | biggraphs-ec/bfs/bfs.cpp:145-151 | each buffer's block ends no later than the next block's offset, and within the total |
| TopDownBfs.FlattenAt | biggraphs-ec/bfs/bfs.cpp:143-156 | element j of buffer t lands at the sizes of the buffers before t plus j |
| TopDownBfs.MergeBuffers | biggraphs-ec/bfs/bfs.cpp:133-157 | after the merge the new frontier holds its old contents followed by every buffer's vertices, in thread order: the blocks are disjoint and fill [start_index, start_index + total) exactly |
| TensorAccess.TwoDimRead | cs149gpt/module.cpp:18-22 | the value read is an element of the buffer; for in-range coordinates it is column y of row x, rows being consecutive slices of sizeX elements |
| TensorAccess.TwoDimInBounds | cs149gpt/module.cpp:18-22 | for x < rows and y < sizeX the 2D index lies in [0, rows * sizeX) |
| TensorAccess.TwoDimInjective | cs149gpt/module.cpp:18-22 | two in-range coordinate pairs with the same 2D index are equal |
| TensorAccess.TwoDimWrite | cs149gpt/module.cpp:33-35 | the buffer afterwards is the old buffer with only the element at index x*sizeX+y replaced |
| TensorAccess.TwoDimWriteRead | cs149gpt/module.cpp:18-35 | after a write, reading the written coordinates gives the written value and every other in-range element reads as before |
| TensorAccess.FourDimNested | cs149gpt/module.cpp:40-42 | the 4D index is the cube/plane/row/column decomposition: the 2D index applied three times |
| TensorAccess.FourDimRead | cs149gpt/module.cpp:38-43 | the 4D read is the 2D read of column b in the row given by the nested 2D index of (x, y) and z |
| TensorAccess.FourDimInBounds | cs149gpt/module.cpp:38-43 | for in-range coordinates the 4D index lies in [0, B*sizeX*sizeY*sizeZ) |
| TensorAccess.FourDimInjective | cs149gpt/module.cpp:38-43 | two in-range coordinate tuples with the same 4D index are equal |
| TensorAccess.FourDimWrite | cs149gpt/module.cpp:66-69 | the buffer afterwards is the old buffer with only the element at the 4D index replaced |
| TensorAccess.FourDimWriteRead | cs149gpt/module.cpp:38-69 | after a write, reading the written coordinates gives the written value and every other in-range element reads as before |
| TensorAccess.TileBound | cs149gpt/module.cpp:255-261 | a tile bound never exceeds the extent nor the tile's start plus dim |
| TensorAccess.TileCovers | cs149gpt/module.cpp:255-261 | every index in [0,N) lies in the tile starting at the multiple of dim below it, a tile the loop visits |
| TensorAccess.TilesDisjoint | cs149gpt/module.cpp:290-295 | tiles starting at different multiples of dim share no index |
| TensorAccess.TiledIndices | cs149gpt/module.cpp:255-264 | the tile loop and the loop within each tile together visit 0, ..., N-1, each once, in increasing order |

## Left out

- Threads, mutexes, condition variables, notification, `join` and atomics. Each step is one atomic method, and the model makes no claims about liveness or lost wake-ups.
- DagScheduler.TaskSystem.WorkerStep: one atomic step fuses three parts of the worker's pass. These are the locked pop (`asst2/part_b/tasksys.cpp:141-159`), the unlocked `runTask`, `++completedCount` and `deps.erase` (169-180), and the pushes under the re-taken lock (181-189). The model does not capture the interleavings inside a pass. Two workers could both see the last count and both resolve. An unlocked erase could also race with a submission that reads the same set. `DagScheduler.CountAndResolve` is the second and third parts on values; it is one step too.
- DagScheduler.TaskSystem.WorkerStep, DagScheduler.CountAndResolve and DagScheduler.Resolve: they count a unit in the registry entry of its batch id and release only the dependents whose set the erase empties, as lines 157 and 176 evidently intend. As written, line 157 looks the entry up as `tasks[taskIndex]` (`AsWrittenBump`, `AsWrittenBumpMiscounts`), and lines 182-186 enqueue every batch whose set is empty (`AsWrittenPromoted`, `AsWrittenRequeuesFinished`); see the Findings rows for lines 157 and 182-186.
- DagScheduler.AsWrittenBump: it requires the unit's index to be a registered id. As written, `tasks[taskIndex]` with an index that is not one default-inserts an entry with a null runnable, and line 169 then calls through it. That undefined behaviour is not modelled. Neither is the wrong runnable and total that the as-written lookup passes to `runTask`.
- WatermarkScheduler.TaskSystem.WorkerStep: the `killed` test at `asst2/manualtest/tasksys.cpp:132` is fused with the locked section that follows it.
- WatermarkScheduler.TaskSystem.ClaimFront and WatermarkScheduler.TaskSystem.RunClaimed: the source keeps `task`, a `ReadyTask*` into the ready queue, across the unlocked run. Another worker's pop at line 162 can destroy the entry, after which line 176 reads freed memory. The model carries the claimed unit's id and index instead, and the as-written re-read of the cursor is `AsWrittenRunIndex`. The dangling read itself is not modelled.
- WatermarkScheduler.TaskSystem.PopFront: it pops an exhausted entry as lines 160-163 do, so a batch of no units is popped without any count, never completes, and never raises the watermark. The model keeps this as written: `run(r, 0)` and any `sync` whose last batch has no units wait for ever (`AsWrittenZeroUnitHangs`, Findings row for lines 160-163). The corrected condition `TaskSystem.AllDone` holds there (`SyncAllDoneMeansAllRan`).
- WatermarkScheduler.RecordElsewhere: it is proved for the corrected records of line 153. As written, line 153 writes under the id of the next, unpromoted entry and so overwrites that batch's record; see `AsWrittenRecord` and the Findings row for lines 148-153.
- WatermarkScheduler.Finish: it runs the unit claimed under the lock, the index line 176 evidently intends. As written, line 176 reads the cursor again after the lock is released; see `AsWrittenRunIndex` and the Findings row for lines 166-176.
- WatermarkScheduler.Promote: the class keeps line 183's watermark, the largest finished id, so its promotion does not keep dependency order (`DependentRunsFirst`, Findings row for line 183). The corrected watermark, under which every promoted batch's dependencies have completed, is proved on values only (`CompletedPrefix`, `CorrectedPromotionWaits`); the class does not use it.
- WatermarkScheduler.AsWrittenRecord: when the pop at line 151 empties the waiting queue, `nextTask` refers to a destroyed element. The model takes the promoted entry's own values there.
- WatermarkScheduler.TaskSystem.Shutdown: the destructor's `taskProcess.clear()` (line 210) runs without the record lock. The model makes it one atomic step.
- WatermarkScheduler.TaskSystem.RunAsyncWithDeps: `nextTaskID++` at line 249 is outside the waiting-queue lock. The model makes the push and the increment one step, so concurrent submissions always get distinct ids.
- WatermarkScheduler.RecordAt, WatermarkScheduler.Promote, WatermarkScheduler.PromoteAll and WatermarkScheduler.TaskSystem.PromoteWaiting: they record each promoted batch under its own id and size, as line 153 evidently intends. The records line 153 writes as written are `AsWrittenRecord`, and the stall they cause is the Findings row for lines 148-153.
- WatermarkScheduler.PromotePreserves: it is proved for the corrected promotion, which records each batch under its own id. The records of line 153 as written break the invariant's `Tracked` part; `AsWrittenPromotionStalls` shows the consequence (see Findings).
- WatermarkScheduler.RunsInRange: once claims and runs are separate steps, a batch's units may run out of index order across workers. The model proves only that each unit runs at most once with an index below the batch's size, not that indices run in order.
- DagScheduler.TaskSystem.RunAsyncWithDeps and DagScheduler.TaskSystem.Run: `nextBatchId++` at lines 234 and 272 runs before the lock is taken at 235 and 275. The header that declares `nextBatchId` is not part of this model, so whether it is atomic is not known. The model draws the id and registers the batch in one step, so concurrent submissions always get distinct, increasing ids.
- DagScheduler.TaskSystem.RunAsyncWithDeps: the class registers the dependency ids as given (line 273), as written, so a dependency on a batch that is already done is never satisfied (`AsWrittenRetiredDependencyHangs`, `StepKeepsRetiredDependency`). The corrected submission is proved on values only (`CorrectedSubmitPreserves`); the class does not use it. A dependency on an id not handed out yet is satisfied only if a batch with that id is later submitted and completes; the model does not state this.
- DagScheduler.CountAndResolve: a batch of 0 units that the resolver releases has no unit queued, so no count completes it and its own dependents are never released. The model keeps this as written and does not correct it.
- `completeAll` in `asst2/part_b/tasksys.cpp`. It is waited on but never notified, so `run` as written may block forever. The model states only what holds when its wait condition is true (`RunReturnMeansBatchRan`).
- The body of `IRunnable::runTask`. It is a callback supplied by test harnesses that are not part of this model. A call is recorded as the unit it runs.
- Debug output to `std::cout`/`std::cerr`. The `runnable == nullptr` diagnostic in the part_b worker is also left out.
- The stub task systems, which only loop or return 0:
  - part_b's serial, spawn and spinning systems;
  - part_a's `runAsyncWithDeps`/`sync`;
  - part_a's sleeping system.
- The headers `asst2/part_a/tasksys.h` and `asst2/part_b/tasksys.h` are not part of this model. Field shapes are taken from the `.cpp` files.
- The comparator of the manualtest `waitingQueue` lives in a header that is not part of this model. Its top is modelled as the entry with the smallest dependency. Among equal dependencies the model takes the one submitted first. That is an assumption, since `std::priority_queue` is not stable. The general lemmas do not rely on it, and the runs of `EarlySync` and `DependentRunsFirst` exist under either order, with the claims of batches 0 and 2 swapped.
- The initial values of the manualtest `finishedTaskID` and `nextTaskID`: their assignments in the constructor are commented out. The model takes -1 and 0.
- BulkLaunch.SpawnRun: the spawned threads run one after another, which is one of their interleavings. Any interleaving of `ThreadTask`'s `FetchAdd` steps keeps `IndexDispenser.Valid`, but the model does not enumerate them.
- BulkLaunch.ThreadPool.WorkerLoop: it is stated for a single worker after shutdown, with no other closure running. Concurrent workers are the interleavings of `Take`/`Finish`.
- DagScheduler.Resolve: it visits the registry in ascending id order. The source's `unordered_map` order is unspecified, and the model does not cover the other orders.
- `bfs_top_down` calls `top_down_step_parallelize1`, whose OpenMP step, `__sync_bool_compare_and_swap` and `__sync_fetch_and_add` are replaced by the sequential `top_down_step`. What the parallel step adds is covered separately:
  - its `new_dist` by `UniformFrontierDistance`;
  - its merge by `MergeBuffers`.
- `top_down_step_parallelize`, `top_down_step2`, `bfs_bottom_up`, `bfs_hybrid` and `CycleTimer` are left out. So is `graph.h`: its graph is the CSR record `Graph`.
- BulkLaunch.IndexDispenser.FetchAdd, BulkLaunch.ThreadTask and BulkLaunch.SpawnRun: the counter is an unbounded integer. The source's `std::atomic<int>` (line 78) wraps in `fetch_add` (line 84) once n + numThreads - 1 exceeds INT_MAX; the model does not capture that wrap. The scheduler counters are unbounded too, and their widths are not modelled: `nextBatchId` and `completedCount` in part_b, and `nextTaskID`, `finishedTaskID` and the progress counts in manualtest.
- TopDownBfs.BfsTopDown: `vertex_set_init` allocates with `malloc`, modelled as a fresh array. `int` overflow of counts is not modelled.
- TensorAccess.TwoDimInBounds and TensorAccess.FourDimInBounds: indices are unbounded integers. The source's 32-bit `int` products could overflow for tensors of more than 2^31 elements.
- All floating-point work in `cs149gpt/module.cpp` is left out: the matrix products, `exp`, softmax and the attention kernels themselves. So is the torch/pybind glue, `myFusedAttention` (which does not compile) and the empty `myFlashAttention`. Only addressing and tile bounds are modelled.
- The remaining files of the repository: the mandelbrot, sqrt and saxpy programs.

## Findings

| source | as written | input that shows it | evidently intended | confidence | as-written member | corrected member |
|---|---|---|---|---|---|---|
| asst2/part_b/tasksys.cpp:157 | the unit's batch is looked up as `tasks[taskIndex]`, keyed by the unit index | batch 0 of 1 unit and batch 1 of 2 units: batch 0 is counted twice and batch 1 once, so batch 1 never completes | look the batch up by its id, `tasks[batchId]` | high (not executed) | DagScheduler.AsWrittenBumpMiscounts | DagScheduler.CountAndResolve |
| asst2/part_b/tasksys.cpp:182-186 | after a batch finishes, every batch whose dependency set is empty is enqueued | any finished batch with at least one unit: its own set is empty, so all its units are enqueued a second time | enqueue only the dependents whose set the erase just emptied | high (not executed) | DagScheduler.AsWrittenRequeuesFinished | DagScheduler.Resolve |
| asst2/manualtest/tasksys.cpp:148-153 | `nextTask` is a reference to the waiting queue's top; the record of line 153 is written under `nextTask`'s id and size, which after the pop at line 151 are those of the next entry | batch 0 (no deps, 1 unit) and batch 1 (deps [0], 1 unit): promoting batch 0 records {0, 1} under id 1; batch 0's count creates {1, 0} under id 0, never completes, the watermark stays -1, and batch 1 is never promoted | record the promoted batch under its own id and size | high (not executed) | WatermarkScheduler.AsWrittenPromotionStalls | WatermarkScheduler.Promote |
| asst2/manualtest/tasksys.cpp:166-176 | the worker keeps only the address of its ready entry (`ReadyTask* task`), and after releasing the lock runs `task->currentTask - 1`, read again | batch 0 of 2 units; two workers each claim a unit (cursor 0 to 1 to 2) before either runs: both run index 1, index 0 never runs, and the two counts still complete the batch | run the index claimed under the lock, `currentTask` before the increment | high (not executed) | WatermarkScheduler.AsWrittenDoubleRun | WatermarkScheduler.TaskSystem.RunClaimed |
| asst2/manualtest/tasksys.cpp:259-260 | `sync` waits for `finishedTaskID + 1 == nextTaskID`, the watermark being the largest finished id | batch 0 (no deps), batch 1 (deps [0]), batch 2 (no deps); one worker runs batches 0 and 2, the watermark reaches 2, and `sync` may return before batch 1 has run | wait until every submitted batch has completed | high (not executed) | WatermarkScheduler.EarlySync | WatermarkScheduler.SyncAllDoneMeansAllRan |
| asst2/manualtest/tasksys.cpp:160-163 | a ready entry whose cursor is at its size is popped; only the count of line 179 completes a batch and raises the watermark | `run(r, 0)` on a fresh system: batch 0 is promoted with the record {0, 0} and popped at once, no unit runs, the watermark stays -1, and `sync` (lines 259-260), which `run` waits on, never returns | a batch of no units completes at once, as `sync` would see if it waited until nothing is left to do | high (not executed) | WatermarkScheduler.AsWrittenZeroUnitHangs | WatermarkScheduler.SyncAllDoneMeansAllRan |
| asst2/manualtest/tasksys.cpp:183 | the watermark becomes `max(finishedTaskID, id)`, the largest finished id, and line 149 promotes a batch once its one recorded dependency is at most the watermark | batch 0 (no deps), batch 1 (deps [0]), batch 2 (no deps), one unit each: a worker claims batch 0's unit, another runs batch 2, the watermark becomes 2, and batch 1 is promoted and run while batch 0's unit has not run | promote a batch only once all of its dependencies have completed, with a watermark that every id at or below it has completed | high (not executed) | WatermarkScheduler.DependentRunsFirst | WatermarkScheduler.CorrectedPromotionWaits |
| asst2/part_b/tasksys.cpp:272-292 | a submission registers the listed ids as its dependency set and queues its units only when the list is empty; ids are erased from sets only when their batch completes | batch 0 of one unit runs to completion; batch 1 is then submitted with deps [0]: its set {0} is never erased, nothing is queued, and `sync` never returns | leave out of the set the dependencies that are already done, and queue the batch when none is left | high (not executed) | DagScheduler.AsWrittenRetiredDependencyHangs | DagScheduler.CorrectedSubmitPreserves |

=== FILE: bulk_launch.dfy ===
/**
 * The single-batch task systems of asst2/part_a/tasksys.cpp: the serial
 * loop, the "always spawn" system whose threads draw indices from a shared
 * counter, and the spinning thread pool whose workers pop closures from a
 * queue and count the closures they are running in `activeTasks`.
 *
 * Threads, locks, condition variables and atomics are not modelled: every
 * critical section (and every `fetch_add`) is one atomic method, and the
 * threads of a launch are any interleaving of calls to those methods. The
 * user callback `runTask(i, n)` is recorded as the index `i` it is called
 * with.
 */
module BulkLaunch {

  /** The indices 0, 1, ..., n-1 in increasing order; none when n <= 0. */
  function Indices(n: int): (r: seq<int>)
    ensures |r| == if n <= 0 then 0 else n
    ensures forall i :: 0 <= i < |r| ==> r[i] == i
    decreases n
  {
    if n <= 0 then [] else Indices(n - 1) + [n - 1]
  }

  /** The calls made by several threads, one thread after another. */
  function Concat(ss: seq<seq<int>>): seq<int> {
    if ss == [] then [] else Concat(ss[..|ss| - 1]) + ss[|ss| - 1]
  }

  lemma ConcatSnoc(ss: seq<seq<int>>, s: seq<int>)
    ensures Concat(ss + [s]) == Concat(ss) + s
  {
    assert (ss + [s])[..|ss + [s]| - 1] == ss;
  }

  // ---------------------------------------------------------------------
  // TaskSystemSerial::run
  // ---------------------------------------------------------------------

  /** The serial `run`: calls `runTask(i, n)` for i = 0, ..., n-1 on the
      calling thread; `calls` lists the indices passed, in call order. */
  method SerialRun(n: int) returns (calls: seq<int>)
    ensures |calls| == if n <= 0 then 0 else n
    ensures forall i :: 0 <= i < |calls| ==> calls[i] == i
  {
    calls := [];
    var i := 0;
    while i < n
      invariant 0 <= i && (i <= n || i == 0)
      invariant calls == Indices(i)
    {
      calls := calls + [i];
      i := i + 1;
    }
  }

  /** Every index of the batch is called exactly once by the serial `run`. */
  lemma SerialRunsEachOnce(n: int, calls: seq<int>, k: int)
    requires |calls| == (if n <= 0 then 0 else n) && forall i :: 0 <= i < |calls| ==> calls[i] == i
    ensures k in calls <==> 0 <= k < n
    ensures forall i, j :: 0 <= i < j < |calls| ==> calls[i] < calls[j]
  {
    if 0 <= k < n {
      assert calls[k] == k;
    }
  }

  // ---------------------------------------------------------------------
  // TaskSystemParallelSpawn::run
  // ---------------------------------------------------------------------

  /**
   * The shared counter `taskIndex` of one spawn `run`, with the batch size.
   * `handed` records every value below the batch size that `fetch_add` has
   * returned, in the order it returned them.
   */
  class IndexDispenser {
    var taskIndex: int
    const numTotalTasks: int
    ghost var handed: seq<int>

    /** Exactly the indices below the counter have been handed out, each
        once and in increasing order. */
    ghost predicate Valid()
      reads this
    {
      0 <= taskIndex && handed == Indices(if taskIndex < numTotalTasks then taskIndex else numTotalTasks)
    }

    /** `std::atomic<int> taskIndex(0)`. */
    constructor(n: int)
      ensures Valid() && taskIndex == 0 && numTotalTasks == n && handed == []
    {
      taskIndex := 0;
      numTotalTasks := n;
      handed := [];
    }

    /** `taskIndex.fetch_add(1)`: returns the old value and bumps the
        counter; a value below the batch size is an index handed out. */
    method FetchAdd() returns (i: int)
      requires Valid()
      modifies this
      ensures Valid()
      ensures i == old(taskIndex) && taskIndex == i + 1
      ensures handed == old(handed) + if i < numTotalTasks then [i] else []
    {
      i := taskIndex;
      taskIndex := taskIndex + 1;
      if i < numTotalTasks {
        handed := handed + [i];
      }
    }
  }

  /**
   * The body of each spawned thread: draws indices until one is out of
   * range and runs each index it drew. However the threads interleave,
   * what each one runs is a slice of what the counter hands out.
   */
  method ThreadTask(d: IndexDispenser) returns (ran: seq<int>)
    requires d.Valid()
    modifies d
    ensures d.Valid()
    ensures d.handed == old(d.handed) + ran
    ensures d.taskIndex > d.numTotalTasks
    ensures forall k :: k in ran ==> 0 <= k < d.numTotalTasks
  {
    ran := [];
    while true
      invariant d.Valid()
      invariant d.handed == old(d.handed) + ran
      invariant forall k :: k in ran ==> 0 <= k < d.numTotalTasks
      decreases if d.taskIndex <= d.numTotalTasks then d.numTotalTasks - d.taskIndex else 0
    {
      var i := d.FetchAdd();
      if i >= d.numTotalTasks {
        break;
      }
      ran := ran + [i];
    }
  }

  /**
   * The spawn `run`: starts `numThreads` threads on a fresh counter and
   * joins them. The threads are run one after another, which is one of
   * their interleavings; `ran[t]` is what thread t ran. With at least one
   * thread the batch runs completely, each index once; with none, nothing
   * runs.
   */
  method SpawnRun(n: int, numThreads: int) returns (ran: seq<seq<int>>)
    ensures |ran| == if numThreads <= 0 then 0 else numThreads
    ensures numThreads >= 1 ==> Concat(ran) == Indices(n)
    ensures numThreads <= 0 ==> Concat(ran) == []
  {
    var d := new IndexDispenser(n);
    ran := [];
    var t := 0;
    while t < numThreads
      invariant 0 <= t && (t <= numThreads || t == 0) && |ran| == t
      invariant d.Valid() && d.numTotalTasks == n
      invariant d.handed == Concat(ran)
      invariant t >= 1 ==> d.taskIndex > n
    {
      var r := ThreadTask(d);
      ConcatSnoc(ran, r);
      ran := ran + [r];
      t := t + 1;
    }
  }

  // ---------------------------------------------------------------------
  // TaskSystemParallelThreadPoolSpinning
  // ---------------------------------------------------------------------

  /** The closure `[=] { runnable->runTask(i, num_total_tasks); }`. */
  datatype WorkItem = WorkItem(index: int, total: int)

  /** What a worker does on waking: leave, keep waiting, or take an item. */
  datatype TakeOutcome = Exit | Wait | Took(item: WorkItem)

  /** The first k closures of a batch of n. */
  function Items(k: int, n: int): (r: seq<WorkItem>)
    ensures |r| == if k <= 0 then 0 else k
    ensures forall i :: 0 <= i < |r| ==> r[i] == WorkItem(i, n)
    decreases k
  {
    if k <= 0 then [] else Items(k - 1, n) + [WorkItem(k - 1, n)]
  }

  /**
   * The pool's shared state: the closure queue `tasks`, the number of
   * closures being run `activeTasks`, and the shutdown flag `done`. Ghost
   * state: every closure ever queued (`submitted`), those being run
   * (`running`) and those that have finished (`finished`).
   */
  class ThreadPool {
    var tasks: seq<WorkItem>
    var activeTasks: int
    var done: bool
    ghost var submitted: seq<WorkItem>
    ghost var running: multiset<WorkItem>
    ghost var finished: seq<WorkItem>

    /** `activeTasks` counts the closures taken and not yet finished, and
        every queued closure is in exactly one of: the queue, running,
        finished. */
    ghost predicate Valid()
      reads this
    {
      && activeTasks == |running|
      && multiset(submitted) == multiset(tasks) + running + multiset(finished)
    }

    /** The constructor (the worker threads themselves are not modelled). */
    constructor()
      ensures Valid() && !done && tasks == [] && activeTasks == 0
      ensures submitted == [] && running == multiset{} && finished == []
    {
      tasks := [];
      activeTasks := 0;
      done := false;
      submitted := [];
      running := multiset{};
      finished := [];
    }

    /** The enqueueing half of `run`: one closure per index, in index
        order, under the lock. */
    method Enqueue(n: int)
      requires Valid()
      modifies this
      ensures Valid()
      ensures tasks == old(tasks) + Items(n, n) && submitted == old(submitted) + Items(n, n)
      ensures activeTasks == old(activeTasks) && done == old(done)
      ensures running == old(running) && finished == old(finished)
    {
      ghost var tasks0 := tasks;
      var i := 0;
      while i < n
        invariant 0 <= i && (i <= n || i == 0)
        invariant tasks == tasks0 + Items(i, n)
        invariant activeTasks == old(activeTasks) && done == old(done) && submitted == old(submitted)
        invariant running == old(running) && finished == old(finished)
      {
        tasks := tasks + [WorkItem(i, n)];
        i := i + 1;
      }
      assert Items(i, n) == Items(n, n);
      AppendBoth(submitted, tasks0, Items(n, n), running, finished);
      submitted := submitted + Items(n, n);
    }

    /** What `run` waits for, and what makes a finishing worker notify:
        the queue is empty and no closure is being run. */
    predicate RunMayReturn()
      reads this
    {
      tasks == [] && activeTasks == 0
    }

    /**
     * A worker's first critical section: it leaves once `done` is set and
     * the queue is empty, keeps waiting while neither `done` nor work is
     * there, and otherwise takes the front closure and counts it active.
     */
    method Take() returns (outcome: TakeOutcome)
      requires Valid()
      modifies this
      ensures Valid()
      ensures old(tasks) == [] ==>
                && outcome == (if old(done) then Exit else Wait)
                && tasks == old(tasks) && activeTasks == old(activeTasks) && running == old(running)
      ensures old(tasks) != [] ==>
                && outcome == Took(old(tasks)[0])
                && tasks == old(tasks)[1..]
                && activeTasks == old(activeTasks) + 1
                && running == old(running) + multiset{old(tasks)[0]}
      ensures done == old(done) && submitted == old(submitted) && finished == old(finished)
    {
      if tasks == [] {
        return if done then Exit else Wait;
      }
      var item := tasks[0];
      assert tasks == [item] + tasks[1..];
      tasks := tasks[1..];
      activeTasks := activeTasks + 1;
      running := running + multiset{item};
      return Took(item);
    }

    /** A worker's second critical section, after running `item`: the
        closure is no longer active, and the worker notifies `run` when
        nothing is queued or active. */
    method Finish(item: WorkItem) returns (notify: bool)
      requires Valid() && item in running
      modifies this
      ensures Valid()
      ensures activeTasks == old(activeTasks) - 1
      ensures running == old(running) - multiset{item} && finished == old(finished) + [item]
      ensures tasks == old(tasks) && done == old(done) && submitted == old(submitted)
      ensures notify <==> RunMayReturn()
    {
      activeTasks := activeTasks - 1;
      running := running - multiset{item};
      finished := finished + [item];
      notify := tasks == [] && activeTasks == 0;
    }

    /** The destructor's critical section: sets `done`. */
    method Shutdown()
      requires Valid()
      modifies this
      ensures Valid() && done
      ensures tasks == old(tasks) && activeTasks == old(activeTasks)
      ensures submitted == old(submitted) && running == old(running) && finished == old(finished)
    {
      done := true;
    }

    /**
     * `workerThreadLoop` after shutdown, with no other worker mid-closure:
     * the worker takes and runs every queued closure in queue order and
     * leaves only once the queue is empty.
     */
    method WorkerLoop() returns (ran: seq<WorkItem>)
      requires Valid() && done && running == multiset{}
      modifies this
      ensures Valid() && tasks == [] && activeTasks == 0
      ensures ran == old(tasks) && finished == old(finished) + ran
    {
      ran := [];
      while true
        invariant Valid() && done && running == multiset{}
        invariant old(tasks) == ran + tasks
        invariant finished == old(finished) + ran
        decreases |tasks|
      {
        var outcome := Take();
        match outcome {
          case Exit =>
            break;
          case Wait =>
            assert false;
          case Took(item) =>
            var notify := Finish(item);
            ran := ran + [item];
        }
      }
    }
  }

  /** Queueing the same closures also records them as submitted. */
  lemma AppendBoth(s: seq<WorkItem>, t: seq<WorkItem>, x: seq<WorkItem>, r: multiset<WorkItem>, f: seq<WorkItem>)
    requires multiset(s) == multiset(t) + r + multiset(f)
    ensures multiset(s + x) == multiset(t + x) + r + multiset(f)
  {
  }

  /** When `run` may return, every closure ever queued has finished. */
  lemma RunReturnMeansAllRan(p: ThreadPool)
    requires p.Valid() && p.RunMayReturn()
    ensures multiset(p.finished) == multiset(p.submitted)
  {
    assert |p.running| == 0;
    assert p.running == multiset{};
  }

  /** The closures of one batch are pairwise different, so a batch whose
      closures have all finished has run each index exactly once. */
  lemma {:induction false} ItemsEachOnce(n: int, k: int)
    ensures multiset(Items(n, n))[WorkItem(k, n)] == if 0 <= k < n then 1 else 0
  {
    ItemsCount(n, n, k);
  }

  lemma {:induction false} ItemsCount(m: int, n: int, k: int)
    ensures multiset(Items(m, n))[WorkItem(k, n)] == if 0 <= k < m then 1 else 0
    decreases m
  {
    if m > 0 {
      ItemsCount(m - 1, n, k);
      assert Items(m, n) == Items(m - 1, n) + [WorkItem(m - 1, n)];
    }
  }
}

=== FILE: dag_scheduler.dfy ===
/**
 * The sleeping thread-pool task system with inter-batch dependencies
 * (asst2/part_b/tasksys.cpp, TaskSystemParallelThreadPoolSleeping).
 *
 * State: a registry `tasks` from batch id to {numTotalTasks, deps,
 * completedCount}, a FIFO `readyQueue` of (batchId, unitIndex) pairs, the
 * monotone id generator `nextBatchId` and the `stopFlag` set by the
 * destructor. Each method is one atomic step. The worker's whole pass is one
 * step (WorkerStep), although the source releases the lock between the pop
 * (lines 140-159), the run and count with the erase (165-180) and the pushes
 * (181-189); the interleavings inside a pass are not modelled. The user
 * callback `runTask` is the ghost `log` append. The ghost `declared`
 * keeps each batch's dependency set as submitted, so that "no unit runs before
 * its dependencies are done" can be stated after the resolver has emptied the
 * live sets.
 *
 * Two places where the code does not do what its comments say are modelled
 * as the comments say, and the code as written is kept beside them
 * (AsWrittenBump, AsWrittenPromoted):
 *  - line 157 looks the unit's batch up as `tasks[taskIndex]`; the model uses
 *    the batch id;
 *  - lines 182-186 enqueue every batch whose dependency set is empty; the
 *    comment at line 176 only promotes the dependents of the finished
 *    batch, which is what the model does.
 *
 * Submission is kept as written: the listed ids become the dependency set
 * (line 273), so a dependency on a batch that has already completed is never
 * erased again and the dependent never runs (AsWrittenRetiredDependencyHangs).
 * The submission that leaves such ids out is CorrectedSubmitPreserves,
 * stated on values.
 */
module DagScheduler {
  import opened TaskUnits

  /** Registry entry of one submitted batch. */
  datatype Batch = Batch(numTotalTasks: int, deps: set<int>, completedCount: int)

  /** What one pass of a worker's loop did. */
  datatype WorkerOutcome = Stopped | Blocked | Executed(unit: Unit)

  /** A batch is done when it was released and all its units ran. */
  predicate Done(t: Batch) {
    t.deps == {} && t.completedCount == t.numTotalTasks
  }

  /** The registry after `finished` is erased from every dependency set. */
  function EraseAll(tasks: map<int, Batch>, finished: int): map<int, Batch> {
    map b | b in tasks :: tasks[b].(deps := tasks[b].deps - {finished})
  }

  /** The dependents released by the completion of `finished`: the batches
      that waited on `finished` and wait on nothing once it is erased. */
  predicate Releases(tasks: map<int, Batch>, finished: int, b: int) {
    b in tasks && finished in tasks[b].deps && tasks[b].deps - {finished} == {}
  }

  function Promoted(tasks: map<int, Batch>, finished: int): set<int> {
    set b | b in tasks && Releases(tasks, finished, b)
  }

  /** The units of the batches listed in `order`, batch after batch. */
  function Expand(order: seq<int>, tasks: map<int, Batch>): seq<Unit>
    requires forall b :: b in order ==> b in tasks
  {
    if order == [] then []
    else
      var last := order[|order| - 1];
      Expand(order[..|order| - 1], tasks) + Units(last, tasks[last].numTotalTasks)
  }

  /** What a registered batch has contributed to the log followed by the
      queue: all of its units once its dependency set is empty, none before. */
  function Expected(b: int, t: Batch): (r: seq<Unit>)
    ensures t.deps == {} ==> r == Units(b, t.numTotalTasks)
    ensures t.deps != {} ==> r == []
  {
    if t.deps == {} then Units(b, t.numTotalTasks) else []
  }

  /** Ids are below `nextBatchId`; every registered batch has its declared
      set, and its live set is part of it. */
  ghost predicate Registered(tasks: map<int, Batch>, declared: map<int, set<int>>, nextBatchId: int) {
    && 0 <= nextBatchId
    && declared.Keys == tasks.Keys
    && (forall b :: b in tasks ==> 0 <= b < nextBatchId)
    && (forall b :: b in tasks ==> tasks[b].deps <= declared[b])
  }

  /** `completedCount` is the number of logged units of the batch. */
  ghost predicate Counted(tasks: map<int, Batch>, log: seq<Unit>) {
    forall b :: b in tasks ==> tasks[b].completedCount == |Of(log, b)|
  }

  /** The log followed by the queue holds exactly the expected units of each
      registered batch, and nothing of any other batch. */
  ghost predicate Issued(tasks: map<int, Batch>, all: seq<Unit>) {
    && (forall b :: b in tasks ==> Of(all, b) == Expected(b, tasks[b]))
    && (forall i :: 0 <= i < |all| ==> all[i].batch in tasks)
  }

  /** A dependency leaves a batch's set only once that dependency is done. */
  ghost predicate Settled(tasks: map<int, Batch>, declared: map<int, set<int>>) {
    forall b, d :: b in tasks && b in declared && d in declared[b] && d !in tasks[b].deps ==>
      d in tasks && Done(tasks[d])
  }

  /** The invariant of the scheduler state. */
  ghost predicate Consistent(tasks: map<int, Batch>, declared: map<int, set<int>>, nextBatchId: int,
                             log: seq<Unit>, queue: seq<Unit>)
  {
    && Registered(tasks, declared, nextBatchId)
    && Counted(tasks, log)
    && Issued(tasks, log + queue)
    && Settled(tasks, declared)
  }

  class TaskSystem {
    var tasks: map<int, Batch>
    var readyQueue: seq<Unit>
    var nextBatchId: int
    var stopFlag: bool
    ghost var declared: map<int, set<int>>
    ghost var log: seq<Unit>

    ghost predicate Valid()
      reads this
    {
      Consistent(tasks, declared, nextBatchId, log, readyQueue)
    }

    /** A fresh task system: no batch, nothing queued, ids from 0. */
    constructor ()
      ensures Valid()
      ensures tasks == map[] && readyQueue == [] && nextBatchId == 0 && !stopFlag && log == []
    {
      tasks := map[];
      readyQueue := [];
      nextBatchId := 0;
      stopFlag := false;
      declared := map[];
      log := [];
    }

    /**
     * runAsyncWithDeps: registers a batch under the next id, and expands it
     * into the ready queue when it has no dependency.
     */
    method RunAsyncWithDeps(numTotalTasks: int, deps: seq<int>) returns (batchId: int)
      requires Valid()
      modifies this
      ensures Valid()
      ensures batchId == old(nextBatchId) && nextBatchId == old(nextBatchId) + 1
      ensures batchId !in old(tasks)
      ensures tasks == old(tasks)[batchId := Batch(numTotalTasks, set d | d in deps, 0)]
      ensures readyQueue == if deps == [] then old(readyQueue) + Units(batchId, numTotalTasks) else old(readyQueue)
      ensures log == old(log) && stopFlag == old(stopFlag)
    {
      batchId := nextBatchId;
      nextBatchId := nextBatchId + 1;
      var dependencies := set d | d in deps;
      ghost var q0 := readyQueue;
      ghost var t0 := tasks;
      tasks := tasks[batchId := Batch(numTotalTasks, dependencies, 0)];
      declared := declared[batchId := dependencies];
      if deps == [] {
        readyQueue := PushUnits(readyQueue, batchId, numTotalTasks);
      }
      assert deps == [] <==> dependencies == {} by {
        if deps != [] { assert deps[0] in dependencies; }
      }
      SubmitPreserves(t0, old(declared), batchId, log, q0, numTotalTasks, dependencies, readyQueue);
    }

    /** run: a dependency-free submission; the caller then waits for RunMayReturn. */
    method Run(numTotalTasks: int) returns (batchId: int)
      requires Valid()
      modifies this
      ensures Valid()
      ensures batchId == old(nextBatchId) && nextBatchId == old(nextBatchId) + 1
      ensures tasks == old(tasks)[batchId := Batch(numTotalTasks, {}, 0)]
      ensures readyQueue == old(readyQueue) + Units(batchId, numTotalTasks)
      ensures log == old(log) && stopFlag == old(stopFlag)
    {
      batchId := RunAsyncWithDeps(numTotalTasks, []);
    }

    /** The predicate `run` waits on for its own batch. */
    predicate RunMayReturn(batchId: int)
      reads this
    {
      batchId in tasks && tasks[batchId].completedCount == tasks[batchId].numTotalTasks
    }

    /** The predicate `sync` waits on: every registered batch has run all its units. */
    predicate SyncMayReturn()
      reads this
    {
      forall b :: b in tasks ==> tasks[b].completedCount >= tasks[b].numTotalTasks
    }

    /** The destructor's stop request. */
    method Shutdown()
      requires Valid()
      modifies this
      ensures Valid() && stopFlag
      ensures tasks == old(tasks) && readyQueue == old(readyQueue) && log == old(log)
      ensures nextBatchId == old(nextBatchId)
    {
      stopFlag := true;
    }

    /**
     * One pass of a worker's loop: with the stop flag set the worker leaves;
     * with an empty queue it blocks; otherwise it takes the front unit, runs
     * it, counts it, and resolves dependents when that was the batch's last.
     */
    method WorkerStep() returns (outcome: WorkerOutcome, ghost promoted: seq<int>)
      requires Valid()
      modifies this
      ensures Valid()
      ensures nextBatchId == old(nextBatchId) && stopFlag == old(stopFlag)
      ensures old(stopFlag) ==>
                outcome == Stopped && tasks == old(tasks) && readyQueue == old(readyQueue) && log == old(log)
      ensures !old(stopFlag) && old(readyQueue) == [] ==>
                outcome == Blocked && tasks == old(tasks) && readyQueue == old(readyQueue) && log == old(log)
      ensures !old(stopFlag) && old(readyQueue) != [] ==>
                var u := old(readyQueue)[0];
                && u.batch in old(tasks)
                && var t := old(tasks)[u.batch];
                var bumped := old(tasks)[u.batch := t.(completedCount := t.completedCount + 1)];
                && outcome == Executed(u)
                && u !in old(log)
                && log == old(log) + [u]
                && if t.completedCount + 1 == t.numTotalTasks then
                     && Distinct(promoted)
                     && (forall b :: b in promoted <==> b in Promoted(bumped, u.batch))
                     && tasks == EraseAll(bumped, u.batch)
                     && readyQueue == old(readyQueue)[1..] + Expand(promoted, bumped)
                   else
                     tasks == bumped && readyQueue == old(readyQueue)[1..] && promoted == []
    {
      promoted := [];
      if stopFlag {
        return Stopped, promoted;
      }
      if readyQueue == [] {
        return Blocked, promoted;
      }
      var u := readyQueue[0];
      assert readyQueue == [u] + readyQueue[1..];
      readyQueue := readyQueue[1..];
      ghost var log0 := log;
      log := log + [u];
      tasks, readyQueue, promoted := CountAndResolve(tasks, readyQueue, nextBatchId, u, declared, log0);
      outcome := Executed(u);
    }
  }

  /**
   * The rest of a worker's pass after `runTask` returned for unit u: count
   * it in its batch and, when that was the batch's last unit, run the
   * resolver. The source counts and erases without the lock and takes it
   * for each push; here all of it is one step. `log` is the execution log
   * before u ran.
   */
  method CountAndResolve(tasks: map<int, Batch>, queue: seq<Unit>, nextBatchId: int, u: Unit,
                         ghost declared: map<int, set<int>>, ghost log: seq<Unit>)
    returns (tasks': map<int, Batch>, queue': seq<Unit>, ghost promoted: seq<int>)
    requires Consistent(tasks, declared, nextBatchId, log, [u] + queue)
    ensures u.batch in tasks && u !in log
    ensures var t := tasks[u.batch];
            var bumped := tasks[u.batch := t.(completedCount := t.completedCount + 1)];
            if t.completedCount + 1 == t.numTotalTasks then
              && Distinct(promoted)
              && (forall b :: b in promoted <==> b in Promoted(bumped, u.batch))
              && tasks' == EraseAll(bumped, u.batch)
              && queue' == queue + Expand(promoted, bumped)
            else
              tasks' == bumped && queue' == queue && promoted == []
    ensures Consistent(tasks', declared, nextBatchId, log + [u], queue')
  {
    StepPreserves(tasks, declared, nextBatchId, log, u, queue);
    // The source looks this entry up as tasks[taskIndex] (line 157); the
    // batch id is the key the rest of the code and its comments use.
    var task := tasks[u.batch];
    task := task.(completedCount := task.completedCount + 1);
    tasks' := tasks[u.batch := task];
    queue' := queue;
    promoted := [];
    if task.completedCount == task.numTotalTasks {
      ghost var bumped := tasks';
      tasks', queue', promoted := Resolve(tasks', queue', u.batch, nextBatchId);
      ResolvePreserves(bumped, declared, nextBatchId, log + [u], queue, u.batch, promoted);
    }
  }

  /** The resolver's loop over the registry, on values: visits the ids
      below `bound` and erases `finished` from each registered batch's set;
      a batch that waited on `finished` and now waits on nothing has its
      units appended to the queue. */
  method Resolve(tasks: map<int, Batch>, queue: seq<Unit>, finished: int, bound: int)
    returns (tasks': map<int, Batch>, queue': seq<Unit>, ghost order: seq<int>)
    requires 0 <= bound
    requires forall b :: b in tasks ==> 0 <= b < bound
    ensures Distinct(order)
    ensures forall b :: b in order <==> b in Promoted(tasks, finished)
    ensures tasks' == EraseAll(tasks, finished)
    ensures queue' == queue + Expand(order, tasks)
  {
    tasks' := tasks;
    queue' := queue;
    order := [];
    var id := 0;
    while id < bound
      invariant 0 <= id <= bound
      invariant tasks'.Keys == tasks.Keys
      invariant forall b :: b in tasks ==>
                  tasks'[b] == if b < id then tasks[b].(deps := tasks[b].deps - {finished}) else tasks[b]
      invariant forall b :: b in order ==> b in tasks && b < id
      invariant forall b :: b in tasks && b < id ==> (b in order <==> Releases(tasks, finished, b))
      invariant Distinct(order)
      invariant queue' == queue + Expand(order, tasks)
    {
      if id in tasks' {
        var task := tasks'[id];
        var dependent := finished in task.deps;
        task := task.(deps := task.deps - {finished});
        tasks' := tasks'[id := task];
        if dependent && task.deps == {} {
          queue' := PushUnits(queue', id, task.numTotalTasks);
          ExpandSnoc(queue, order, id, tasks);
          AppendLarger(order, id);
          order := order + [id];
        }
      }
      id := id + 1;
    }
    assert tasks' == EraseAll(tasks, finished) by {
      assert tasks'.Keys == EraseAll(tasks, finished).Keys;
      forall b | b in tasks' ensures tasks'[b] == EraseAll(tasks, finished)[b] {
        assert b < id;
      }
    }
  }

  /** Listing one more batch appends its units. */
  lemma ExpandSnoc(queue: seq<Unit>, order: seq<int>, id: int, tasks: map<int, Batch>)
    requires forall b :: b in order ==> b in tasks
    requires id in tasks
    ensures queue + Expand(order + [id], tasks) == (queue + Expand(order, tasks)) + Units(id, tasks[id].numTotalTasks)
  {
    assert (order + [id])[..|order|] == order;
    Regroup(queue, Expand(order, tasks), Units(id, tasks[id].numTotalTasks));
  }

  /** Appending an id larger than every listed one keeps the list
      duplicate-free. */
  lemma AppendLarger(order: seq<int>, id: int)
    requires Distinct(order) && forall b :: b in order ==> b < id
    ensures Distinct(order + [id]) && forall b :: b in order + [id] <==> b in order || b == id
  {
    assert forall i :: 0 <= i < |order| ==> order[i] in order;
  }

  /** The push loop of submission and of the resolver: appends the units
      0 .. n-1 of batch b to the ready queue, in index order. */
  method PushUnits(queue: seq<Unit>, b: int, n: int) returns (queue': seq<Unit>)
    ensures queue' == queue + Units(b, n)
  {
    queue' := queue;
    var i := 0;
    while i < n
      invariant 0 <= i && (i <= n || i == 0)
      invariant queue' == queue + Units(b, i)
    {
      queue' := queue' + [Unit(b, i)];
      i := i + 1;
    }
  }

  // ---------------------------------------------------------------------
  // Preservation of the invariant
  // ---------------------------------------------------------------------

  /** A batch with every unit counted has nothing left in the queue. */
  lemma DoneHasNothingQueued(tasks: map<int, Batch>, log: seq<Unit>, queue: seq<Unit>, d: int)
    requires Counted(tasks, log) && Issued(tasks, log + queue)
    requires d in tasks && Done(tasks[d])
    ensures Of(log, d) == Units(d, tasks[d].numTotalTasks)
    ensures Of(queue, d) == []
  {
    OfAppend(log, queue, d);
    UnitsSplit(d, tasks[d].numTotalTasks, Of(log, d), Of(queue, d));
  }

  /** Submission keeps ids, declared sets and dependency sets in order. */
  lemma SubmitRegistered(tasks: map<int, Batch>, declared: map<int, set<int>>, id: int, n: int, deps: set<int>)
    requires Registered(tasks, declared, id)
    ensures id !in tasks
    ensures Registered(tasks[id := Batch(n, deps, 0)], declared[id := deps], id + 1)
  {
  }

  /** Submission: the new batch has nothing logged, and its units are
      queued exactly when it has no dependency. */
  lemma SubmitIssued(tasks: map<int, Batch>, log: seq<Unit>, queue: seq<Unit>, id: int, n: int,
                     deps: set<int>, queue': seq<Unit>)
    requires Counted(tasks, log) && Issued(tasks, log + queue)
    requires id !in tasks
    requires queue' == if deps == {} then queue + Units(id, n) else queue
    ensures Counted(tasks[id := Batch(n, deps, 0)], log)
    ensures Issued(tasks[id := Batch(n, deps, 0)], log + queue')
  {
    var tasks' := tasks[id := Batch(n, deps, 0)];
    var added := if deps == {} then Units(id, n) else [];
    assert Of(log + queue, id) == [] by {
      OfEmpty(log + queue, id);
    }
    assert Of(log, id) == [] by {
      OfAppend(log, queue, id);
    }
    assert log + queue' == (log + queue) + added by {
      if deps == {} {
        Regroup(log, queue, added);
      } else {
        assert queue + added == queue;
      }
    }
    forall b | b in tasks' ensures Of(log + queue', b) == Expected(b, tasks'[b]) {
      OfAppend(log + queue, added, b);
      OfUnits(id, n, b);
    }
    SubmitBatches(tasks, log + queue, id, added, Batch(n, deps, 0));
  }

  /** Every entry of the log and queue still belongs to a registered batch
      after a submission appends units of the new batch. */
  lemma SubmitBatches(tasks: map<int, Batch>, all: seq<Unit>, id: int, added: seq<Unit>, t: Batch)
    requires forall i :: 0 <= i < |all| ==> all[i].batch in tasks
    requires forall i :: 0 <= i < |added| ==> added[i].batch == id
    ensures forall i :: 0 <= i < |all + added| ==> (all + added)[i].batch in tasks[id := t]
  {
    forall i | 0 <= i < |all + added| ensures (all + added)[i].batch in tasks[id := t] {
      if i < |all| {
        assert (all + added)[i] == all[i];
      } else {
        assert (all + added)[i] == added[i - |all|];
      }
    }
  }

  lemma SubmitSettled(tasks: map<int, Batch>, declared: map<int, set<int>>, id: int, n: int, deps: set<int>)
    requires Settled(tasks, declared)
    requires id !in tasks
    ensures Settled(tasks[id := Batch(n, deps, 0)], declared[id := deps])
  {
  }

  /** Submission preserves the invariant. */
  lemma SubmitPreserves(tasks: map<int, Batch>, declared: map<int, set<int>>, id: int,
                        log: seq<Unit>, queue: seq<Unit>, n: int, deps: set<int>, queue': seq<Unit>)
    requires Consistent(tasks, declared, id, log, queue)
    requires queue' == if deps == {} then queue + Units(id, n) else queue
    ensures id !in tasks
    ensures Consistent(tasks[id := Batch(n, deps, 0)], declared[id := deps], id + 1, log, queue')
  {
    SubmitRegistered(tasks, declared, id, n, deps);
    SubmitIssued(tasks, log, queue, id, n, deps, queue');
    SubmitSettled(tasks, declared, id, n, deps);
  }

  /** The front of the queue belongs to a released batch with units left,
      and has not run yet. */
  lemma StepFront(tasks: map<int, Batch>, log: seq<Unit>, u: Unit, q: seq<Unit>)
    requires Counted(tasks, log) && Issued(tasks, log + ([u] + q))
    ensures u.batch in tasks && tasks[u.batch].deps == {}
    ensures tasks[u.batch].completedCount < tasks[u.batch].numTotalTasks
    ensures u !in log
  {
    var b := u.batch;
    assert (log + ([u] + q))[|log|] == u;
    var t := tasks[b];
    OfAppend(log, [u] + q, b);
    OfFront(u, q);
    var p := Of(log, b);
    assert Of(log + ([u] + q), b) == p + ([u] + Of(q, b));
    if t.deps != {} {
      assert false;
    }
    assert p + ([u] + Of(q, b)) == Units(b, t.numTotalTasks);
    assert Units(b, t.numTotalTasks)[|p|] == u;
    assert forall k :: 0 <= k < |p| ==> p[k] == Units(b, t.numTotalTasks)[k];
    if u in log {
      InOf(log, u);
      assert false;
    }
  }

  lemma StepCounted(tasks: map<int, Batch>, log: seq<Unit>, u: Unit)
    requires Counted(tasks, log)
    requires u.batch in tasks
    ensures var t := tasks[u.batch];
            Counted(tasks[u.batch := t.(completedCount := t.completedCount + 1)], log + [u])
  {
    assert (log + [u])[..|log + [u]| - 1] == log;
  }

  lemma StepIssued(tasks: map<int, Batch>, all: seq<Unit>, b: int)
    requires Issued(tasks, all)
    requires b in tasks
    ensures var t := tasks[b];
            Issued(tasks[b := t.(completedCount := t.completedCount + 1)], all)
  {
  }

  lemma StepSettled(tasks: map<int, Batch>, declared: map<int, set<int>>, b: int)
    requires Settled(tasks, declared)
    requires b in tasks && !Done(tasks[b])
    ensures var t := tasks[b];
            Settled(tasks[b := t.(completedCount := t.completedCount + 1)], declared)
  {
  }

  /** Running the front unit and counting it preserves the invariant. */
  lemma StepPreserves(tasks: map<int, Batch>, declared: map<int, set<int>>, nextBatchId: int,
                      log: seq<Unit>, u: Unit, q: seq<Unit>)
    requires Consistent(tasks, declared, nextBatchId, log, [u] + q)
    ensures u.batch in tasks && tasks[u.batch].deps == {}
    ensures u !in log
    ensures var t := tasks[u.batch];
            Consistent(tasks[u.batch := t.(completedCount := t.completedCount + 1)], declared, nextBatchId, log + [u], q)
  {
    StepFront(tasks, log, u, q);
    StepCounted(tasks, log, u);
    Regroup(log, [u], q);
    StepIssued(tasks, log + ([u] + q), u.batch);
    StepSettled(tasks, declared, u.batch);
  }

  /** Erasing `finished` from every set of a Distinct `order` expands each
      released batch exactly once. */
  lemma {:induction false} OfExpand(order: seq<int>, tasks: map<int, Batch>, c: int)
    requires forall b :: b in order ==> b in tasks
    requires Distinct(order)
    ensures Of(Expand(order, tasks), c) == if c in order then Units(c, tasks[c].numTotalTasks) else []
  {
    if order != [] {
      var o' := order[..|order| - 1];
      var last := order[|order| - 1];
      assert order == o' + [last];
      assert forall b :: b in o' ==> b in order;
      OfExpand(o', tasks, c);
      OfAppend(Expand(o', tasks), Units(last, tasks[last].numTotalTasks), c);
      OfUnits(last, tasks[last].numTotalTasks, c);
      if c == last {
        assert c !in o';
      }
    }
  }

  /** The resolver's effect on one batch's expected units: a batch whose set
      becomes empty either was released already or is one of the promoted. */
  lemma ExpectedAfterErase(t: Batch, b: int, f: int)
    ensures Expected(b, t.(deps := t.deps - {f})) ==
            Expected(b, t) + (if f in t.deps && t.deps - {f} == {} then Units(b, t.numTotalTasks) else [])
  {
    if f !in t.deps {
      assert t.deps - {f} == t.deps;
    } else if t.deps - {f} != {} {
      assert t.deps != {};
    }
  }

  lemma ResolveIssued(tasks: map<int, Batch>, all: seq<Unit>, f: int, order: seq<int>)
    requires Issued(tasks, all)
    requires Distinct(order)
    requires forall b :: b in order <==> b in Promoted(tasks, f)
    ensures Issued(EraseAll(tasks, f), all + Expand(order, tasks))
  {
    var tasks' := EraseAll(tasks, f);
    var x := Expand(order, tasks);
    forall b | b in tasks' ensures Of(all + x, b) == Expected(b, tasks'[b]) {
      OfAppend(all, x, b);
      OfExpand(order, tasks, b);
      ExpectedAfterErase(tasks[b], b, f);
    }
    forall i | 0 <= i < |all + x| ensures (all + x)[i].batch in tasks' {
      if i >= |all| {
        var c := x[i - |all|].batch;
        assert (all + x)[i] == x[i - |all|];
        OfExpand(order, tasks, c);
        OfEmpty(x, c);
      } else {
        assert (all + x)[i] == all[i];
      }
    }
  }

  lemma ResolveSettled(tasks: map<int, Batch>, declared: map<int, set<int>>, f: int)
    requires Settled(tasks, declared)
    requires f in tasks && Done(tasks[f])
    ensures Settled(EraseAll(tasks, f), declared)
  {
    var tasks' := EraseAll(tasks, f);
    forall b, d | b in tasks' && b in declared && d in declared[b] && d !in tasks'[b].deps
      ensures d in tasks' && Done(tasks'[d])
    {
      if d != f {
        assert d !in tasks[b].deps;
      }
      assert tasks[d].deps - {f} == {};
    }
  }

  lemma ResolveRegistered(tasks: map<int, Batch>, declared: map<int, set<int>>, nextBatchId: int, f: int)
    requires Registered(tasks, declared, nextBatchId)
    ensures Registered(EraseAll(tasks, f), declared, nextBatchId)
  {
    assert EraseAll(tasks, f).Keys == tasks.Keys;
  }

  lemma ResolveCounted(tasks: map<int, Batch>, log: seq<Unit>, f: int)
    requires Counted(tasks, log)
    ensures Counted(EraseAll(tasks, f), log)
  {
  }

  /** The resolver preserves the invariant once `f` is done. */
  lemma ResolvePreserves(tasks: map<int, Batch>, declared: map<int, set<int>>, nextBatchId: int,
                         log: seq<Unit>, queue: seq<Unit>, f: int, order: seq<int>)
    requires Consistent(tasks, declared, nextBatchId, log, queue)
    requires f in tasks && Done(tasks[f])
    requires Distinct(order)
    requires forall b :: b in order <==> b in Promoted(tasks, f)
    ensures Consistent(EraseAll(tasks, f), declared, nextBatchId, log, queue + Expand(order, tasks))
  {
    ResolveRegistered(tasks, declared, nextBatchId, f);
    ResolveCounted(tasks, log, f);
    ResolveIssued(tasks, log + queue, f, order);
    Regroup(log, queue, Expand(order, tasks));
    ResolveSettled(tasks, declared, f);
  }

  // ---------------------------------------------------------------------
  // What the invariant guarantees
  // ---------------------------------------------------------------------

  /** No unit is executed twice, queued twice, or both executed and queued. */
  lemma LogAndQueueDistinct(tasks: map<int, Batch>, declared: map<int, set<int>>, nextBatchId: int,
                            log: seq<Unit>, queue: seq<Unit>)
    requires Consistent(tasks, declared, nextBatchId, log, queue)
    ensures Distinct(log + queue)
  {
    forall b ensures Distinct(Of(log + queue, b)) {
      if b in tasks {
        UnitsDistinct(b, tasks[b].numTotalTasks);
      } else {
        OfEmpty(log + queue, b);
      }
    }
    DistinctFromOf(log + queue);
  }

  /** A unit is only ever queued or executed after every dependency its batch
      was submitted with is done. */
  lemma DependenciesDoneFirst(tasks: map<int, Batch>, declared: map<int, set<int>>, nextBatchId: int,
                              log: seq<Unit>, queue: seq<Unit>, u: Unit)
    requires Consistent(tasks, declared, nextBatchId, log, queue)
    requires u in log + queue
    ensures u.batch in tasks
    ensures forall d :: d in declared[u.batch] ==> d in tasks && Done(tasks[d])
  {
    var k :| 0 <= k < |log + queue| && (log + queue)[k] == u;
    InOf(log + queue, u);
    assert Of(log + queue, u.batch) != [];
  }

  /** When `run`'s predicate holds for batch `b`, each unit of `b` ran
      exactly once and none is left in the queue; this holds whether or not
      `b` still has dependencies, since a batch that waits has run nothing
      and can only satisfy the predicate when it has no units. */
  lemma RunReturnMeansBatchRan(s: TaskSystem, b: int)
    requires s.Valid() && s.RunMayReturn(b)
    ensures Of(s.log, b) == Units(b, s.tasks[b].numTotalTasks)
    ensures Of(s.readyQueue, b) == []
  {
    if s.tasks[b].deps == {} {
      DoneHasNothingQueued(s.tasks, s.log, s.readyQueue, b);
    } else {
      OfAppend(s.log, s.readyQueue, b);
      assert |Units(b, s.tasks[b].numTotalTasks)| == 0;
    }
  }

  /** When `sync`'s predicate holds, the queue is empty and every unit of
      every registered batch ran exactly once. */
  lemma SyncReturnMeansAllRan(s: TaskSystem)
    requires s.Valid() && s.SyncMayReturn()
    ensures s.readyQueue == []
    ensures forall b :: b in s.tasks ==> Of(s.log, b) == Units(b, s.tasks[b].numTotalTasks)
    ensures Distinct(s.log)
  {
    var tasks, log, queue := s.tasks, s.log, s.readyQueue;
    forall b | b in tasks ensures Of(log, b) == Units(b, tasks[b].numTotalTasks) && Of(queue, b) == [] {
      OfAppend(log, queue, b);
      UnitsSplit(b, tasks[b].numTotalTasks, Of(log, b), Of(queue, b));
    }
    LogAndQueueDistinct(tasks, s.declared, s.nextBatchId, log, queue);
    assert log + queue == log;
  }

  // ---------------------------------------------------------------------
  // The code as written
  // ---------------------------------------------------------------------

  /** Line 157 as written: the counter bumped for a unit is the registry
      entry keyed by the unit's index, not by its batch. */
  function AsWrittenBump(tasks: map<int, Batch>, u: Unit): map<int, Batch>
    requires u.index in tasks
  {
    tasks[u.index := tasks[u.index].(completedCount := tasks[u.index].completedCount + 1)]
  }

  /** Batch 0 of one unit and batch 1 of two units, run to the end as
      written: batch 0 is counted twice, batch 1 once, so neither count ever
      equals its total again and `run`/`sync` for batch 1 never return. */
  lemma AsWrittenBumpMiscounts()
    ensures var t0 := map[0 := Batch(1, {}, 0), 1 := Batch(2, {}, 0)];
            var t1 := AsWrittenBump(t0, Unit(0, 0));
            var t2 := AsWrittenBump(t1, Unit(1, 0));
            var t3 := AsWrittenBump(t2, Unit(1, 1));
            t3[0].completedCount == 2 && t3[1].completedCount == 1
  {
  }

  /** Lines 176-186 as written: after the erase, every batch whose set is
      empty is enqueued, whether or not it depended on `finished`. */
  function AsWrittenPromoted(tasks: map<int, Batch>, finished: int): set<int> {
    set b | b in tasks && tasks[b].deps - {finished} == {}
  }

  /** As written, a finished batch is always among the batches enqueued
      again, so all of its units, already executed, are queued a second
      time; the intended rule never releases it. */
  lemma AsWrittenRequeuesFinished(tasks: map<int, Batch>, declared: map<int, set<int>>, nextBatchId: int,
                                  log: seq<Unit>, queue: seq<Unit>, f: int)
    requires Consistent(tasks, declared, nextBatchId, log, queue)
    requires f in tasks && Done(tasks[f]) && tasks[f].numTotalTasks > 0
    ensures f in AsWrittenPromoted(tasks, f) && f !in Promoted(tasks, f)
    ensures !Distinct(log + queue + Units(f, tasks[f].numTotalTasks))
  {
    var n := tasks[f].numTotalTasks;
    DoneHasNothingQueued(tasks, log, queue, f);
    var u := Unit(f, 0);
    assert Of(log, f)[0] == u;
    assert u in log by {
      OfEmpty(log, f);
      assert |Of(log, f)| > 0;
      InOfConverse(log, f, 0);
    }
    var k :| 0 <= k < |log| && log[k] == u;
    var s := log + queue + Units(f, n);
    assert s[k] == u;
    assert s[|log + queue|] == u;
  }

  /** A batch that depends on a batch already done has run nothing and has
      nothing queued, and neither batch has a unit in the queue: no worker
      will ever count a unit of the done batch again, so nothing erases it
      from the dependent's set. */
  lemma RetiredDependencyStuck(s: TaskSystem, d: int, b: int)
    requires s.Valid() && d in s.tasks && Done(s.tasks[d]) && b in s.tasks && d in s.tasks[b].deps
    ensures forall i :: 0 <= i < |s.readyQueue| ==> s.readyQueue[i].batch != d && s.readyQueue[i].batch != b
    ensures s.tasks[b].completedCount == 0
  {
    DoneHasNothingQueued(s.tasks, s.log, s.readyQueue, d);
    OfEmpty(s.readyQueue, d);
    OfAppend(s.log, s.readyQueue, b);
    OfEmpty(s.readyQueue, b);
  }

  /** On the registry: a pass that counts a unit of a third batch c, and
      possibly erases c, keeps d done and d in b's set. */
  lemma RetiredAfterStep(t0: map<int, Batch>, t1: map<int, Batch>, c: int, d: int, b: int)
    requires d in t0 && Done(t0[d]) && b in t0 && d in t0[b].deps
    requires c in t0 && c != d && c != b
    requires var bumped := t0[c := t0[c].(completedCount := t0[c].completedCount + 1)];
             t1 == bumped || t1 == EraseAll(bumped, c)
    ensures d in t1 && Done(t1[d]) && b in t1 && d in t1[b].deps
    ensures t1[b].numTotalTasks == t0[b].numTotalTasks
  {
  }

  /**
   * Every worker pass keeps a dependency on a done batch in place: the
   * dependent's set still holds it, the dependency is still done, and a
   * dependent with units keeps `sync` waiting. By induction over the passes,
   * such a dependent never runs.
   */
  method StepKeepsRetiredDependency(s: TaskSystem, d: int, b: int)
    requires s.Valid() && d in s.tasks && Done(s.tasks[d]) && b in s.tasks && d in s.tasks[b].deps
    modifies s
    ensures s.Valid() && d in s.tasks && Done(s.tasks[d]) && b in s.tasks && d in s.tasks[b].deps
    ensures s.tasks[b].numTotalTasks == old(s.tasks[b].numTotalTasks)
    ensures s.tasks[b].numTotalTasks > 0 ==> !s.SyncMayReturn()
  {
    RetiredDependencyStuck(s, d, b);
    ghost var t0, q0, stop0 := s.tasks, s.readyQueue, s.stopFlag;
    var outcome, promoted := s.WorkerStep();
    if !stop0 && q0 != [] {
      RetiredAfterStep(t0, s.tasks, q0[0].batch, d, b);
    }
    RetiredDependencyStuck(s, d, b);
    assert s.tasks[b].numTotalTasks > 0 ==> s.tasks[b].completedCount < s.tasks[b].numTotalTasks;
  }

  /** AsWrittenRetiredDependencyHangs, first step: batch 0 of one unit is
      submitted without dependencies. */
  method RetiredDependencySubmitted() returns (s: TaskSystem)
    ensures fresh(s) && s.Valid() && !s.stopFlag
    ensures s.tasks == map[0 := Batch(1, {}, 0)] && s.readyQueue == [Unit(0, 0)] && s.nextBatchId == 1
  {
    s := new TaskSystem();
    var b0 := s.RunAsyncWithDeps(1, []);
    assert Units(0, 1) == [Unit(0, 0)];
  }

  /** A non-empty sequence holds its first element. */
  lemma FrontIsMember(xs: seq<int>)
    ensures xs != [] ==> xs[0] in xs
  {
  }

  /** The resolver's outcome when batch 0, the only batch, completes: it
      releases nothing and leaves the registry as it is. */
  lemma RetiredDependencyResolves(promoted: seq<int>)
    requires forall b :: b in promoted <==> b in Promoted(map[0 := Batch(1, {}, 1)], 0)
    ensures promoted == [] && Expand(promoted, map[0 := Batch(1, {}, 1)]) == []
    ensures EraseAll(map[0 := Batch(1, {}, 1)], 0) == map[0 := Batch(1, {}, 1)]
  {
    var tasks := map[0 := Batch(1, {}, 1)];
    assert !Releases(tasks, 0, 0);
    FrontIsMember(promoted);
    assert Expand(promoted, tasks) == [];
    assert tasks[0].deps - {0} == {};
    assert EraseAll(tasks, 0).Keys == tasks.Keys;
    assert EraseAll(tasks, 0)[0] == tasks[0];
    assert EraseAll(tasks, 0) == tasks;
  }

  /** AsWrittenRetiredDependencyHangs, next step: a worker runs batch 0's
      only unit to completion. */
  method RetiredDependencyRan() returns (s: TaskSystem)
    ensures fresh(s) && s.Valid() && !s.stopFlag
    ensures s.tasks == map[0 := Batch(1, {}, 1)] && s.readyQueue == [] && s.nextBatchId == 1
  {
    s := RetiredDependencySubmitted();
    var outcome, promoted := s.WorkerStep();
    RetiredDependencyResolves(promoted);
  }

  /**
   * Lines 272-292 as written: a batch submitted with a dependency on a
   * batch that already ran to completion waits for ever. Batch 0 of one
   * unit is submitted and run; batch 1 is then submitted depending on 0.
   * Its set {0} is not empty, so nothing is queued, and batch 0 will not
   * complete again to erase itself from the set (StepKeepsRetiredDependency).
   */
  method AsWrittenRetiredDependencyHangs() returns (s: TaskSystem)
    ensures s.Valid() && s.readyQueue == [] && !s.SyncMayReturn()
    ensures 0 in s.tasks && Done(s.tasks[0]) && 1 in s.tasks && s.tasks[1].deps == {0}
  {
    s := RetiredDependencyRan();
    assert (set x | x in [0]) == {0};
    var b1 := s.RunAsyncWithDeps(1, [0]);
    assert s.tasks[1].completedCount < s.tasks[1].numTotalTasks;
  }

  /** The dependency ids of a submission that the registry knows. */
  function KnownDeps(tasks: map<int, Batch>, deps: seq<int>): set<int> {
    set d | d in deps && d in tasks
  }

  /** The known dependency ids of a submission whose batch is not done yet. */
  function LiveDeps(tasks: map<int, Batch>, deps: seq<int>): set<int> {
    set d | d in deps && d in tasks && !Done(tasks[d])
  }

  /** The live set is part of the known set, every known id outside it is
      a done batch, and it is empty exactly when every known dependency is
      done. */
  lemma LiveDepsSplit(tasks: map<int, Batch>, deps: seq<int>)
    ensures LiveDeps(tasks, deps) <= KnownDeps(tasks, deps)
    ensures forall d :: d in KnownDeps(tasks, deps) && d !in LiveDeps(tasks, deps) ==> d in tasks && Done(tasks[d])
    ensures LiveDeps(tasks, deps) == {} <==> forall d :: d in deps && d in tasks ==> Done(tasks[d])
  {
    if forall d :: d in deps && d in tasks ==> Done(tasks[d]) {
      assert forall d :: d !in LiveDeps(tasks, deps);
    }
  }

  /** Registering a live set that is part of the declared one keeps ids and
      sets in order. */
  lemma CorrectedSubmitRegistered(tasks: map<int, Batch>, declared: map<int, set<int>>, id: int, n: int,
                                  live: set<int>, known: set<int>)
    requires Registered(tasks, declared, id)
    requires live <= known
    ensures Registered(tasks[id := Batch(n, live, 0)], declared[id := known], id + 1)
  {
  }

  /** Declaring known ids that are left out of the live set only when they
      are done keeps Settled. */
  lemma CorrectedSubmitSettled(tasks: map<int, Batch>, declared: map<int, set<int>>, id: int, n: int,
                               live: set<int>, known: set<int>)
    requires Settled(tasks, declared)
    requires id !in tasks
    requires forall d :: d in known && d !in live ==> d in tasks && Done(tasks[d])
    ensures Settled(tasks[id := Batch(n, live, 0)], declared[id := known])
  {
  }

  /**
   * The corrected submission: the batch is registered with the known
   * dependencies as declared and the ones not done yet as its live set, and
   * its units are queued when that live set is empty. It keeps the
   * invariant, so DependenciesDoneFirst still holds of every declared
   * dependency, and the batch is queued at once exactly when every known
   * dependency is already done.
   */
  lemma CorrectedSubmitPreserves(tasks: map<int, Batch>, declared: map<int, set<int>>, id: int,
                                 log: seq<Unit>, queue: seq<Unit>, n: int, deps: seq<int>, queue': seq<Unit>)
    requires Consistent(tasks, declared, id, log, queue)
    requires queue' == if LiveDeps(tasks, deps) == {} then queue + Units(id, n) else queue
    ensures Consistent(tasks[id := Batch(n, LiveDeps(tasks, deps), 0)], declared[id := KnownDeps(tasks, deps)],
                       id + 1, log, queue')
    ensures LiveDeps(tasks, deps) == {} <==> forall d :: d in deps && d in tasks ==> Done(tasks[d])
  {
    var live, known := LiveDeps(tasks, deps), KnownDeps(tasks, deps);
    LiveDepsSplit(tasks, deps);
    SubmitRegistered(tasks, declared, id, n, live);
    CorrectedSubmitRegistered(tasks, declared, id, n, live, known);
    SubmitIssued(tasks, log, queue, id, n, live, queue');
    CorrectedSubmitSettled(tasks, declared, id, n, live, known);
  }

  /** On the input of AsWrittenRetiredDependencyHangs the corrected
      submission queues batch 1 at once, and it does the same for a
      dependency on an id that was never handed out. */
  lemma CorrectedRetiredDependency()
    ensures LiveDeps(map[0 := Batch(1, {}, 1)], [0]) == {}
    ensures LiveDeps(map[0 := Batch(1, {}, 1)], [999]) == {}
    ensures (set d | d in [0]) == {0}
  {
  }

  /** Every entry of the filter of b is an entry of the sequence. */
  lemma {:induction false} InOfConverse(s: seq<Unit>, b: int, i: nat)
    requires i < |Of(s, b)|
    ensures Of(s, b)[i] in s
  {
    var s' := s[..|s| - 1];
    assert s == s' + [s[|s| - 1]];
    if i < |Of(s', b)| {
      InOfConverse(s', b, i);
    }
  }
}

=== FILE: task_units.dfy ===
/**
 * Work units of a bulk task launch, shared by the two dependency-aware
 * schedulers. A unit is one call `runTask(index, total)` of a batch's
 * callback; the callback itself is foreign code, so the schedulers record
 * each call as a `Unit` appended to a ghost execution log.
 */
module TaskUnits {

  /** The unit `index` of batch `batch`: one invocation of its callback. */
  datatype Unit = Unit(batch: int, index: int)

  /** No element occurs twice. */
  ghost predicate Distinct<T>(s: seq<T>) {
    forall i, j :: 0 <= i < j < |s| ==> s[i] != s[j]
  }

  /** The units (b,0), (b,1), ..., (b,n-1) of a batch of n units, in index
      order; a batch with n <= 0 has none. */
  function Units(b: int, n: int): (r: seq<Unit>)
    ensures |r| == if n <= 0 then 0 else n
    ensures forall i :: 0 <= i < |r| ==> r[i] == Unit(b, i)
    decreases n
  {
    if n <= 0 then [] else Units(b, n - 1) + [Unit(b, n - 1)]
  }

  /** The entries of `s` that belong to batch `b`, in their order in `s`. */
  function Of(s: seq<Unit>, b: int): (r: seq<Unit>)
    ensures |r| <= |s|
    ensures forall i :: 0 <= i < |r| ==> r[i].batch == b
  {
    if s == [] then []
    else Of(s[..|s| - 1], b) + (if s[|s| - 1].batch == b then [s[|s| - 1]] else [])
  }

  lemma {:induction false} OfAppend(s: seq<Unit>, t: seq<Unit>, b: int)
    ensures Of(s + t, b) == Of(s, b) + Of(t, b)
    decreases |t|
  {
    if t == [] {
      assert s + t == s;
    } else {
      var t' := t[..|t| - 1];
      assert (s + t)[..|s + t| - 1] == s + t';
      OfAppend(s, t', b);
    }
  }

  /** A proof hint, not a property of the schedulers: sequence
      concatenation is associative. Calling it states the regrouping at the
      one step that needs it instead of in every proof's context. */
  lemma Regroup(a: seq<Unit>, b: seq<Unit>, c: seq<Unit>)
    ensures (a + b) + c == a + (b + c)
  {
  }

  /** Appending one unit extends the filter of its own batch only. */
  lemma OfSnoc(s: seq<Unit>, u: Unit, b: int)
    ensures Of(s + [u], b) == Of(s, b) + (if u.batch == b then [u] else [])
  {
    assert (s + [u])[..|s + [u]| - 1] == s;
  }

  /** A sequence has no entry of batch b exactly when its filter is empty. */
  lemma {:induction false} OfEmpty(s: seq<Unit>, b: int)
    ensures Of(s, b) == [] <==> forall i :: 0 <= i < |s| ==> s[i].batch != b
  {
    if s != [] {
      var s' := s[..|s| - 1];
      OfEmpty(s', b);
      if Of(s, b) == [] {
        forall i | 0 <= i < |s| ensures s[i].batch != b {
          if i < |s| - 1 { assert s[i] == s'[i]; }
        }
      }
    }
  }

  /** A sequence whose entries all belong to batch b is its own filter. */
  lemma {:induction false} OfAll(s: seq<Unit>, b: int)
    requires forall i :: 0 <= i < |s| ==> s[i].batch == b
    ensures Of(s, b) == s
  {
    if s != [] {
      var s' := s[..|s| - 1];
      OfAll(s', b);
      assert s == s' + [s[|s| - 1]];
    }
  }

  /** A batch's own units are all its entries; no other batch has any. */
  lemma OfUnits(d: int, n: int, b: int)
    ensures Of(Units(d, n), b) == if b == d then Units(d, n) else []
  {
    if b == d {
      OfAll(Units(d, n), b);
    } else {
      OfEmpty(Units(d, n), b);
    }
  }

  /** An entry of batch b occurs in the filter of b. */
  lemma {:induction false} InOf(s: seq<Unit>, u: Unit)
    requires u in s
    ensures u in Of(s, u.batch)
  {
    var s' := s[..|s| - 1];
    if s[|s| - 1] != u {
      assert s == s' + [s[|s| - 1]];
      assert u in s';
      InOf(s', u);
    }
  }

  /** The first entry of b in a sequence that starts with an entry of b. */
  lemma OfFront(u: Unit, t: seq<Unit>)
    ensures Of([u] + t, u.batch) == [u] + Of(t, u.batch)
  {
    OfAppend([u], t, u.batch);
    assert [u][..0] == [];
  }

  /** The units of a batch are pairwise distinct. */
  lemma UnitsDistinct(b: int, n: int)
    ensures Distinct(Units(b, n))
  {
  }

  /** Splitting the units of a batch into an executed part and a remaining
      part: the executed part is the first k units. */
  lemma UnitsSplit(b: int, n: int, p: seq<Unit>, q: seq<Unit>)
    requires p + q == Units(b, n)
    ensures p == Units(b, |p|)
    ensures q == [] <==> |p| >= n
  {
    assert forall i :: 0 <= i < |p| ==> p[i] == (p + q)[i];
  }

  /** A sequence is duplicate-free when each of its batch filters is. */
  lemma {:induction false} DistinctFromOf(s: seq<Unit>)
    requires forall b :: Distinct(Of(s, b))
    ensures Distinct(s)
  {
    if s != [] {
      var s' := s[..|s| - 1];
      var x := s[|s| - 1];
      assert s == s' + [x];
      forall b ensures Distinct(Of(s', b)) {
        assert Of(s, b) == Of(s', b) + (if x.batch == b then [x] else []);
        assert forall i, j :: 0 <= i < j < |Of(s', b)| ==> Of(s', b)[i] == Of(s, b)[i] && Of(s', b)[j] == Of(s, b)[j];
      }
      DistinctFromOf(s');
      var o' := Of(s', x.batch);
      assert Of(s, x.batch) == o' + [x];
      assert forall i :: 0 <= i < |o'| ==> o'[i] != x by {
        var o := Of(s, x.batch);
        assert forall i :: 0 <= i < |o'| ==> o[i] == o'[i] && o[|o'|] == x;
      }
      if x in s' {
        InOf(s', x);
        assert false;
      }
    }
  }
}

=== FILE: tensor_access.dfy ===
/**
 * The flat-index tensor accessors and the tile bounds of the blocked
 * attention loops (cs149gpt/module.cpp). A tensor is a flat buffer of
 * elements in row-major order; the element type is a parameter, since
 * only addressing is modelled.
 */
module TensorAccess {

  // ---------------------------------------------------------------------
  // Row-major addressing
  // ---------------------------------------------------------------------

  /** The flat index of element (x, y) of a matrix whose rows are `sizeX`
      long (`sizeX` is the row length, not the number of rows). */
  function TwoDimIndex(x: int, y: int, sizeX: int): int {
    x * sizeX + y
  }

  /** Scaling preserves order. */
  lemma MulMono(a: int, b: int, s: int)
    requires a <= b && 0 <= s
    ensures a * s <= b * s
  {
  }

  /** For in-range coordinates the index lies inside the matrix: from 0 up
      to rows times row length, exclusive. */
  lemma TwoDimInBounds(x: int, y: int, rows: int, sizeX: int)
    requires 0 <= x < rows && 0 <= y < sizeX
    ensures 0 <= TwoDimIndex(x, y, sizeX) < rows * sizeX
  {
    MulMono(x + 1, rows, sizeX);
    MulMono(0, x, sizeX);
  }

  /** Different in-range coordinates address different elements; the
      coordinates are recovered from the index. */
  lemma TwoDimInjective(x: int, y: int, x': int, y': int, sizeX: int)
    requires 0 <= x && 0 <= y < sizeX && 0 <= x' && 0 <= y' < sizeX
    requires TwoDimIndex(x, y, sizeX) == TwoDimIndex(x', y', sizeX)
    ensures x == x' && y == y'
  {
    if x < x' {
      MulMono(x + 1, x', sizeX);
      assert false;
    } else if x' < x {
      MulMono(x' + 1, x, sizeX);
      assert false;
    }
  }

  /**
   * The flat index of element (x, y, z, b) of a 4D tensor whose last three
   * extents are sizeX, sizeY and sizeZ: x selects a cube of
   * sizeX * sizeY * sizeZ elements, y a plane of sizeY * sizeZ, z a row of
   * sizeZ, and b the element within the row.
   */
  function FourDimIndex(x: int, y: int, z: int, b: int, sizeX: int, sizeY: int, sizeZ: int): int {
    x * sizeX * sizeY * sizeZ + y * sizeY * sizeZ + z * sizeZ + b
  }

  /** The 4D index is the 2D index applied three times, outermost first. */
  lemma FourDimNested(x: int, y: int, z: int, b: int, sizeX: int, sizeY: int, sizeZ: int)
    ensures FourDimIndex(x, y, z, b, sizeX, sizeY, sizeZ)
         == TwoDimIndex(TwoDimIndex(TwoDimIndex(x, y, sizeX), z, sizeY), b, sizeZ)
  {
  }

  /** For in-range coordinates the index lies in [0, B * sizeX * sizeY * sizeZ). */
  lemma FourDimInBounds(x: int, y: int, z: int, b: int, batches: int, sizeX: int, sizeY: int, sizeZ: int)
    requires 0 <= x < batches && 0 <= y < sizeX && 0 <= z < sizeY && 0 <= b < sizeZ
    ensures 0 <= FourDimIndex(x, y, z, b, sizeX, sizeY, sizeZ) < batches * sizeX * sizeY * sizeZ
  {
    FourDimNested(x, y, z, b, sizeX, sizeY, sizeZ);
    TwoDimInBounds(x, y, batches, sizeX);
    var p := TwoDimIndex(x, y, sizeX);
    TwoDimInBounds(p, z, batches * sizeX, sizeY);
    var r := TwoDimIndex(p, z, sizeY);
    TwoDimInBounds(r, b, batches * sizeX * sizeY, sizeZ);
  }

  /** Different in-range coordinate tuples address different elements. */
  lemma FourDimInjective(x: int, y: int, z: int, b: int, x': int, y': int, z': int, b': int, sizeX: int, sizeY: int, sizeZ: int)
    requires 0 <= x && 0 <= y < sizeX && 0 <= z < sizeY && 0 <= b < sizeZ
    requires 0 <= x' && 0 <= y' < sizeX && 0 <= z' < sizeY && 0 <= b' < sizeZ
    requires FourDimIndex(x, y, z, b, sizeX, sizeY, sizeZ) == FourDimIndex(x', y', z', b', sizeX, sizeY, sizeZ)
    ensures x == x' && y == y' && z == z' && b == b'
  {
    FourDimNested(x, y, z, b, sizeX, sizeY, sizeZ);
    FourDimNested(x', y', z', b', sizeX, sizeY, sizeZ);
    var p, p' := TwoDimIndex(x, y, sizeX), TwoDimIndex(x', y', sizeX);
    MulMono(0, x, sizeX);
    MulMono(0, x', sizeX);
    var r, r' := TwoDimIndex(p, z, sizeY), TwoDimIndex(p', z', sizeY);
    MulMono(0, p, sizeY);
    MulMono(0, p', sizeY);
    TwoDimInjective(r, b, r', b', sizeZ);
    TwoDimInjective(p, z, p', z', sizeY);
    TwoDimInjective(x, y, x', y', sizeX);
  }

  // ---------------------------------------------------------------------
  // Reads and writes
  // ---------------------------------------------------------------------

  /** `twoDimRead`: the element at (x, y) of the buffer's contents, which
      holds its rows one after another, each sizeX elements long: column y
      of row x. */
  function TwoDimRead<T>(tensor: seq<T>, x: int, y: int, sizeX: int): (r: T)
    requires 0 <= TwoDimIndex(x, y, sizeX) < |tensor|
    ensures r in tensor
    ensures 0 <= x && 0 <= y < sizeX && (x + 1) * sizeX <= |tensor| ==>
              r == tensor[x * sizeX .. (x + 1) * sizeX][y]
  {
    tensor[TwoDimIndex(x, y, sizeX)]
  }

  /** `twoDimWrite`: stores `val` at (x, y) of the buffer, in place. */
  method TwoDimWrite<T>(tensor: array<T>, x: int, y: int, sizeX: int, val: T)
    requires 0 <= TwoDimIndex(x, y, sizeX) < tensor.Length
    modifies tensor
    ensures tensor[..] == old(tensor[..])[TwoDimIndex(x, y, sizeX) := val]
  {
    tensor[x * sizeX + y] := val;
  }

  /** Reading back what was written at (x, y) gives the written value, and
      every other in-range element reads as before. */
  lemma TwoDimWriteRead<T>(s: seq<T>, x: int, y: int, x': int, y': int, sizeX: int, val: T)
    requires 0 <= x && 0 <= y < sizeX && 0 <= x' && 0 <= y' < sizeX
    requires TwoDimIndex(x, y, sizeX) < |s| && TwoDimIndex(x', y', sizeX) < |s|
    ensures 0 <= TwoDimIndex(x, y, sizeX) && 0 <= TwoDimIndex(x', y', sizeX)
    ensures TwoDimRead(s[TwoDimIndex(x, y, sizeX) := val], x', y', sizeX)
         == if x' == x && y' == y then val else TwoDimRead(s, x', y', sizeX)
  {
    MulMono(0, x, sizeX);
    MulMono(0, x', sizeX);
    if TwoDimIndex(x, y, sizeX) == TwoDimIndex(x', y', sizeX) {
      TwoDimInjective(x, y, x', y', sizeX);
    }
  }

  /** `fourDimRead`: the element at (x, y, z, b) of the buffer's contents:
      the 2D read of column b in the row picked by the nested 2D index of
      (x, y) and z. */
  function FourDimRead<T>(tensor: seq<T>, x: int, y: int, z: int, b: int, sizeX: int, sizeY: int, sizeZ: int): (r: T)
    requires 0 <= FourDimIndex(x, y, z, b, sizeX, sizeY, sizeZ) < |tensor|
    ensures 0 <= TwoDimIndex(TwoDimIndex(TwoDimIndex(x, y, sizeX), z, sizeY), b, sizeZ) < |tensor|
    ensures r == TwoDimRead(tensor, TwoDimIndex(TwoDimIndex(x, y, sizeX), z, sizeY), b, sizeZ)
  {
    FourDimNested(x, y, z, b, sizeX, sizeY, sizeZ);
    tensor[FourDimIndex(x, y, z, b, sizeX, sizeY, sizeZ)]
  }

  /** `fourDimWrite`: stores `val` at (x, y, z, b) of the buffer, in place. */
  method FourDimWrite<T>(tensor: array<T>, x: int, y: int, z: int, b: int, sizeX: int, sizeY: int, sizeZ: int, val: T)
    requires 0 <= FourDimIndex(x, y, z, b, sizeX, sizeY, sizeZ) < tensor.Length
    modifies tensor
    ensures tensor[..] == old(tensor[..])[FourDimIndex(x, y, z, b, sizeX, sizeY, sizeZ) := val]
  {
    tensor[x * sizeX * sizeY * sizeZ + y * sizeY * sizeZ + z * sizeZ + b] := val;
  }

  /** Reading back what was written at (x, y, z, b) gives the written
      value, and every other in-range element reads as before. */
  lemma FourDimWriteRead<T>(s: seq<T>, x: int, y: int, z: int, b: int, x': int, y': int, z': int, b': int,
                            batches: int, sizeX: int, sizeY: int, sizeZ: int, val: T)
    requires 0 <= x < batches && 0 <= y < sizeX && 0 <= z < sizeY && 0 <= b < sizeZ
    requires 0 <= x' < batches && 0 <= y' < sizeX && 0 <= z' < sizeY && 0 <= b' < sizeZ
    requires |s| == batches * sizeX * sizeY * sizeZ
    ensures 0 <= FourDimIndex(x, y, z, b, sizeX, sizeY, sizeZ) < |s|
    ensures 0 <= FourDimIndex(x', y', z', b', sizeX, sizeY, sizeZ) < |s|
    ensures FourDimRead(s[FourDimIndex(x, y, z, b, sizeX, sizeY, sizeZ) := val], x', y', z', b', sizeX, sizeY, sizeZ)
         == if x' == x && y' == y && z' == z && b' == b then val else FourDimRead(s, x', y', z', b', sizeX, sizeY, sizeZ)
  {
    FourDimInBounds(x, y, z, b, batches, sizeX, sizeY, sizeZ);
    FourDimInBounds(x', y', z', b', batches, sizeX, sizeY, sizeZ);
    if FourDimIndex(x, y, z, b, sizeX, sizeY, sizeZ) == FourDimIndex(x', y', z', b', sizeX, sizeY, sizeZ) {
      FourDimInjective(x, y, z, b, x', y', z', b', sizeX, sizeY, sizeZ);
    }
  }

  // ---------------------------------------------------------------------
  // Tiles of the blocked loops
  // ---------------------------------------------------------------------

  /** The tile edge length of the blocked loops. */
  const Dim := 16

  /** `std::min(n, start + dim)`: one past the last index of the tile that
      starts at `start`. */
  function TileBound(n: int, start: int, dim: int): (r: int)
    requires 0 < dim
    ensures r <= n && r <= start + dim
    ensures r == n || r == start + dim
  {
    if n < start + dim then n else start + dim
  }

  /** Every index in [0, n) lies in the tile that starts at the multiple
      of `dim` below it, and that tile is one the loop visits. */
  lemma TileCovers(n: int, dim: int, i: int)
    requires 0 < dim && 0 <= i < n
    ensures 0 <= i / dim
    ensures var start := (i / dim) * dim;
            0 <= start <= i < TileBound(n, start, dim) && start < n
  {
    var k, r := i / dim, i % dim;
    assert i == k * dim + r && 0 <= r < dim;
    MulMono(0, k, dim);
  }

  /** Tiles starting at two different multiples of `dim` share no index. */
  lemma TilesDisjoint(n: int, dim: int, k: int, k': int, i: int)
    requires 0 < dim && 0 <= k < k'
    requires k * dim <= i < TileBound(n, k * dim, dim)
    ensures !(k' * dim <= i < TileBound(n, k' * dim, dim))
  {
    MulMono(k + 1, k', dim);
  }

  /**
   * A blocked loop over one extent, as in each dimension of the blocked
   * loop nests: tiles start at 0, dim, 2·dim, ... while below n, and each
   * tile runs from its start up to `TileBound`. The indices visited are
   * exactly 0, ..., n-1, each once, in increasing order.
   */
  method TiledIndices(n: int, dim: int) returns (visited: seq<int>)
    requires 0 < dim
    ensures |visited| == if n <= 0 then 0 else n
    ensures forall i :: 0 <= i < |visited| ==> visited[i] == i
  {
    visited := [];
    var block := 0;
    while block < n
      invariant 0 <= block
      invariant |visited| == if n <= 0 then 0 else if block <= n then block else n
      invariant forall i :: 0 <= i < |visited| ==> visited[i] == i
    {
      var bound := TileBound(n, block, dim);
      var i := block;
      while i < bound
        invariant block <= i <= bound && |visited| == i
        invariant forall j :: 0 <= j < |visited| ==> visited[j] == j
      {
        visited := visited + [i];
        i := i + 1;
      }
      block := block + dim;
    }
  }
}

=== FILE: top_down_bfs.dfy ===
/**
 * Level-synchronous top-down breadth-first search over a graph in
 * compressed sparse row form (biggraphs-ec/bfs/bfs.cpp), run sequentially.
 * `distances` holds, per vertex, its level or NOT_VISITED_MARKER; a
 * `VertexSet` is a fixed-capacity buffer of vertex ids with a fill count.
 */
module TopDownBfs {

  /** NOT_VISITED_MARKER. */
  const NotVisited := -1

  /** ROOT_NODE_ID. */
  const Root := 0

  /**
   * The graph record: vertex v's out-edges are the entries of
   * `outgoingEdges` from `outgoingStarts[v]` up to the next vertex's start
   * (or `numEdges` for the last vertex); each entry is a target vertex.
   */
  datatype Graph = Graph(numNodes: int, numEdges: int, outgoingStarts: seq<int>, outgoingEdges: seq<int>)
  {
    /** Starts are within the edge array and non-decreasing, and every
        edge points at a vertex. */
    ghost predicate Valid() {
      && |outgoingStarts| == numNodes
      && |outgoingEdges| == numEdges
      && (forall v :: 0 <= v < numNodes ==> 0 <= outgoingStarts[v] <= numEdges)
      && (forall v, w :: 0 <= v <= w < numNodes ==> outgoingStarts[v] <= outgoingStarts[w])
      && (forall k :: 0 <= k < numEdges ==> 0 <= outgoingEdges[k] < numNodes)
    }
  }

  /** One past the last out-edge of `node`: the next vertex's start, or
      the edge count for the last vertex. */
  function EdgeEnd(g: Graph, node: int): (e: int)
    requires g.Valid() && 0 <= node < g.numNodes
    ensures g.outgoingStarts[node] <= e <= g.numEdges
  {
    if node == g.numNodes - 1 then g.numEdges else g.outgoingStarts[node + 1]
  }

  /** The out-edge ranges of two vertices follow vertex order and do not
      overlap: a vertex's range ends where the next vertex's begins, and
      the last vertex's range ends with the edge array. */
  lemma EdgeRangesInOrder(g: Graph, u: int, w: int)
    requires g.Valid() && 0 <= u < w < g.numNodes
    ensures EdgeEnd(g, u) <= g.outgoingStarts[w]
    ensures w == u + 1 ==> EdgeEnd(g, u) == g.outgoingStarts[w]
    ensures EdgeEnd(g, g.numNodes - 1) == g.numEdges
  {
  }

  /** The targets of `node`'s out-edges, in edge order. */
  function Neighbors(g: Graph, node: int): (r: seq<int>)
    requires g.Valid() && 0 <= node < g.numNodes
    ensures |r| == EdgeEnd(g, node) - g.outgoingStarts[node]
    ensures forall v :: v in r ==> 0 <= v < g.numNodes
  {
    g.outgoingEdges[g.outgoingStarts[node]..EdgeEnd(g, node)]
  }

  /** The number of entries still marked NOT_VISITED_MARKER. */
  function CountUnvisited(d: seq<int>): nat {
    if d == [] then 0 else CountUnvisited(d[..|d| - 1]) + (if d[|d| - 1] == NotVisited then 1 else 0)
  }

  /** Marking one unvisited vertex visited lowers the count by one. */
  lemma {:induction false} CountVisit(d: seq<int>, v: int, x: int)
    requires 0 <= v < |d| && d[v] == NotVisited && x != NotVisited
    ensures CountUnvisited(d[v := x]) == CountUnvisited(d) - 1
    decreases |d|
  {
    var d' := d[v := x];
    assert d'[..|d'| - 1] == if v == |d| - 1 then d[..|d| - 1] else d[..|d| - 1][v := x];
    if v < |d| - 1 {
      CountVisit(d[..|d| - 1], v, x);
    }
  }

  /** No element occurs twice. */
  ghost predicate Distinct(s: seq<int>) {
    forall i, j :: 0 <= i < j < |s| ==> s[i] != s[j]
  }

  /** Every vertex visited before keeps its distance. */
  ghost predicate KeepsVisited(d0: seq<int>, d1: seq<int>) {
    |d1| == |d0| && forall v :: 0 <= v < |d0| && d0[v] != NotVisited ==> d1[v] == d0[v]
  }

  /**
   * `c1` extends `c0` by exactly the vertices that turned from unvisited
   * in `d0` to visited in `d1`, each once; so the fill count rises by the
   * drop in the number of unvisited vertices.
   */
  ghost predicate Appended(d0: seq<int>, d1: seq<int>, c0: seq<int>, c1: seq<int>) {
    && |d1| == |d0|
    && |c0| <= |c1| && c1[..|c0|] == c0
    && (forall v :: v in c1[|c0|..] ==> 0 <= v < |d0|)
    && (forall v :: 0 <= v < |d0| ==> (d0[v] == NotVisited && d1[v] != NotVisited <==> v in c1[|c0|..]))
    && Distinct(c1[|c0|..])
    && |c1| - |c0| == CountUnvisited(d0) - CountUnvisited(d1)
  }

  /** The state after the edges to `targets` were followed from a vertex at
      distance x - 1. */
  ghost predicate Partial(g: Graph, targets: seq<int>, x: int, d0: seq<int>, d1: seq<int>, c0: seq<int>, c1: seq<int>) {
    && g.Valid() && |d0| == g.numNodes && x != NotVisited
    && KeepsVisited(d0, d1)
    && (forall t :: t in targets ==> 0 <= t < |d1| && d1[t] != NotVisited)
    && (forall v :: 0 <= v < |d0| && d0[v] == NotVisited && d1[v] != NotVisited ==> v in targets && d1[v] == x)
    && Appended(d0, d1, c0, c1)
  }

  /** `v` is a target of an out-edge of some frontier vertex whose
      distance plus one is `x`. */
  ghost predicate FoundFrom(g: Graph, front: seq<int>, d0: seq<int>, v: int, x: int)
    requires g.Valid() && |d0| == g.numNodes
  {
    exists i :: 0 <= i < |front| && 0 <= front[i] < g.numNodes && v in Neighbors(g, front[i]) && x == d0[front[i]] + 1
  }

  /**
   * The effect of one top-down step from the frontier `front`: every
   * target of a frontier vertex's out-edge is visited afterwards, visited
   * vertices keep their distance, and each newly visited vertex is a
   * target of some frontier vertex and got that vertex's distance plus
   * one; the new frontier grows by exactly the newly visited vertices.
   */
  ghost predicate Stepped(g: Graph, front: seq<int>, d0: seq<int>, d1: seq<int>, c0: seq<int>, c1: seq<int>) {
    && g.Valid() && |d0| == g.numNodes
    && (forall i :: 0 <= i < |front| ==> 0 <= front[i] < g.numNodes && d0[front[i]] >= 0)
    && KeepsVisited(d0, d1)
    && (forall i, v :: 0 <= i < |front| && v in Neighbors(g, front[i]) ==> d1[v] != NotVisited)
    && (forall v :: 0 <= v < |d0| && d0[v] == NotVisited && d1[v] != NotVisited ==> FoundFrom(g, front, d0, v, d1[v]))
    && Appended(d0, d1, c0, c1)
  }

  /** Following an edge to an unvisited vertex visits and appends it. */
  lemma PartialVisit(g: Graph, targets: seq<int>, o: int, x: int, d0: seq<int>, d1: seq<int>, d2: seq<int>, c0: seq<int>, c1: seq<int>, c2: seq<int>)
    requires Partial(g, targets, x, d0, d1, c0, c1)
    requires 0 <= o < |d1| && d1[o] == NotVisited
    requires d2 == d1[o := x] && c2 == c1 + [o]
    requires CountUnvisited(d2) == CountUnvisited(d1) - 1
    ensures Partial(g, targets + [o], x, d0, d2, c0, c2)
  {
    var a1, a2 := c1[|c0|..], c2[|c0|..];
    assert a2 == a1 + [o];
    assert c2[..|c0|] == c1[..|c0|];
    assert o !in a1;
    forall v | 0 <= v < |d0|
      ensures d0[v] == NotVisited && d2[v] != NotVisited <==> v in a2
    {
      if v != o {
        assert d2[v] == d1[v];
      }
    }
  }

  /** Following an edge to a visited vertex changes nothing. */
  lemma PartialSkip(g: Graph, targets: seq<int>, o: int, x: int, d0: seq<int>, d1: seq<int>, c0: seq<int>, c1: seq<int>)
    requires Partial(g, targets, x, d0, d1, c0, c1)
    requires 0 <= o < |d1| && d1[o] != NotVisited
    ensures Partial(g, targets + [o], x, d0, d1, c0, c1)
  {
  }

  /** Having followed all out-edges of `node` is one step from [node]. */
  lemma PartialStepped(g: Graph, node: int, d0: seq<int>, d1: seq<int>, c0: seq<int>, c1: seq<int>)
    requires g.Valid() && |d0| == g.numNodes && 0 <= node < g.numNodes && d0[node] >= 0
    requires Partial(g, Neighbors(g, node), d0[node] + 1, d0, d1, c0, c1)
    ensures Stepped(g, [node], d0, d1, c0, c1)
  {
    forall v | 0 <= v < |d0| && d0[v] == NotVisited && d1[v] != NotVisited
      ensures FoundFrom(g, [node], d0, v, d1[v])
    {
      assert [node][0] == node;
    }
  }

  /** Two extensions by newly visited vertices make one. */
  lemma AppendedCompose(d0: seq<int>, d1: seq<int>, d2: seq<int>, c0: seq<int>, c1: seq<int>, c2: seq<int>)
    requires KeepsVisited(d0, d1) && Appended(d0, d1, c0, c1) && Appended(d1, d2, c1, c2)
    requires KeepsVisited(d1, d2)
    ensures Appended(d0, d2, c0, c2)
  {
    var a1, b2, a2 := c1[|c0|..], c2[|c1|..], c2[|c0|..];
    assert a2 == a1 + b2 by {
      assert c2[..|c1|] == c1;
    }
    assert c2[..|c0|] == c0 by {
      assert c2[..|c0|] == c2[..|c1|][..|c0|];
    }
    forall i, j | 0 <= i < j < |a2| ensures a2[i] != a2[j] {
      if i < |a1| <= j {
        assert a2[i] in a1 && a2[j] in b2;
      }
    }
  }

  /** Newly visited vertices of two steps were found from the joined
      frontier. */
  lemma FoundCompose(g: Graph, front: seq<int>, u: int, d0: seq<int>, d1: seq<int>, d2: seq<int>)
    requires g.Valid() && |d0| == g.numNodes && KeepsVisited(d0, d1) && KeepsVisited(d1, d2)
    requires 0 <= u < g.numNodes && d0[u] >= 0
    requires forall v :: 0 <= v < |d0| && d0[v] == NotVisited && d1[v] != NotVisited ==> FoundFrom(g, front, d0, v, d1[v])
    requires forall v :: 0 <= v < |d1| && d1[v] == NotVisited && d2[v] != NotVisited ==> FoundFrom(g, [u], d1, v, d2[v])
    ensures forall v :: 0 <= v < |d0| && d0[v] == NotVisited && d2[v] != NotVisited ==> FoundFrom(g, front + [u], d0, v, d2[v])
  {
    var f := front + [u];
    forall v | 0 <= v < |d0| && d0[v] == NotVisited && d2[v] != NotVisited
      ensures FoundFrom(g, f, d0, v, d2[v])
    {
      if d1[v] != NotVisited {
        var i :| 0 <= i < |front| && 0 <= front[i] < g.numNodes && v in Neighbors(g, front[i]) && d1[v] == d0[front[i]] + 1;
        assert f[i] == front[i];
      } else {
        var i :| 0 <= i < 1 && 0 <= [u][i] < g.numNodes && v in Neighbors(g, [u][i]) && d2[v] == d1[[u][i]] + 1;
        assert f[|front|] == u;
      }
    }
  }

  /** The targets of both steps' frontier vertices are visited after both. */
  lemma ReachedCompose(g: Graph, front: seq<int>, u: int, d1: seq<int>, d2: seq<int>)
    requires g.Valid() && |d1| == g.numNodes && KeepsVisited(d1, d2)
    requires forall i :: 0 <= i < |front| ==> 0 <= front[i] < g.numNodes
    requires 0 <= u < g.numNodes
    requires forall i, v :: 0 <= i < |front| && v in Neighbors(g, front[i]) ==> d1[v] != NotVisited
    requires forall v :: v in Neighbors(g, u) ==> d2[v] != NotVisited
    ensures forall i, v :: 0 <= i < |front + [u]| && v in Neighbors(g, (front + [u])[i]) ==> d2[v] != NotVisited
  {
    var f := front + [u];
    forall i, v | 0 <= i < |f| && v in Neighbors(g, f[i]) ensures d2[v] != NotVisited {
      if i < |front| {
        assert f[i] == front[i];
      } else {
        assert f[i] == u;
      }
    }
  }

  /** Stepping from `front` and then from `u` is stepping from front + [u]. */
  lemma SteppedCompose(g: Graph, front: seq<int>, u: int, d0: seq<int>, d1: seq<int>, d2: seq<int>, c0: seq<int>, c1: seq<int>, c2: seq<int>)
    requires Stepped(g, front, d0, d1, c0, c1) && Stepped(g, [u], d1, d2, c1, c2)
    requires 0 <= u < g.numNodes && d0[u] >= 0
    ensures Stepped(g, front + [u], d0, d2, c0, c2)
  {
    AppendedCompose(d0, d1, d2, c0, c1, c2);
    FoundCompose(g, front, u, d0, d1, d2);
    assert forall v :: v in Neighbors(g, u) ==> d2[v] != NotVisited by {
      assert [u][0] == u;
    }
    ReachedCompose(g, front, u, d1, d2);
  }

  /** Widening a slice by one element appends that element. */
  lemma SliceSnoc(s: seq<int>, a: int, b: int)
    requires 0 <= a <= b < |s|
    ensures s[a..b + 1] == s[a..b] + [s[b]]
  {
  }

  /** Extending a prefix by one element appends that element. */
  lemma TakeSnoc(s: seq<int>, i: int)
    requires 0 <= i < |s|
    ensures s[..i + 1] == s[..i] + [s[i]]
  {
  }

  /** Writing just past a prefix extends the prefix by the written value. */
  lemma PrefixUpdate(a: seq<int>, i: int, x: int)
    requires 0 <= i < |a|
    ensures a[i := x][..i + 1] == a[..i] + [x]
  {
  }

  /** `vertex_set`: a buffer of `maxVertices` vertex ids of which the first
      `count` are in use. */
  class VertexSet {
    var count: int
    var maxVertices: int
    var vertices: array<int>

    ghost predicate Valid()
      reads this
    {
      0 <= count <= maxVertices == vertices.Length
    }

    /** The vertices in use, in insertion order. */
    function Contents(): (r: seq<int>)
      reads this, vertices
      requires Valid()
      ensures |r| == count
    {
      vertices[..count]
    }

    /** `vertex_set_init`: a buffer of the given capacity, empty. */
    constructor Init(capacity: int)
      requires 0 <= capacity
      ensures Valid() && maxVertices == capacity && count == 0 && fresh(vertices)
    {
      maxVertices := capacity;
      vertices := new int[capacity];
      count := 0;
    }

    /** `index = count++; vertices[index] = v`: appends one vertex. */
    method Add(v: int)
      requires Valid() && count < maxVertices
      modifies this, vertices
      ensures Valid() && Contents() == old(Contents()) + [v]
      ensures maxVertices == old(maxVertices) && vertices == old(vertices)
    {
      ghost var a := vertices[..];
      var index := count;
      count := count + 1;
      vertices[index] := v;
      PrefixUpdate(a, index, v);
    }

    /** `vertex_set_clear`: empties the buffer; capacity and storage are
        kept. */
    method Clear()
      requires Valid()
      modifies this
      ensures Valid() && count == 0
      ensures maxVertices == old(maxVertices) && vertices == old(vertices)
    {
      count := 0;
    }
  }

  /**
   * The body of the inner loop of `top_down_step`: an edge to an unvisited
   * vertex gives that vertex the source vertex's distance plus one and
   * appends it to `nf`; an edge to a visited vertex changes nothing.
   */
  method FollowEdge(g: Graph, node: int, outgoing: int, distances: array<int>, nf: VertexSet,
                    ghost x: int, ghost done: seq<int>, ghost d0: seq<int>, ghost c0: seq<int>)
    requires nf.Valid() && nf.vertices != distances
    requires Partial(g, done, x, d0, distances[..], c0, nf.Contents())
    requires 0 <= node < g.numNodes && d0[node] >= 0 && distances[node] == d0[node] && x == d0[node] + 1
    requires 0 <= outgoing < g.numNodes && |c0| + CountUnvisited(d0) <= nf.maxVertices
    modifies distances, nf, nf.vertices
    ensures nf.Valid() && nf.vertices == old(nf.vertices) && nf.maxVertices == old(nf.maxVertices)
    ensures distances[node] == d0[node]
    ensures Partial(g, done + [outgoing], x, d0, distances[..], c0, nf.Contents())
  {
    ghost var d, c := distances[..], nf.Contents();
    if distances[outgoing] == NotVisited {
      CountVisit(d, outgoing, x);
      distances[outgoing] := distances[node] + 1;
      assert distances[..] == d[outgoing := x];
      nf.Add(outgoing);
      PartialVisit(g, done, outgoing, x, d0, d, d[outgoing := x], c0, c, c + [outgoing]);
    } else {
      PartialSkip(g, done, outgoing, x, d0, d, c0, c);
    }
  }

  /**
   * The inner loop of `top_down_step` for one frontier vertex: every
   * unvisited target of its out-edges gets the vertex's distance plus one
   * and is appended to `nf`; a target already visited is skipped. Since a
   * vertex is appended only when it turns from unvisited to visited, the
   * fill count rises by exactly the number of vertices newly visited.
   */
  method VisitOutEdges(g: Graph, node: int, distances: array<int>, nf: VertexSet)
    requires g.Valid() && distances.Length == g.numNodes
    requires 0 <= node < g.numNodes && distances[node] >= 0
    requires nf.Valid() && nf.vertices != distances
    requires nf.count + CountUnvisited(distances[..]) <= nf.maxVertices
    modifies distances, nf, nf.vertices
    ensures nf.Valid() && nf.vertices == old(nf.vertices) && nf.maxVertices == old(nf.maxVertices)
    ensures Stepped(g, [node], old(distances[..]), distances[..], old(nf.Contents()), nf.Contents())
  {
    ghost var d0, c0 := distances[..], nf.Contents();
    ghost var x := d0[node] + 1;
    var startEdge := g.outgoingStarts[node];
    var endEdge := if node == g.numNodes - 1 then g.numEdges else g.outgoingStarts[node + 1];
    ghost var done: seq<int> := [];
    var neighbor := startEdge;
    while neighbor < endEdge
      invariant startEdge <= neighbor <= endEdge
      invariant nf.Valid() && nf.vertices == old(nf.vertices) && nf.maxVertices == old(nf.maxVertices)
      invariant done == g.outgoingEdges[startEdge..neighbor] && distances[node] == d0[node]
      invariant Partial(g, done, x, d0, distances[..], c0, nf.Contents())
    {
      var outgoing := g.outgoingEdges[neighbor];
      FollowEdge(g, node, outgoing, distances, nf, x, done, d0, c0);
      SliceSnoc(g.outgoingEdges, startEdge, neighbor);
      done := done + [outgoing];
      neighbor := neighbor + 1;
    }
    assert done == Neighbors(g, node);
    PartialStepped(g, node, d0, distances[..], c0, nf.Contents());
  }

  /**
   * `top_down_step`: follows every out-edge of every frontier vertex, in
   * frontier order and edge order.
   */
  method TopDownStep(g: Graph, frontier: VertexSet, nf: VertexSet, distances: array<int>)
    requires g.Valid() && distances.Length == g.numNodes
    requires frontier.Valid() && nf.Valid()
    requires frontier != nf && frontier.vertices != nf.vertices
    requires frontier.vertices != distances && nf.vertices != distances
    requires forall v :: v in frontier.Contents() ==> 0 <= v < g.numNodes && distances[v] >= 0
    requires nf.count + CountUnvisited(distances[..]) <= nf.maxVertices
    modifies distances, nf, nf.vertices
    ensures nf.Valid() && nf.vertices == old(nf.vertices) && nf.maxVertices == old(nf.maxVertices)
    ensures Stepped(g, frontier.Contents(), old(distances[..]), distances[..], old(nf.Contents()), nf.Contents())
  {
    ghost var d0, c0 := distances[..], nf.Contents();
    ghost var front := frontier.Contents();
    ghost var done: seq<int> := [];
    var i := 0;
    while i < frontier.count
      invariant 0 <= i <= frontier.count && done == front[..i]
      invariant nf.Valid() && nf.vertices == old(nf.vertices) && nf.maxVertices == old(nf.maxVertices)
      invariant |c0| + CountUnvisited(d0) <= nf.maxVertices
      invariant Stepped(g, done, d0, distances[..], c0, nf.Contents())
    {
      var node := frontier.vertices[i];
      assert node == front[i] && node in front;
      ghost var d1, c1 := distances[..], nf.Contents();
      VisitOutEdges(g, node, distances, nf);
      SteppedCompose(g, done, node, d0, d1, distances[..], c0, c1, nf.Contents());
      TakeSnoc(front, i);
      done := done + [node];
      i := i + 1;
    }
    assert done == front;
  }

  /** Vertex v has an in-neighbour u one level closer to the root:
      v is a target of one of u's edges and d[u] == d[v] - 1. */
  ghost predicate HasParent(g: Graph, d: seq<int>, v: int)
    requires g.Valid() && |d| == g.numNodes
  {
    exists u :: 0 <= u < |d| && v in Neighbors(g, u) && d[u] == d[v] - 1
  }

  /**
   * The loop invariant of `bfs_top_down` at level L: distances are
   * unvisited or at most L, the frontier holds exactly the vertices at
   * level L, every out-neighbour of a vertex below L is visited at most
   * one level further, every vertex above level 0 has an in-neighbour one
   * level closer, and the root is the only vertex at level 0.
   */
  ghost predicate Level(g: Graph, d: seq<int>, level: int, front: seq<int>) {
    && g.Valid() && |d| == g.numNodes && 1 <= |d| && 0 <= level
    && (forall v :: 0 <= v < |d| ==> d[v] == NotVisited || 0 <= d[v] <= level)
    && (forall v :: v in front ==> 0 <= v < |d|)
    && (forall v :: 0 <= v < |d| ==> (d[v] == level <==> v in front))
    && (forall u, v :: 0 <= u < |d| && 0 <= d[u] < level && v in Neighbors(g, u) ==> d[v] != NotVisited && d[v] <= d[u] + 1)
    && (forall v :: 0 <= v < |d| && d[v] > 0 ==> HasParent(g, d, v))
    && d[Root] == 0 && (forall v :: 0 <= v < |d| && d[v] == 0 ==> v == Root)
  }

  /**
   * The final labelling of `bfs_top_down`: the root is at 0 and is the
   * only vertex there, every out-neighbour of a visited vertex is visited
   * at most one level further, and every vertex above level 0 has an
   * in-neighbour one level closer.
   */
  ghost predicate BfsLabelled(g: Graph, d: seq<int>) {
    && g.Valid() && |d| == g.numNodes && 1 <= |d|
    && (forall v :: 0 <= v < |d| ==> d[v] == NotVisited || 0 <= d[v])
    && (forall u, v :: 0 <= u < |d| && d[u] != NotVisited && v in Neighbors(g, u) ==> d[v] != NotVisited && d[v] <= d[u] + 1)
    && (forall v :: 0 <= v < |d| && d[v] > 0 ==> HasParent(g, d, v))
    && d[Root] == 0 && (forall v :: 0 <= v < |d| && d[v] == 0 ==> v == Root)
  }

  /**
   * The distance written for every newly visited vertex is that of the
   * first frontier vertex plus one, as soon as all frontier vertices share
   * one distance: this is the `new_dist` the parallel step computes once,
   * from `frontier->vertices[0]`, and writes for every vertex it visits.
   */
  lemma UniformFrontierDistance(g: Graph, front: seq<int>, d0: seq<int>, v: int, x: int)
    requires g.Valid() && |d0| == g.numNodes && front != [] && 0 <= front[0] < |d0|
    requires forall u :: u in front ==> 0 <= u < |d0| && d0[u] == d0[front[0]]
    requires FoundFrom(g, front, d0, v, x)
    ensures x == d0[front[0]] + 1
  {
    var i :| 0 <= i < |front| && 0 <= front[i] < g.numNodes && v in Neighbors(g, front[i]) && x == d0[front[i]] + 1;
    assert front[i] in front;
  }

  /** A step from the level-L frontier visits new vertices at level L+1. */
  lemma NewAtNextLevel(g: Graph, d0: seq<int>, d1: seq<int>, level: int, front: seq<int>, c1: seq<int>)
    requires Level(g, d0, level, front)
    requires Stepped(g, front, d0, d1, [], c1)
    ensures forall v :: 0 <= v < |d0| && d0[v] == NotVisited && d1[v] != NotVisited ==> d1[v] == level + 1
  {
    forall v | 0 <= v < |d0| && d0[v] == NotVisited && d1[v] != NotVisited
      ensures d1[v] == level + 1
    {
      var i :| 0 <= i < |front| && 0 <= front[i] < g.numNodes && v in Neighbors(g, front[i]) && d1[v] == d0[front[i]] + 1;
      assert front[i] in front;
    }
  }

  /** After the step, every out-neighbour of a vertex up to level L is
      visited at most one level further. */
  lemma ClosedAfterStep(g: Graph, d0: seq<int>, d1: seq<int>, level: int, front: seq<int>, c1: seq<int>)
    requires Level(g, d0, level, front)
    requires Stepped(g, front, d0, d1, [], c1)
    requires forall v :: 0 <= v < |d0| && d0[v] == NotVisited && d1[v] != NotVisited ==> d1[v] == level + 1
    ensures forall u, v :: 0 <= u < |d1| && 0 <= d1[u] < level + 1 && v in Neighbors(g, u) ==> d1[v] != NotVisited && d1[v] <= d1[u] + 1
  {
    forall u, v | 0 <= u < |d1| && 0 <= d1[u] < level + 1 && v in Neighbors(g, u)
      ensures d1[v] != NotVisited && d1[v] <= d1[u] + 1
    {
      if d0[u] == level {
        var i :| 0 <= i < |front| && front[i] == u;
      }
    }
  }

  /** After the step, every vertex above level 0 still has an in-neighbour
      one level closer. */
  lemma ParentsAfterStep(g: Graph, d0: seq<int>, d1: seq<int>, level: int, front: seq<int>, c1: seq<int>)
    requires Level(g, d0, level, front)
    requires Stepped(g, front, d0, d1, [], c1)
    ensures forall v :: 0 <= v < |d1| && d1[v] > 0 ==> HasParent(g, d1, v)
  {
    forall v | 0 <= v < |d1| && d1[v] > 0 ensures HasParent(g, d1, v) {
      if d0[v] != NotVisited {
        var u :| 0 <= u < |d0| && v in Neighbors(g, u) && d0[u] == d0[v] - 1;
        assert d1[u] == d1[v] - 1;
      } else {
        var i :| 0 <= i < |front| && 0 <= front[i] < g.numNodes && v in Neighbors(g, front[i]) && d1[v] == d0[front[i]] + 1;
        assert front[i] in front;
        assert d1[front[i]] == d1[v] - 1;
      }
    }
  }

  /** One step from the level-L frontier gives the level-(L+1) state, with
      the newly visited vertices as the new frontier. */
  lemma LevelAdvance(g: Graph, d0: seq<int>, d1: seq<int>, level: int, front: seq<int>, c1: seq<int>)
    requires Level(g, d0, level, front)
    requires Stepped(g, front, d0, d1, [], c1)
    ensures Level(g, d1, level + 1, c1)
    ensures CountUnvisited(d1) + |c1| == CountUnvisited(d0)
  {
    assert c1[0..] == c1;
    NewAtNextLevel(g, d0, d1, level, front, c1);
    ClosedAfterStep(g, d0, d1, level, front, c1);
    ParentsAfterStep(g, d0, d1, level, front, c1);
  }

  /** At level L the frontier vertices are visited, and an empty new
      frontier has room for every unvisited vertex. */
  lemma LevelReady(g: Graph, d: seq<int>, level: int, front: seq<int>)
    requires Level(g, d, level, front)
    ensures forall v :: v in front ==> 0 <= v < g.numNodes && d[v] >= 0
    ensures CountUnvisited(d) <= g.numNodes
  {
    CountUnvisitedBound(d);
  }

  /** An empty frontier at level L closes the labelling. */
  lemma LevelDone(g: Graph, d: seq<int>, level: int)
    requires Level(g, d, level, [])
    ensures BfsLabelled(g, d)
  {
  }

  /** The unvisited vertices are at most all of them. */
  lemma {:induction false} CountUnvisitedBound(d: seq<int>)
    ensures CountUnvisited(d) <= |d|
  {
    if d != [] {
      CountUnvisitedBound(d[..|d| - 1]);
    }
  }

  /**
   * One round of the `bfs_top_down` loop before the buffer swap: clears
   * the new frontier and steps from the current one, which moves the
   * search from level L to level L+1 and uses up as many unvisited
   * vertices as the new frontier holds.
   */
  method AdvanceLevel(g: Graph, frontier: VertexSet, newFrontier: VertexSet, distances: array<int>, ghost level: int)
    requires distances.Length == g.numNodes
    requires frontier.Valid() && newFrontier.Valid() && newFrontier.maxVertices == g.numNodes
    requires frontier != newFrontier && frontier.vertices != newFrontier.vertices
    requires frontier.vertices != distances && newFrontier.vertices != distances
    requires Level(g, distances[..], level, frontier.Contents())
    modifies distances, newFrontier, newFrontier.vertices
    ensures newFrontier.Valid() && newFrontier.vertices == old(newFrontier.vertices) && newFrontier.maxVertices == g.numNodes
    ensures Level(g, distances[..], level + 1, newFrontier.Contents())
    ensures CountUnvisited(distances[..]) + newFrontier.count == old(CountUnvisited(distances[..]))
  {
    ghost var d, front := distances[..], frontier.Contents();
    newFrontier.Clear();
    assert newFrontier.Contents() == [];
    LevelReady(g, d, level, front);
    TopDownStep(g, frontier, newFrontier, distances);
    LevelAdvance(g, d, distances[..], level, front, newFrontier.Contents());
  }

  /**
   * `bfs_top_down`: every distance starts unvisited, the root starts at
   * 0 as the only frontier vertex, and steps alternate the two buffers
   * until a step visits nothing. The result is the labelling of
   * `BfsLabelled`: each distance is the length of a shortest path from the
   * root (see `ShortestPathsOnly` and `PathsNoShorter`).
   */
  method BfsTopDown(g: Graph, distances: array<int>)
    requires g.Valid() && 1 <= g.numNodes && distances.Length == g.numNodes
    modifies distances
    ensures BfsLabelled(g, distances[..])
  {
    var list1 := new VertexSet.Init(g.numNodes);
    var list2 := new VertexSet.Init(g.numNodes);
    var frontier, newFrontier := list1, list2;
    var i := 0;
    while i < g.numNodes
      invariant 0 <= i <= g.numNodes
      invariant forall v :: 0 <= v < i ==> distances[v] == NotVisited
      modifies distances
    {
      distances[i] := NotVisited;
      i := i + 1;
    }
    frontier.Add(Root);
    distances[Root] := 0;
    ghost var level := 0;
    assert frontier.Contents() == [Root];
    while frontier.count != 0
      invariant fresh(frontier) && fresh(newFrontier) && fresh(frontier.vertices) && fresh(newFrontier.vertices)
      invariant frontier != newFrontier && frontier.vertices != newFrontier.vertices
      invariant frontier.Valid() && newFrontier.Valid()
      invariant frontier.maxVertices == g.numNodes && newFrontier.maxVertices == g.numNodes
      invariant Level(g, distances[..], level, frontier.Contents())
      decreases CountUnvisited(distances[..]) + frontier.count
    {
      AdvanceLevel(g, frontier, newFrontier, distances, level);
      frontier, newFrontier := newFrontier, frontier;
      level := level + 1;
    }
    LevelDone(g, distances[..], level);
  }

  /** A path from the root: consecutive vertices joined by out-edges. */
  ghost predicate IsPath(g: Graph, p: seq<int>) {
    && g.Valid() && 1 <= |p| && p[0] == Root
    && (forall i :: 0 <= i < |p| ==> 0 <= p[i] < g.numNodes)
    && (forall i :: 0 <= i < |p| - 1 ==> p[i + 1] in Neighbors(g, p[i]))
  }

  /** Every vertex a path from the root reaches is visited, at a level no
      greater than the path's number of edges. */
  lemma {:induction false} PathsNoShorter(g: Graph, d: seq<int>, p: seq<int>)
    requires BfsLabelled(g, d) && IsPath(g, p)
    ensures d[p[|p| - 1]] != NotVisited && d[p[|p| - 1]] <= |p| - 1
    decreases |p|
  {
    if |p| > 1 {
      var q := p[..|p| - 1];
      assert IsPath(g, q);
      PathsNoShorter(g, d, q);
      assert p[|p| - 1] in Neighbors(g, q[|q| - 1]);
    }
  }

  /** An in-neighbour one level closer to the root. */
  ghost function ParentOf(g: Graph, d: seq<int>, v: int): (u: int)
    requires BfsLabelled(g, d) && 0 <= v < |d| && d[v] > 0
    ensures 0 <= u < |d| && v in Neighbors(g, u) && d[u] == d[v] - 1
  {
    var u :| 0 <= u < |d| && v in Neighbors(g, u) && d[u] == d[v] - 1; u
  }

  /** The path from the root to a visited vertex that steps, backwards,
      from each vertex to its parent. */
  ghost function ParentPath(g: Graph, d: seq<int>, v: int): seq<int>
    requires BfsLabelled(g, d) && 0 <= v < |d| && d[v] >= 0
    decreases d[v]
  {
    if d[v] == 0 then [Root] else ParentPath(g, d, ParentOf(g, d, v)) + [v]
  }

  /** Every visited vertex is reached by a path from the root with exactly
      as many edges as its level, so with `PathsNoShorter` its level is
      its distance from the root. */
  lemma {:induction false} ShortestPathsOnly(g: Graph, d: seq<int>, v: int)
    requires BfsLabelled(g, d) && 0 <= v < |d| && d[v] != NotVisited
    ensures IsPath(g, ParentPath(g, d, v))
    ensures ParentPath(g, d, v)[|ParentPath(g, d, v)| - 1] == v
    ensures |ParentPath(g, d, v)| - 1 == d[v]
    decreases d[v]
  {
    if d[v] > 0 {
      var u := ParentOf(g, d, v);
      ShortestPathsOnly(g, d, u);
      var p := ParentPath(g, d, u);
      var p' := p + [v];
      assert ParentPath(g, d, v) == p';
      forall i | 0 <= i < |p'| ensures 0 <= p'[i] < g.numNodes {
        if i < |p| { assert p'[i] == p[i]; }
      }
      forall i | 0 <= i < |p'| - 1 ensures p'[i + 1] in Neighbors(g, p'[i]) {
        if i < |p| - 1 {
          assert p'[i] == p[i] && p'[i + 1] == p[i + 1];
        } else {
          assert p'[i] == u && p'[i + 1] == v;
        }
      }
    }
  }

  // ---------------------------------------------------------------------
  // The merge phase of top_down_step_parallelize1
  // ---------------------------------------------------------------------

  /** The total size of the first k per-thread buffers. */
  function SizeSum(bufs: seq<seq<int>>, k: int): (r: nat)
    requires 0 <= k <= |bufs|
    decreases k
  {
    if k == 0 then 0 else SizeSum(bufs, k - 1) + |bufs[k - 1]|
  }

  /** The buffers laid end to end, in thread order. */
  function Flatten(bufs: seq<seq<int>>): seq<int> {
    if bufs == [] then [] else Flatten(bufs[..|bufs| - 1]) + bufs[|bufs| - 1]
  }

  /** The buffers laid end to end take exactly their total size. */
  lemma {:induction false} FlattenLength(bufs: seq<seq<int>>)
    ensures |Flatten(bufs)| == SizeSum(bufs, |bufs|)
    decreases |bufs|
  {
    if bufs != [] {
      FlattenLength(bufs[..|bufs| - 1]);
      SizeSumPrefix(bufs, |bufs| - 1);
    }
  }

  /** Totals over more buffers are no smaller. */
  lemma {:induction false} SizeSumMono(bufs: seq<seq<int>>, u: int, w: int)
    requires 0 <= u <= w <= |bufs|
    ensures SizeSum(bufs, u) <= SizeSum(bufs, w)
    decreases w
  {
    if u < w {
      SizeSumMono(bufs, u, w - 1);
    }
  }

  /** Each buffer's block starts at the total size of the buffers before
      it, and the blocks of later buffers start no earlier than it ends:
      the blocks are disjoint and, in order, fill [0, total). */
  lemma {:induction false} BlocksInOrder(bufs: seq<seq<int>>, t: int, u: int)
    requires 0 <= t < u <= |bufs|
    ensures SizeSum(bufs, t) + |bufs[t]| <= SizeSum(bufs, u) <= SizeSum(bufs, |bufs|)
    decreases u
  {
    SizeSumMono(bufs, u, |bufs|);
    if t + 1 < u {
      BlocksInOrder(bufs, t, u - 1);
    }
  }

  /** Element j of buffer t sits at its block's start plus j. */
  lemma {:induction false} FlattenAt(bufs: seq<seq<int>>, t: int, j: int)
    requires 0 <= t < |bufs| && 0 <= j < |bufs[t]|
    ensures SizeSum(bufs, t) + j < |Flatten(bufs)|
    ensures Flatten(bufs)[SizeSum(bufs, t) + j] == bufs[t][j]
    decreases |bufs|
  {
    var init := bufs[..|bufs| - 1];
    FlattenLength(bufs);
    FlattenLength(init);
    SizeSumPrefix(bufs, |bufs| - 1);
    if t < |bufs| - 1 {
      SizeSumPrefix(bufs, t);
      FlattenAt(init, t, j);
      BlocksInOrder(init, t, |init|);
      assert init[t] == bufs[t];
    }
  }

  /** Dropping the last buffer leaves the sizes of the others alone. */
  lemma {:induction false} SizeSumPrefix(bufs: seq<seq<int>>, k: int)
    requires 0 <= k <= |bufs| && bufs != []
    ensures k < |bufs| ==> SizeSum(bufs[..|bufs| - 1], k) == SizeSum(bufs, k)
    decreases k
  {
    if 0 < k < |bufs| {
      SizeSumPrefix(bufs, k - 1);
      assert bufs[..|bufs| - 1][k - 1] == bufs[k - 1];
    }
  }

  /**
   * The merge: sums the buffer sizes into `total`, reserves that many
   * slots at the end of the new frontier, and copies each buffer to the
   * reserved block at the start index plus the sizes of the buffers before
   * it. The new frontier ends up holding its old contents followed by the
   * buffers in thread order.
   */
  method MergeBuffers(localFrontiers: seq<seq<int>>, nf: VertexSet)
    requires nf.Valid() && nf.count + SizeSum(localFrontiers, |localFrontiers|) <= nf.maxVertices
    modifies nf, nf.vertices
    ensures nf.Valid() && nf.vertices == old(nf.vertices) && nf.maxVertices == old(nf.maxVertices)
    ensures nf.Contents() == old(nf.Contents()) + Flatten(localFrontiers)
  {
    ghost var c0 := nf.Contents();
    ghost var all := Flatten(localFrontiers);
    var numThreads := |localFrontiers|;
    var total := 0;
    for t := 0 to numThreads
      invariant total == SizeSum(localFrontiers, t)
    {
      total := total + |localFrontiers[t]|;
    }
    FlattenLength(localFrontiers);
    var startIndex := nf.count;
    nf.count := nf.count + total;
    for t := 0 to numThreads
      invariant SizeSum(localFrontiers, t) <= total
      invariant nf.Valid() && nf.count == startIndex + total
      invariant nf.vertices == old(nf.vertices) && nf.maxVertices == old(nf.maxVertices)
      invariant nf.vertices[..startIndex] == c0
      invariant forall k :: 0 <= k < SizeSum(localFrontiers, t) ==> nf.vertices[startIndex + k] == all[k]
    {
      var buffer := localFrontiers[t];
      var offset := 0;
      for i := 0 to t
        invariant offset == SizeSum(localFrontiers, i)
      {
        offset := offset + |localFrontiers[i]|;
      }
      BlocksInOrder(localFrontiers, t, numThreads);
      forall j | 0 <= j < |buffer| {
        nf.vertices[startIndex + offset + j] := buffer[j];
      }
      forall k | 0 <= k < SizeSum(localFrontiers, t + 1)
        ensures nf.vertices[startIndex + k] == all[k]
      {
        if k >= offset {
          FlattenAt(localFrontiers, t, k - offset);
        }
      }
    }
    assert nf.Contents() == c0 + all;
  }
}

=== FILE: watermark_scheduler.dfy ===
/**
 * The alternative sleeping task system of asst2/manualtest/tasksys.cpp
 * (TaskSystemParallelThreadPoolSleeping::workerThread, run,
 * runAsyncWithDeps, sync).
 *
 * A batch's dependency list collapses to one number, its largest element (-1
 * for none). Submitted batches wait in a priority queue; a worker that finds
 * the ready queue empty promotes waiting batches while the top one's number
 * is at most the watermark `finishedTaskID`. Ready entries hand out unit
 * indices through their `currentTask` cursor, per-batch {finished, total}
 * counters record completions, and a completed batch raises the watermark
 * to its id.
 *
 * The priority queue's comparator is declared in a header that is not part
 * of this model; the waiting queue is modelled as a sequence kept in
 * non-decreasing order of dependency (its top is the front), with equal
 * dependencies in submission order, an assumption that no general lemma
 * relies on. The header's initial values are taken
 * as finishedTaskID = -1 and nextTaskID = 0.
 *
 * A worker's pass is two atomic steps: WorkerStep is the section under the
 * ready queue's lock (lines 140-172), which promotes, pops or claims a unit;
 * RunClaimed is the rest (lines 174-185): the user callback `runTask`, which
 * is the ghost `log` append, and the count under the record lock. Other
 * workers' steps interleave between the two, so the ghost `pending` holds
 * the units claimed and not yet run.
 *
 * Two places where the worker does not do what it evidently means to are
 * modelled as meant, with the code as written kept beside them
 * (AsWrittenRecord, AsWrittenRunIndex):
 *  - line 153 records the entry on top of the waiting queue after the pop
 *    of line 151; the model records the promoted batch;
 *  - line 176 runs the index `currentTask - 1` read again after the lock of
 *    line 140 is released; the model runs the index claimed under it.
 *
 * The watermark itself is kept as written: line 183 raises it to the
 * largest finished id, so a batch can be promoted while one of its
 * dependencies with a smaller id is still running (DependentRunsFirst).
 * The watermark that keeps dependency order, the end of the run of
 * completed ids 0, 1, 2, ..., is CompletedPrefix, stated on values.
 * A batch of no units is popped exhausted (lines 160-163) without any count,
 * so it never raises the watermark either (AsWrittenZeroUnitHangs).
 */
module WatermarkScheduler {
  import opened TaskUnits

  /** A submitted batch that has not been promoted. */
  datatype WaitingTask = WaitingTask(id: int, dependTaskID: int, numTotalTasks: int)

  /** A promoted batch; `currentTask` is the number of indices handed out. */
  datatype ReadyTask = ReadyTask(id: int, numTotalTasks: int, currentTask: int)

  /** A promoted batch's completion counter. */
  datatype Progress = Progress(finished: int, total: int)

  /** What the locked part of one pass of a worker's loop did. */
  datatype WorkerOutcome = Killed | Promoted(count: nat) | Popped(id: int) | Claimed(unit: Unit)

  /** The dependency recorded for a batch: the largest id it depends on, or
      -1 when it depends on nothing. */
  function Dependency(deps: seq<int>): (d: int)
    ensures deps == [] ==> d == -1
    ensures deps != [] ==> d in deps && forall x :: x in deps ==> x <= d
  {
    if deps == [] then -1
    else if |deps| == 1 then deps[0]
    else
      var m := Dependency(deps[..|deps| - 1]);
      var last := deps[|deps| - 1];
      assert deps == deps[..|deps| - 1] + [last];
      if m < last then last else m
  }

  /** The waiting queue is ordered by dependency: its top is the front. */
  ghost predicate Sorted(q: seq<WaitingTask>) {
    forall i, j :: 0 <= i < j < |q| ==> q[i].dependTaskID <= q[j].dependTaskID
  }

  /** The number of leading entries whose dependency is at most `d`. */
  function Leading(q: seq<WaitingTask>, d: int): (k: nat)
    ensures k <= |q|
    ensures forall i :: 0 <= i < k ==> q[i].dependTaskID <= d
    ensures k < |q| ==> q[k].dependTaskID > d
  {
    if q == [] || q[0].dependTaskID > d then 0 else 1 + Leading(q[1..], d)
  }

  /** In an ordered queue the leading entries are exactly those whose
      dependency is at most `d`. */
  lemma LeadingSorted(q: seq<WaitingTask>, d: int)
    ensures Sorted(q) ==> forall i :: 0 <= i < |q| ==> (q[i].dependTaskID <= d <==> i < Leading(q, d))
  {
  }

  /** The prefix whose entries all satisfy the bound, followed by an entry
      that does not (or nothing), is the leading part. */
  lemma {:induction false} LeadingUnique(q: seq<WaitingTask>, d: int, k: nat)
    requires k <= |q|
    requires forall i :: 0 <= i < k ==> q[i].dependTaskID <= d
    requires k < |q| ==> q[k].dependTaskID > d
    ensures Leading(q, d) == k
  {
    if k > 0 {
      LeadingUnique(q[1..], d, k - 1);
    }
  }

  /** Pushing onto the priority queue: the new entry goes after every entry
      whose dependency is not larger, and before the others. */
  function Insert(q: seq<WaitingTask>, w: WaitingTask): (r: seq<WaitingTask>)
    ensures |r| == |q| + 1
    ensures multiset(r) == multiset(q) + multiset{w}
    ensures Sorted(q) ==> Sorted(r)
  {
    var p := Leading(q, w.dependTaskID);
    InsertFacts(q, w, p);
    q[..p] + [w] + q[p..]
  }

  lemma InsertFacts(q: seq<WaitingTask>, w: WaitingTask, p: nat)
    requires p == Leading(q, w.dependTaskID)
    ensures multiset(q[..p] + [w] + q[p..]) == multiset(q) + multiset{w}
    ensures Sorted(q) ==> Sorted(q[..p] + [w] + q[p..])
  {
    assert q == q[..p] + q[p..];
    if Sorted(q) {
      InsertSorted(q, w, p);
    }
  }

  lemma InsertSorted(q: seq<WaitingTask>, w: WaitingTask, p: nat)
    requires p == Leading(q, w.dependTaskID)
    requires Sorted(q)
    ensures Sorted(q[..p] + [w] + q[p..])
  {
    LeadingSorted(q, w.dependTaskID);
    var r := q[..p] + [w] + q[p..];
    assert forall i :: 0 <= i < |r| ==> r[i] == if i < p then q[i] else if i == p then w else q[i - 1];
  }

  /** Where each entry of an insertion comes from. */
  lemma InsertAt(q: seq<WaitingTask>, w: WaitingTask)
    ensures var p := Leading(q, w.dependTaskID);
            forall i :: 0 <= i < |Insert(q, w)| ==>
              Insert(q, w)[i] == if i < p then q[i] else if i == p then w else q[i - 1]
  {
  }

  /** The ready entries made from promoted waiting entries. */
  function Readied(ws: seq<WaitingTask>): (r: seq<ReadyTask>)
    ensures |r| == |ws|
    ensures forall i :: 0 <= i < |ws| ==> r[i] == ReadyTask(ws[i].id, ws[i].numTotalTasks, 0)
  {
    if ws == [] then [] else Readied(ws[..|ws| - 1]) + [ReadyTask(ws[|ws| - 1].id, ws[|ws| - 1].numTotalTasks, 0)]
  }

  /** The progress records after the promotion of `ws`, one after another. */
  function Record(process: map<int, Progress>, ws: seq<WaitingTask>): map<int, Progress> {
    if ws == [] then process
    else
      var w := ws[|ws| - 1];
      Record(process, ws[..|ws| - 1])[w.id := Progress(0, w.numTotalTasks)]
  }

  /** Each promoted batch gets a fresh record {0, total}. */
  lemma {:induction false} RecordAt(process: map<int, Progress>, ws: seq<WaitingTask>)
    requires forall i, j :: 0 <= i < j < |ws| ==> ws[i].id != ws[j].id
    ensures forall i :: 0 <= i < |ws| ==>
              ws[i].id in Record(process, ws) && Record(process, ws)[ws[i].id] == Progress(0, ws[i].numTotalTasks)
  {
    if ws != [] {
      var ws' := ws[..|ws| - 1];
      RecordAt(process, ws');
      forall i | 0 <= i < |ws|
        ensures ws[i].id in Record(process, ws) && Record(process, ws)[ws[i].id] == Progress(0, ws[i].numTotalTasks)
      {
        if i < |ws| - 1 {
          assert ws[i] == ws'[i];
        }
      }
    }
  }

  /**
   * The promotion loop of a worker that found the ready queue empty: moves
   * the top waiting entry to the ready queue with a fresh progress record
   * while its dependency is at most `finishedTaskID`, and stops at the first
   * that is not.
   */
  method Promote(waiting: seq<WaitingTask>, ready: seq<ReadyTask>, process: map<int, Progress>, finishedTaskID: int)
    returns (waiting': seq<WaitingTask>, ready': seq<ReadyTask>, process': map<int, Progress>)
    ensures var k := Leading(waiting, finishedTaskID);
            && waiting' == waiting[k..]
            && ready' == ready + Readied(waiting[..k])
            && process' == Record(process, waiting[..k])
  {
    waiting', ready', process' := waiting, ready, process;
    ghost var k := 0;
    while waiting' != [] && waiting'[0].dependTaskID <= finishedTaskID
      invariant 0 <= k <= |waiting| && waiting' == waiting[k..]
      invariant forall i :: 0 <= i < k ==> waiting[i].dependTaskID <= finishedTaskID
      invariant ready' == ready + Readied(waiting[..k])
      invariant process' == Record(process, waiting[..k])
      decreases |waiting'|
    {
      var next := waiting'[0];
      ready' := ready' + [ReadyTask(next.id, next.numTotalTasks, 0)];
      waiting' := waiting'[1..];
      process' := process'[next.id := Progress(0, next.numTotalTasks)];
      assert waiting[..k + 1][..k] == waiting[..k];
      k := k + 1;
    }
    LeadingUnique(waiting, finishedTaskID, k);
  }
  // ---------------------------------------------------------------------
  // The invariant
  // ---------------------------------------------------------------------

  /** The number of units of a batch of size n: none when n <= 0. */
  function Extent(n: int): nat {
    if n <= 0 then 0 else n
  }

  /** Ids, sizes and the watermark stay in range. */
  ghost predicate Ranged(waiting: seq<WaitingTask>, ready: seq<ReadyTask>, finishedTaskID: int,
                         nextTaskID: int, sizes: map<int, int>)
  {
    && 0 <= nextTaskID
    && -1 <= finishedTaskID < nextTaskID
    && (forall id :: id in sizes <==> 0 <= id < nextTaskID)
    && Sorted(waiting)
    && (forall x :: x in waiting ==> x.id in sizes && sizes[x.id] == x.numTotalTasks)
    && (forall x :: x in ready ==>
          && x.id in sizes && sizes[x.id] == x.numTotalTasks
          && 0 <= x.currentTask && (x.currentTask <= x.numTotalTasks || x.currentTask == 0))
  }

  /** No batch is in the two queues, or twice in one. */
  ghost predicate Unique(waiting: seq<WaitingTask>, ready: seq<ReadyTask>) {
    && (forall i, j :: 0 <= i < j < |waiting| ==> waiting[i].id != waiting[j].id)
    && (forall i, j :: 0 <= i < j < |ready| ==> ready[i].id != ready[j].id)
    && (forall i, j :: 0 <= i < |waiting| && 0 <= j < |ready| ==> waiting[i].id != ready[j].id)
  }

  /** A batch that has left both queues. */
  ghost predicate Retired(waiting: seq<WaitingTask>, ready: seq<ReadyTask>, id: int) {
    (forall x :: x in waiting ==> x.id != id) && (forall x :: x in ready ==> x.id != id)
  }

  /** How many unit indices each submitted batch has handed out: none while
      it waits, its cursor while it is ready, all of them once it has left
      both queues. */
  ghost predicate HandedOut(waiting: seq<WaitingTask>, ready: seq<ReadyTask>, sizes: map<int, int>,
                            handed: map<int, int>)
  {
    && (forall id :: id in sizes ==> id in handed && 0 <= handed[id] <= Extent(sizes[id]))
    && (forall x :: x in waiting && x.id in handed ==> handed[x.id] == 0)
    && (forall x :: x in ready && x.id in handed ==> handed[x.id] == x.currentTask)
    && (forall id :: id in sizes && id in handed && Retired(waiting, ready, id) ==> handed[id] == Extent(sizes[id]))
  }

  /** The claimed units of batch b that have not run yet. */
  ghost function Claims(pending: set<Unit>, b: int): set<Unit> {
    set u | u in pending && u.batch == b
  }

  /** Batch b has handed out the indices 0 .. c-1: each of them has run or
      is claimed, no other index of b has, and together they are c units. */
  ghost predicate Counted(log: seq<Unit>, pending: set<Unit>, b: int, c: int) {
    && (forall u :: u in Of(log, b) ==> 0 <= u.index < c)
    && (forall u :: u in Claims(pending, b) ==> 0 <= u.index < c)
    && (forall i :: 0 <= i < c ==> Unit(b, i) in log || Unit(b, i) in pending)
    && |Of(log, b)| + |Claims(pending, b)| == c
  }

  /** No unit runs twice, a claimed unit has not run, and the units of each
      batch that have run or are claimed are the indices it handed out. */
  ghost predicate Logged(sizes: map<int, int>, handed: map<int, int>, log: seq<Unit>, pending: set<Unit>) {
    && Distinct(log)
    && (forall u :: u in pending ==> u !in log && u.batch in sizes)
    && (forall u :: u in log ==> u.batch in sizes)
    && (forall id :: id in sizes && id in handed ==> Counted(log, pending, id, handed[id]))
  }

  /** Until shutdown, a batch that has left the waiting queue and still has
      units to run has the record {units run, total}. After shutdown, which
      clears the records, every record counts at least one unit against a
      total of 0. */
  ghost predicate Tracked(waiting: seq<WaitingTask>, sizes: map<int, int>, process: map<int, Progress>,
                          killed: bool, log: seq<Unit>)
  {
    && (!killed ==>
          forall id :: id in sizes && (forall x :: x in waiting ==> x.id != id) && |Of(log, id)| < sizes[id] ==>
            id in process && process[id] == Progress(|Of(log, id)|, sizes[id]))
    && (killed ==> forall id :: id in process ==> process[id].total == 0 && process[id].finished > 0)
  }

  /** The invariant of the scheduler state. */
  ghost predicate Consistent(waiting: seq<WaitingTask>, ready: seq<ReadyTask>, process: map<int, Progress>,
                             finishedTaskID: int, nextTaskID: int, killed: bool, sizes: map<int, int>,
                             handed: map<int, int>, log: seq<Unit>, pending: set<Unit>)
  {
    && Ranged(waiting, ready, finishedTaskID, nextTaskID, sizes)
    && Unique(waiting, ready)
    && HandedOut(waiting, ready, sizes, handed)
    && Logged(sizes, handed, log, pending)
    && Tracked(waiting, sizes, process, killed, log)
  }

  // ---------------------------------------------------------------------
  // Steps on values
  // ---------------------------------------------------------------------

  /** A batch's record as `taskProcess[id]` reads it: a missing record is
      created as {0, 0}. */
  function RecordOf(process: map<int, Progress>, id: int): Progress {
    if id in process then process[id] else Progress(0, 0)
  }

  /** Whether counting one more unit of batch `id` reaches its total. */
  predicate Completes(process: map<int, Progress>, id: int) {
    RecordOf(process, id).finished + 1 == RecordOf(process, id).total
  }

  /** The count after unit u has run: its batch's record counts it; when the
      count reaches the total the record is erased and the watermark raised
      to the batch id if that is higher. */
  predicate CountsUnit(process: map<int, Progress>, finishedTaskID: int, u: Unit,
                       process': map<int, Progress>, watermark: int)
  {
    var p := RecordOf(process, u.batch);
    if Completes(process, u.batch) then
      && process' == process - {u.batch}
      && watermark == if finishedTaskID < u.batch then u.batch else finishedTaskID
    else
      && process' == process[u.batch := Progress(p.finished + 1, p.total)]
      && watermark == finishedTaskID
  }

  /** The ready queue after a claim: the front's cursor moves on. */
  function Advance(ready: seq<ReadyTask>): seq<ReadyTask>
    requires ready != []
  {
    [ready[0].(currentTask := ready[0].currentTask + 1)] + ready[1..]
  }

  class TaskSystem {
    var waitingQueue: seq<WaitingTask>
    var readyQueue: seq<ReadyTask>
    var taskProcess: map<int, Progress>
    var finishedTaskID: int
    var nextTaskID: int
    var killed: bool
    /** The size of every submitted batch, by id. */
    ghost var sizes: map<int, int>
    /** How many unit indices every submitted batch has handed out, by id. */
    ghost var handed: map<int, int>
    /** The units that have run, in the order they ran. */
    ghost var log: seq<Unit>
    /** The units claimed by workers that have not run them yet. */
    ghost var pending: set<Unit>

    ghost predicate Valid()
      reads this
    {
      Consistent(waitingQueue, readyQueue, taskProcess, finishedTaskID, nextTaskID, killed, sizes, handed, log, pending)
    }

    /** A fresh task system: nothing submitted, watermark -1, ids from 0. */
    constructor ()
      ensures Valid()
      ensures waitingQueue == [] && readyQueue == [] && taskProcess == map[]
      ensures finishedTaskID == -1 && nextTaskID == 0 && !killed && sizes == map[] && log == [] && pending == {}
    {
      waitingQueue := [];
      readyQueue := [];
      taskProcess := map[];
      finishedTaskID := -1;
      nextTaskID := 0;
      killed := false;
      sizes := map[];
      handed := map[];
      log := [];
      pending := {};
    }

    /** runAsyncWithDeps: queues one waiting entry under the next id, with
        the largest dependency as its bound, and returns that id. */
    method RunAsyncWithDeps(numTotalTasks: int, deps: seq<int>) returns (id: int)
      requires Valid()
      modifies this
      ensures Valid()
      ensures id == old(nextTaskID) && nextTaskID == old(nextTaskID) + 1
      ensures waitingQueue == Insert(old(waitingQueue), WaitingTask(id, Dependency(deps), numTotalTasks))
      ensures sizes == old(sizes)[id := numTotalTasks]
      ensures readyQueue == old(readyQueue) && taskProcess == old(taskProcess)
      ensures log == old(log) && pending == old(pending)
      ensures finishedTaskID == old(finishedTaskID) && killed == old(killed)
    {
      var dependency := Dependency(deps);
      id := nextTaskID;
      var w := WaitingTask(id, dependency, numTotalTasks);
      SubmitPreserves(waitingQueue, readyQueue, taskProcess, finishedTaskID, nextTaskID, killed, sizes, handed,
                      log, pending, w);
      waitingQueue, sizes, handed, nextTaskID :=
        Insert(waitingQueue, w), sizes[w.id := w.numTotalTasks], handed[w.id := 0], nextTaskID + 1;
    }

    /** run: a dependency-free submission; the caller then waits for SyncMayReturn. */
    method Run(numTotalTasks: int) returns (id: int)
      requires Valid()
      modifies this
      ensures Valid()
      ensures id == old(nextTaskID) && nextTaskID == old(nextTaskID) + 1
      ensures waitingQueue == Insert(old(waitingQueue), WaitingTask(id, -1, numTotalTasks))
      ensures sizes == old(sizes)[id := numTotalTasks]
      ensures readyQueue == old(readyQueue) && taskProcess == old(taskProcess)
      ensures log == old(log) && pending == old(pending)
      ensures finishedTaskID == old(finishedTaskID) && killed == old(killed)
    {
      id := RunAsyncWithDeps(numTotalTasks, []);
    }

    /** The predicate `sync` waits on, as written: the watermark is the
        last id handed out. */
    predicate SyncMayReturn()
      reads this
    {
      finishedTaskID + 1 == nextTaskID
    }

    /** What `sync` is meant to wait for: nothing waits, every ready batch
        has handed out all of its units, and no record still expects a
        unit. */
    predicate AllDone()
      reads this
    {
      && waitingQueue == []
      && (forall i :: 0 <= i < |readyQueue| ==> readyQueue[i].currentTask >= readyQueue[i].numTotalTasks)
      && (forall id :: id in taskProcess ==> taskProcess[id].finished >= taskProcess[id].total)
    }

    /** The destructor: sets `killed` and clears the progress records. */
    method Shutdown()
      requires Valid()
      modifies this
      ensures Valid() && killed && taskProcess == map[]
      ensures waitingQueue == old(waitingQueue) && readyQueue == old(readyQueue)
      ensures log == old(log) && pending == old(pending)
      ensures finishedTaskID == old(finishedTaskID) && nextTaskID == old(nextTaskID)
    {
      killed := true;
      taskProcess := map[];
    }

    /**
     * The part of a worker's pass that holds the ready queue's lock. After
     * shutdown the worker leaves. With an empty ready queue it promotes
     * waiting batches. Otherwise it looks at the front ready entry: an
     * exhausted one is popped; else the worker claims the unit at the
     * front's cursor and moves the cursor on. A claimed unit is then run
     * by RunClaimed, outside this lock.
     */
    method WorkerStep() returns (outcome: WorkerOutcome)
      requires Valid()
      modifies this
      ensures Valid()
      ensures nextTaskID == old(nextTaskID) && killed == old(killed) && sizes == old(sizes)
      ensures finishedTaskID == old(finishedTaskID) && log == old(log)
      ensures old(killed) ==>
                outcome == Killed && waitingQueue == old(waitingQueue) && readyQueue == old(readyQueue)
                && taskProcess == old(taskProcess) && pending == old(pending)
      ensures !old(killed) && old(readyQueue) == [] ==>
                var k := Leading(old(waitingQueue), old(finishedTaskID));
                && outcome == Promoted(k)
                && waitingQueue == old(waitingQueue)[k..]
                && readyQueue == Readied(old(waitingQueue)[..k])
                && taskProcess == Record(old(taskProcess), old(waitingQueue)[..k])
                && pending == old(pending)
      ensures !old(killed) && old(readyQueue) != [] ==>
                var r := old(readyQueue)[0];
                && waitingQueue == old(waitingQueue) && taskProcess == old(taskProcess)
                && if r.currentTask >= r.numTotalTasks then
                     && outcome == Popped(r.id)
                     && readyQueue == old(readyQueue)[1..] && pending == old(pending)
                   else
                     var u := Unit(r.id, r.currentTask);
                     && outcome == Claimed(u)
                     && u !in old(log) && u !in old(pending)
                     && readyQueue == Advance(old(readyQueue)) && pending == old(pending) + {u}
    {
      if killed {
        return Killed;
      }
      if readyQueue == [] {
        var k := PromoteWaiting();
        return Promoted(k);
      }
      var r := readyQueue[0];
      if r.currentTask >= r.numTotalTasks {
        PopFront();
        return Popped(r.id);
      }
      var u := ClaimFront();
      outcome := Claimed(u);
    }

    /** The ready queue is empty: the leading waiting entries whose bound
        the watermark has reached move to the ready queue, each with a
        fresh {0, n} record. */
    method PromoteWaiting() returns (k: nat)
      requires Valid() && !killed && readyQueue == []
      modifies this
      ensures Valid()
      ensures k == Leading(old(waitingQueue), old(finishedTaskID))
      ensures waitingQueue == old(waitingQueue)[k..]
      ensures readyQueue == Readied(old(waitingQueue)[..k])
      ensures taskProcess == Record(old(taskProcess), old(waitingQueue)[..k])
      ensures finishedTaskID == old(finishedTaskID) && log == old(log) && pending == old(pending)
      ensures nextTaskID == old(nextTaskID) && killed == old(killed) && sizes == old(sizes)
    {
      waitingQueue, readyQueue, taskProcess, k :=
        PromoteAll(waitingQueue, taskProcess, finishedTaskID, nextTaskID, sizes, handed, log, pending);
    }

    /** The front ready entry has handed out all of its units: it leaves
        the ready queue. */
    method PopFront()
      requires Valid() && !killed && readyQueue != []
      requires readyQueue[0].currentTask >= readyQueue[0].numTotalTasks
      modifies this
      ensures Valid()
      ensures readyQueue == old(readyQueue)[1..]
      ensures waitingQueue == old(waitingQueue) && taskProcess == old(taskProcess)
      ensures finishedTaskID == old(finishedTaskID) && log == old(log) && pending == old(pending)
      ensures nextTaskID == old(nextTaskID) && killed == old(killed) && sizes == old(sizes)
    {
      PopPreserves(waitingQueue, readyQueue, taskProcess, finishedTaskID, nextTaskID, killed, sizes, handed,
                   log, pending);
      readyQueue := readyQueue[1..];
    }

    /** The front ready entry has units left: the worker claims the unit at
        its cursor, which has neither run nor been claimed, and the cursor
        moves on. */
    method ClaimFront() returns (u: Unit)
      requires Valid() && !killed
      requires readyQueue != [] && readyQueue[0].currentTask < readyQueue[0].numTotalTasks
      modifies this
      ensures Valid()
      ensures u == Unit(old(readyQueue)[0].id, old(readyQueue)[0].currentTask)
      ensures u !in old(log) && u !in old(pending)
      ensures readyQueue == Advance(old(readyQueue)) && pending == old(pending) + {u}
      ensures waitingQueue == old(waitingQueue) && taskProcess == old(taskProcess)
      ensures finishedTaskID == old(finishedTaskID) && log == old(log)
      ensures nextTaskID == old(nextTaskID) && killed == old(killed) && sizes == old(sizes)
    {
      readyQueue, handed, pending, u :=
        Claim(waitingQueue, readyQueue, taskProcess, finishedTaskID, nextTaskID, killed, sizes, handed, log, pending);
    }

    /**
     * The rest of the pass of a worker that claimed u: `runTask` runs it,
     * then, under the record lock, its batch's record counts it (a missing
     * record is created as {0, 0}); when the count reaches the total the
     * record is erased and the watermark raised to the batch id if that is
     * higher. That happens exactly when u was the batch's last unit to run.
     */
    method RunClaimed(u: Unit)
      requires Valid() && u in pending
      modifies this
      ensures Valid()
      ensures u !in old(log) && log == old(log) + [u] && pending == old(pending) - {u}
      ensures CountsUnit(old(taskProcess), old(finishedTaskID), u, taskProcess, finishedTaskID)
      ensures u.batch in sizes
      ensures Completes(old(taskProcess), u.batch) ==> forall i :: 0 <= i < sizes[u.batch] ==> Unit(u.batch, i) in log
      ensures !killed ==> (Completes(old(taskProcess), u.batch) <==> |Of(log, u.batch)| == sizes[u.batch])
      ensures waitingQueue == old(waitingQueue) && readyQueue == old(readyQueue)
      ensures nextTaskID == old(nextTaskID) && killed == old(killed) && sizes == old(sizes)
    {
      taskProcess, finishedTaskID, log, pending :=
        Finish(waitingQueue, readyQueue, taskProcess, finishedTaskID, nextTaskID, killed, sizes, handed, log, pending, u);
    }
  }

  /** The promotion of PromoteWaiting on values: the invariant holds of
      the queues and records the promotion loop leaves. */
  method PromoteAll(waiting: seq<WaitingTask>, process: map<int, Progress>, finishedTaskID: int,
                    nextTaskID: int, ghost sizes: map<int, int>, ghost handed: map<int, int>,
                    ghost log: seq<Unit>, ghost pending: set<Unit>)
    returns (waiting': seq<WaitingTask>, ready': seq<ReadyTask>, process': map<int, Progress>, k: nat)
    requires Consistent(waiting, [], process, finishedTaskID, nextTaskID, false, sizes, handed, log, pending)
    ensures k == Leading(waiting, finishedTaskID)
    ensures waiting' == waiting[k..] && ready' == Readied(waiting[..k]) && process' == Record(process, waiting[..k])
    ensures Consistent(waiting', ready', process', finishedTaskID, nextTaskID, false, sizes, handed, log, pending)
  {
    k := Leading(waiting, finishedTaskID);
    PromotePreserves(waiting, process, finishedTaskID, nextTaskID, sizes, handed, log, pending, k);
    waiting', ready', process' := Promote(waiting, [], process, finishedTaskID);
    assert [] + Readied(waiting[..k]) == Readied(waiting[..k]);
  }

  /** The claim of ClaimFront on values: the unit at the front's cursor,
      which has neither run nor been claimed, becomes claimed and the
      cursor moves on. */
  method Claim(waiting: seq<WaitingTask>, ready: seq<ReadyTask>, process: map<int, Progress>,
               finishedTaskID: int, nextTaskID: int, killed: bool, ghost sizes: map<int, int>,
               ghost handed: map<int, int>, ghost log: seq<Unit>, ghost pending: set<Unit>)
    returns (ready': seq<ReadyTask>, ghost handed': map<int, int>, ghost pending': set<Unit>, u: Unit)
    requires Consistent(waiting, ready, process, finishedTaskID, nextTaskID, killed, sizes, handed, log, pending)
    requires ready != [] && ready[0].currentTask < ready[0].numTotalTasks
    ensures u == Unit(ready[0].id, ready[0].currentTask) && u !in log && u !in pending
    ensures ready' == Advance(ready) && pending' == pending + {u}
    ensures Consistent(waiting, ready', process, finishedTaskID, nextTaskID, killed, sizes, handed', log, pending')
  {
    var r := ready[0];
    u := Unit(r.id, r.currentTask);
    ClaimPreserves(waiting, ready, process, finishedTaskID, nextTaskID, killed, sizes, handed, log, pending);
    ready', handed', pending' := Advance(ready), handed[r.id := r.currentTask + 1], pending + {u};
  }

  /** The run and count of RunClaimed on values. */
  method Finish(waiting: seq<WaitingTask>, ready: seq<ReadyTask>, process: map<int, Progress>,
                finishedTaskID: int, nextTaskID: int, killed: bool, ghost sizes: map<int, int>,
                ghost handed: map<int, int>, ghost log: seq<Unit>, ghost pending: set<Unit>, u: Unit)
    returns (process': map<int, Progress>, watermark: int, ghost log': seq<Unit>, ghost pending': set<Unit>)
    requires Consistent(waiting, ready, process, finishedTaskID, nextTaskID, killed, sizes, handed, log, pending)
    requires u in pending
    ensures u !in log && log' == log + [u] && pending' == pending - {u}
    ensures CountsUnit(process, finishedTaskID, u, process', watermark)
    ensures u.batch in sizes
    ensures Completes(process, u.batch) ==> forall i :: 0 <= i < sizes[u.batch] ==> Unit(u.batch, i) in log'
    ensures !killed ==> (Completes(process, u.batch) <==> |Of(log', u.batch)| == sizes[u.batch])
    ensures Consistent(waiting, ready, process', watermark, nextTaskID, killed, sizes, handed, log', pending')
  {
    var p := RecordOf(process, u.batch);
    var done := p.finished + 1 == p.total;
    process' := if done then process - {u.batch} else process[u.batch := Progress(p.finished + 1, p.total)];
    watermark := if done && finishedTaskID < u.batch then u.batch else finishedTaskID;
    FinishPreserves(waiting, ready, process, finishedTaskID, nextTaskID, killed, sizes, handed, log, pending,
                    u, process', watermark);
    FinishCompletes(waiting, ready, process, finishedTaskID, nextTaskID, killed, sizes, handed, log, pending, u);
    log', pending' := log + [u], pending - {u};
  }

  // ---------------------------------------------------------------------
  // Preservation of the invariant
  // ---------------------------------------------------------------------

  /** The entries of a push are the old entries and the pushed one. */
  lemma InsertMembers(q: seq<WaitingTask>, w: WaitingTask)
    ensures forall x :: x in Insert(q, w) <==> x in q || x == w
  {
    var r := Insert(q, w);
    forall x ensures x in r <==> x in q || x == w {
      assert x in r <==> x in multiset(r);
      assert x in q <==> x in multiset(q);
    }
  }

  lemma SubmitRanged(waiting: seq<WaitingTask>, ready: seq<ReadyTask>, finishedTaskID: int, nextTaskID: int,
                     sizes: map<int, int>, w: WaitingTask)
    requires Ranged(waiting, ready, finishedTaskID, nextTaskID, sizes)
    requires w.id == nextTaskID
    ensures Ranged(Insert(waiting, w), ready, finishedTaskID, nextTaskID + 1, sizes[w.id := w.numTotalTasks])
  {
    InsertMembers(waiting, w);
  }

  /** A pushed entry whose id no queued entry has keeps ids unique. */
  lemma InsertUnique(q: seq<WaitingTask>, w: WaitingTask)
    requires forall i, j :: 0 <= i < j < |q| ==> q[i].id != q[j].id
    requires forall x :: x in q ==> x.id != w.id
    ensures forall i, j :: 0 <= i < j < |Insert(q, w)| ==> Insert(q, w)[i].id != Insert(q, w)[j].id
  {
    var r := Insert(q, w);
    var p := Leading(q, w.dependTaskID);
    InsertAt(q, w);
    forall i, j | 0 <= i < j < |r| ensures r[i].id != r[j].id {
      var i' := if i < p then i else i - 1;
      var j' := if j < p then j else j - 1;
      if i == p {
        assert r[j] == q[j'] && q[j'] in q;
      } else if j == p {
        assert r[i] == q[i'] && q[i'] in q;
      } else {
        assert r[i] == q[i'] && r[j] == q[j'] && i' < j';
      }
    }
  }

  lemma SubmitUnique(waiting: seq<WaitingTask>, ready: seq<ReadyTask>, nextTaskID: int, sizes: map<int, int>,
                     w: WaitingTask)
    requires Unique(waiting, ready)
    requires forall id :: id in sizes <==> 0 <= id < nextTaskID
    requires forall x :: x in waiting ==> x.id in sizes
    requires forall x :: x in ready ==> x.id in sizes
    requires w.id == nextTaskID
    ensures Unique(Insert(waiting, w), ready)
  {
    InsertUnique(waiting, w);
    InsertMembers(waiting, w);
    var r := Insert(waiting, w);
    forall i, j | 0 <= i < |r| && 0 <= j < |ready| ensures r[i].id != ready[j].id {
      assert r[i] in r && ready[j] in ready;
      if r[i] != w {
        var k :| 0 <= k < |waiting| && waiting[k] == r[i];
      }
    }
  }

  lemma SubmitHanded(waiting: seq<WaitingTask>, ready: seq<ReadyTask>, nextTaskID: int, sizes: map<int, int>,
                     handed: map<int, int>, w: WaitingTask)
    requires HandedOut(waiting, ready, sizes, handed)
    requires forall id :: id in sizes <==> 0 <= id < nextTaskID
    requires forall x :: x in waiting ==> x.id in sizes
    requires forall x :: x in ready ==> x.id in sizes
    requires w.id == nextTaskID
    ensures HandedOut(Insert(waiting, w), ready, sizes[w.id := w.numTotalTasks], handed[w.id := 0])
  {
    InsertMembers(waiting, w);
  }

  lemma SubmitLogged(nextTaskID: int, sizes: map<int, int>, handed: map<int, int>, log: seq<Unit>,
                     pending: set<Unit>, w: WaitingTask)
    requires Logged(sizes, handed, log, pending)
    requires forall id :: id in sizes <==> 0 <= id < nextTaskID
    requires w.id == nextTaskID
    ensures Logged(sizes[w.id := w.numTotalTasks], handed[w.id := 0], log, pending)
  {
    OfEmpty(log, w.id);
    assert Claims(pending, w.id) == {};
  }

  lemma SubmitTracked(waiting: seq<WaitingTask>, sizes: map<int, int>, process: map<int, Progress>,
                      killed: bool, log: seq<Unit>, w: WaitingTask)
    requires Tracked(waiting, sizes, process, killed, log)
    requires w.id !in sizes
    ensures Tracked(Insert(waiting, w), sizes[w.id := w.numTotalTasks], process, killed, log)
  {
    InsertMembers(waiting, w);
  }

  lemma SubmitPreserves(waiting: seq<WaitingTask>, ready: seq<ReadyTask>, process: map<int, Progress>,
                        finishedTaskID: int, nextTaskID: int, killed: bool, sizes: map<int, int>,
                        handed: map<int, int>, log: seq<Unit>, pending: set<Unit>, w: WaitingTask)
    requires Consistent(waiting, ready, process, finishedTaskID, nextTaskID, killed, sizes, handed, log, pending)
    requires w.id == nextTaskID
    ensures Consistent(Insert(waiting, w), ready, process, finishedTaskID, nextTaskID + 1, killed,
                       sizes[w.id := w.numTotalTasks], handed[w.id := 0], log, pending)
  {
    SubmitRanged(waiting, ready, finishedTaskID, nextTaskID, sizes, w);
    SubmitUnique(waiting, ready, nextTaskID, sizes, w);
    SubmitHanded(waiting, ready, nextTaskID, sizes, handed, w);
    SubmitLogged(nextTaskID, sizes, handed, log, pending, w);
    SubmitTracked(waiting, sizes, process, killed, log, w);
  }

  /** The promoted entries and the rest of the waiting queue hold the same
      batches as the waiting queue did. */
  lemma PromoteSplit(waiting: seq<WaitingTask>, k: nat)
    requires k <= |waiting|
    ensures forall x :: x in waiting[k..] ==> x in waiting
    ensures forall x :: x in Readied(waiting[..k]) ==>
              exists i :: 0 <= i < k && x == ReadyTask(waiting[i].id, waiting[i].numTotalTasks, 0)
    ensures forall i :: 0 <= i < |waiting| ==> (if i < k then Readied(waiting[..k])[i].id else waiting[k..][i - k].id) == waiting[i].id
  {
    forall x | x in Readied(waiting[..k])
      ensures exists i :: 0 <= i < k && x == ReadyTask(waiting[i].id, waiting[i].numTotalTasks, 0)
    {
      var i :| 0 <= i < k && Readied(waiting[..k])[i] == x;
      assert waiting[..k][i] == waiting[i];
    }
  }

  /** A batch no longer in either queue after a promotion was in neither
      before it. */
  lemma PromoteRetired(waiting: seq<WaitingTask>, k: nat, id: int)
    requires k <= |waiting|
    requires Retired(waiting[k..], Readied(waiting[..k]), id)
    ensures Retired(waiting, [], id)
  {
    var ready := Readied(waiting[..k]);
    forall x | x in waiting ensures x.id != id {
      var i :| 0 <= i < |waiting| && waiting[i] == x;
      if i < k {
        assert ready[i] in ready;
      } else {
        assert waiting[k..][i - k] in waiting[k..];
      }
    }
  }

  lemma PromoteRanged(waiting: seq<WaitingTask>, finishedTaskID: int, nextTaskID: int, sizes: map<int, int>, k: nat)
    requires Ranged(waiting, [], finishedTaskID, nextTaskID, sizes)
    requires k <= |waiting|
    ensures Ranged(waiting[k..], Readied(waiting[..k]), finishedTaskID, nextTaskID, sizes)
  {
    PromoteSplit(waiting, k);
    forall x | x in Readied(waiting[..k]) ensures x.id in sizes && sizes[x.id] == x.numTotalTasks {
      var i :| 0 <= i < k && x == ReadyTask(waiting[i].id, waiting[i].numTotalTasks, 0);
      assert waiting[i] in waiting;
    }
  }

  lemma PromoteUnique(waiting: seq<WaitingTask>, k: nat)
    requires Unique(waiting, [])
    requires k <= |waiting|
    ensures Unique(waiting[k..], Readied(waiting[..k]))
  {
    PromoteSplit(waiting, k);
  }

  lemma PromoteHanded(waiting: seq<WaitingTask>, sizes: map<int, int>, handed: map<int, int>, k: nat)
    requires HandedOut(waiting, [], sizes, handed)
    requires k <= |waiting|
    ensures HandedOut(waiting[k..], Readied(waiting[..k]), sizes, handed)
  {
    PromoteSplit(waiting, k);
    var ready := Readied(waiting[..k]);
    forall x | x in ready && x.id in handed ensures handed[x.id] == x.currentTask {
      var i :| 0 <= i < k && x == ReadyTask(waiting[i].id, waiting[i].numTotalTasks, 0);
      assert waiting[i] in waiting;
    }
    forall id | id in sizes && id in handed && Retired(waiting[k..], ready, id) ensures handed[id] == Extent(sizes[id]) {
      PromoteRetired(waiting, k, id);
    }
  }

  /** Nothing of a waiting batch has run or been claimed. */
  lemma WaitingIdle(waiting: seq<WaitingTask>, ready: seq<ReadyTask>, finishedTaskID: int, nextTaskID: int,
                    sizes: map<int, int>, handed: map<int, int>, log: seq<Unit>, pending: set<Unit>)
    requires Ranged(waiting, ready, finishedTaskID, nextTaskID, sizes)
    requires HandedOut(waiting, ready, sizes, handed)
    requires Logged(sizes, handed, log, pending)
    ensures forall x :: x in waiting ==> |Of(log, x.id)| == 0 && Claims(pending, x.id) == {}
  {
  }

  /** The records a promotion leaves alone: those of batches it does not
      promote. */
  lemma {:induction false} RecordElsewhere(process: map<int, Progress>, ws: seq<WaitingTask>, id: int)
    requires forall i :: 0 <= i < |ws| ==> ws[i].id != id
    ensures id in Record(process, ws) <==> id in process
    ensures id in process ==> Record(process, ws)[id] == process[id]
  {
    if ws != [] {
      RecordElsewhere(process, ws[..|ws| - 1], id);
    }
  }

  lemma PromoteTracked(waiting: seq<WaitingTask>, sizes: map<int, int>, process: map<int, Progress>,
                       log: seq<Unit>, k: nat)
    requires Unique(waiting, [])
    requires Tracked(waiting, sizes, process, false, log)
    requires forall x :: x in waiting ==> x.id in sizes && sizes[x.id] == x.numTotalTasks && |Of(log, x.id)| == 0
    requires k <= |waiting|
    ensures Tracked(waiting[k..], sizes, Record(process, waiting[..k]), false, log)
  {
    var ws := waiting[..k];
    RecordAt(process, ws);
    forall id | id in sizes && (forall x :: x in waiting[k..] ==> x.id != id) && |Of(log, id)| < sizes[id]
      ensures id in Record(process, ws) && Record(process, ws)[id] == Progress(|Of(log, id)|, sizes[id])
    {
      if i :| 0 <= i < k && ws[i].id == id {
        assert waiting[i] in waiting;
      } else {
        forall x | x in waiting ensures x.id != id {
          var j :| 0 <= j < |waiting| && waiting[j] == x;
          if j < k {
            assert ws[j] == x;
          } else {
            assert waiting[k..][j - k] == x;
          }
        }
        RecordElsewhere(process, ws, id);
      }
    }
  }

  lemma PromotePreserves(waiting: seq<WaitingTask>, process: map<int, Progress>,
                         finishedTaskID: int, nextTaskID: int, sizes: map<int, int>,
                         handed: map<int, int>, log: seq<Unit>, pending: set<Unit>, k: nat)
    requires Consistent(waiting, [], process, finishedTaskID, nextTaskID, false, sizes, handed, log, pending)
    requires k == Leading(waiting, finishedTaskID)
    ensures Consistent(waiting[k..], Readied(waiting[..k]), Record(process, waiting[..k]),
                       finishedTaskID, nextTaskID, false, sizes, handed, log, pending)
  {
    PromoteRanged(waiting, finishedTaskID, nextTaskID, sizes, k);
    PromoteUnique(waiting, k);
    PromoteHanded(waiting, sizes, handed, k);
    WaitingIdle(waiting, [], finishedTaskID, nextTaskID, sizes, handed, log, pending);
    PromoteTracked(waiting, sizes, process, log, k);
  }

  lemma PopPreserves(waiting: seq<WaitingTask>, ready: seq<ReadyTask>, process: map<int, Progress>,
                     finishedTaskID: int, nextTaskID: int, killed: bool, sizes: map<int, int>,
                     handed: map<int, int>, log: seq<Unit>, pending: set<Unit>)
    requires Consistent(waiting, ready, process, finishedTaskID, nextTaskID, killed, sizes, handed, log, pending)
    requires ready != [] && ready[0].currentTask >= ready[0].numTotalTasks
    ensures Consistent(waiting, ready[1..], process, finishedTaskID, nextTaskID, killed, sizes, handed, log, pending)
  {
    var r := ready[0];
    assert r in ready;
    assert forall x :: x in ready[1..] ==> x in ready;
    forall id | id in sizes && id in handed && Retired(waiting, ready[1..], id) ensures handed[id] == Extent(sizes[id]) {
      if id != r.id {
        forall x | x in ready ensures x.id != id {
          var i :| 0 <= i < |ready| && ready[i] == x;
          if i > 0 { assert ready[1..][i - 1] == x; }
        }
      }
    }
    assert Unique(waiting, ready[1..]) by {
      forall i, j | 0 <= i < j < |ready[1..]| ensures ready[1..][i].id != ready[1..][j].id {
        assert ready[1..][i] == ready[i + 1] && ready[1..][j] == ready[j + 1];
      }
    }
  }

  lemma ClaimRanged(waiting: seq<WaitingTask>, ready: seq<ReadyTask>, finishedTaskID: int, nextTaskID: int,
                    sizes: map<int, int>)
    requires Ranged(waiting, ready, finishedTaskID, nextTaskID, sizes)
    requires ready != [] && ready[0].currentTask < ready[0].numTotalTasks
    ensures Ranged(waiting, Advance(ready), finishedTaskID, nextTaskID, sizes)
  {
    assert ready[0] in ready;
    var ready' := Advance(ready);
    forall x | x in ready' ensures
          && x.id in sizes && sizes[x.id] == x.numTotalTasks
          && 0 <= x.currentTask && (x.currentTask <= x.numTotalTasks || x.currentTask == 0)
    {
      var i :| 0 <= i < |ready'| && ready'[i] == x;
      if i > 0 {
        assert ready[i] == x && x in ready;
      }
    }
  }

  lemma ClaimUnique(waiting: seq<WaitingTask>, ready: seq<ReadyTask>)
    requires Unique(waiting, ready)
    requires ready != []
    ensures Unique(waiting, Advance(ready))
  {
    assert forall i :: 0 <= i < |ready| ==> Advance(ready)[i].id == ready[i].id;
  }

  lemma ClaimHanded(waiting: seq<WaitingTask>, ready: seq<ReadyTask>, finishedTaskID: int, nextTaskID: int,
                    sizes: map<int, int>, handed: map<int, int>)
    requires Ranged(waiting, ready, finishedTaskID, nextTaskID, sizes)
    requires Unique(waiting, ready) && HandedOut(waiting, ready, sizes, handed)
    requires ready != [] && ready[0].currentTask < ready[0].numTotalTasks
    ensures var r := ready[0];
            HandedOut(waiting, Advance(ready), sizes, handed[r.id := r.currentTask + 1])
  {
    var r := ready[0];
    var ready' := Advance(ready);
    assert r in ready && ready'[0] in ready';
    forall x | x in waiting ensures x.id != r.id {
      var i :| 0 <= i < |waiting| && waiting[i] == x;
    }
    forall x | x in ready' && x.id != r.id ensures x in ready {
      var i :| 0 <= i < |ready'| && ready'[i] == x;
      assert i > 0 && ready[i] == x;
    }
    assert forall i :: 0 < i < |ready'| ==> ready'[i] == ready[i] && ready'[i].id != r.id;
  }

  lemma ClaimLogged(ready: seq<ReadyTask>, sizes: map<int, int>, handed: map<int, int>, log: seq<Unit>,
                    pending: set<Unit>)
    requires Logged(sizes, handed, log, pending)
    requires ready != [] && ready[0].id in sizes && ready[0].id in handed && handed[ready[0].id] == ready[0].currentTask
    ensures var r := ready[0];
            Unit(r.id, r.currentTask) !in log && Unit(r.id, r.currentTask) !in pending
    ensures var r := ready[0];
            Logged(sizes, handed[r.id := r.currentTask + 1], log, pending + {Unit(r.id, r.currentTask)})
  {
    var r := ready[0];
    var u := Unit(r.id, r.currentTask);
    var pending' := pending + {u};
    if u in log {
      InOf(log, u);
    }
    assert u !in Claims(pending, r.id);
    assert Claims(pending', r.id) == Claims(pending, r.id) + {u};
    forall b | b != r.id ensures Claims(pending', b) == Claims(pending, b) {
    }
  }

  lemma ClaimPreserves(waiting: seq<WaitingTask>, ready: seq<ReadyTask>, process: map<int, Progress>,
                       finishedTaskID: int, nextTaskID: int, killed: bool, sizes: map<int, int>,
                       handed: map<int, int>, log: seq<Unit>, pending: set<Unit>)
    requires Consistent(waiting, ready, process, finishedTaskID, nextTaskID, killed, sizes, handed, log, pending)
    requires ready != [] && ready[0].currentTask < ready[0].numTotalTasks
    ensures var r := ready[0];
            Unit(r.id, r.currentTask) !in log && Unit(r.id, r.currentTask) !in pending
    ensures var r := ready[0];
            Consistent(waiting, Advance(ready), process, finishedTaskID, nextTaskID, killed, sizes,
                       handed[r.id := r.currentTask + 1], log, pending + {Unit(r.id, r.currentTask)})
  {
    assert ready[0] in ready;
    ClaimRanged(waiting, ready, finishedTaskID, nextTaskID, sizes);
    ClaimUnique(waiting, ready);
    ClaimHanded(waiting, ready, finishedTaskID, nextTaskID, sizes, handed);
    ClaimLogged(ready, sizes, handed, log, pending);
  }

  /** Running a claimed unit u: the log grows by u, and u is no longer
      claimed. */
  lemma FinishLogged(sizes: map<int, int>, handed: map<int, int>, log: seq<Unit>, pending: set<Unit>, u: Unit)
    requires Logged(sizes, handed, log, pending)
    requires u in pending
    ensures Logged(sizes, handed, log + [u], pending - {u})
    ensures u.batch in handed ==> |Of(log + [u], u.batch)| + |Claims(pending - {u}, u.batch)| == handed[u.batch]
  {
    var log', pending' := log + [u], pending - {u};
    assert Distinct(log') by {
      assert forall i :: 0 <= i < |log| ==> log'[i] == log[i] && log[i] in log;
    }
    forall b ensures Of(log', b) == Of(log, b) + (if u.batch == b then [u] else []) {
      OfSnoc(log, u, b);
    }
    assert u in Claims(pending, u.batch);
    assert Claims(pending', u.batch) == Claims(pending, u.batch) - {u};
    forall b | b != u.batch ensures Claims(pending', b) == Claims(pending, b) {
    }
  }

  /** A claimed unit of batch b leaves b with units to run and a record
      {units run, total} until shutdown. */
  lemma ClaimedRecord(waiting: seq<WaitingTask>, ready: seq<ReadyTask>, process: map<int, Progress>,
                      finishedTaskID: int, nextTaskID: int, killed: bool, sizes: map<int, int>,
                      handed: map<int, int>, log: seq<Unit>, pending: set<Unit>, u: Unit)
    requires Consistent(waiting, ready, process, finishedTaskID, nextTaskID, killed, sizes, handed, log, pending)
    requires u in pending
    ensures u.batch in sizes && |Of(log, u.batch)| < sizes[u.batch]
    ensures forall x :: x in waiting ==> x.id != u.batch
    ensures !killed ==> RecordOf(process, u.batch) == Progress(|Of(log, u.batch)|, sizes[u.batch])
  {
    var b := u.batch;
    assert u in Claims(pending, b);
    assert forall x :: x in waiting ==> x.id != b;
  }

  lemma FinishTracked(waiting: seq<WaitingTask>, sizes: map<int, int>, process: map<int, Progress>,
                      killed: bool, log: seq<Unit>, u: Unit, process': map<int, Progress>, watermark: int,
                      finishedTaskID: int)
    requires Tracked(waiting, sizes, process, killed, log)
    requires u.batch in sizes && |Of(log, u.batch)| < sizes[u.batch]
    requires !killed ==> RecordOf(process, u.batch) == Progress(|Of(log, u.batch)|, sizes[u.batch])
    requires CountsUnit(process, finishedTaskID, u, process', watermark)
    ensures Tracked(waiting, sizes, process', killed, log + [u])
  {
    forall b ensures Of(log + [u], b) == Of(log, b) + (if u.batch == b then [u] else []) {
      OfSnoc(log, u, b);
    }
  }

  lemma FinishPreserves(waiting: seq<WaitingTask>, ready: seq<ReadyTask>, process: map<int, Progress>,
                        finishedTaskID: int, nextTaskID: int, killed: bool, sizes: map<int, int>,
                        handed: map<int, int>, log: seq<Unit>, pending: set<Unit>, u: Unit,
                        process': map<int, Progress>, watermark: int)
    requires Consistent(waiting, ready, process, finishedTaskID, nextTaskID, killed, sizes, handed, log, pending)
    requires u in pending
    requires CountsUnit(process, finishedTaskID, u, process', watermark)
    ensures u !in log
    ensures Consistent(waiting, ready, process', watermark, nextTaskID, killed, sizes, handed,
                       log + [u], pending - {u})
  {
    ClaimedRecord(waiting, ready, process, finishedTaskID, nextTaskID, killed, sizes, handed, log, pending, u);
    FinishLogged(sizes, handed, log, pending, u);
    FinishTracked(waiting, sizes, process, killed, log, u, process', watermark, finishedTaskID);
  }

  /** The count of a claimed unit reaches its batch's total exactly when
      the unit is the last of the batch to run (until shutdown; after it no
      count does), and then every unit of the batch has run. */
  lemma FinishCompletes(waiting: seq<WaitingTask>, ready: seq<ReadyTask>, process: map<int, Progress>,
                        finishedTaskID: int, nextTaskID: int, killed: bool, sizes: map<int, int>,
                        handed: map<int, int>, log: seq<Unit>, pending: set<Unit>, u: Unit)
    requires Consistent(waiting, ready, process, finishedTaskID, nextTaskID, killed, sizes, handed, log, pending)
    requires u in pending
    ensures u.batch in sizes
    ensures !killed ==> (Completes(process, u.batch) <==> |Of(log + [u], u.batch)| == sizes[u.batch])
    ensures killed ==> !Completes(process, u.batch)
    ensures Completes(process, u.batch) ==>
              forall i :: 0 <= i < sizes[u.batch] ==> Unit(u.batch, i) in log + [u]
  {
    var b := u.batch;
    ClaimedRecord(waiting, ready, process, finishedTaskID, nextTaskID, killed, sizes, handed, log, pending, u);
    FinishLogged(sizes, handed, log, pending, u);
    OfSnoc(log, u, b);
    if Completes(process, b) && !killed {
      assert |Of(log + [u], b)| == sizes[b];
      assert Claims(pending - {u}, b) == {};
      forall i | 0 <= i < sizes[b] ensures Unit(b, i) in log + [u] {
        assert Unit(b, i) !in Claims(pending - {u}, b);
      }
    }
  }

  // ---------------------------------------------------------------------
  // What the invariant guarantees
  // ---------------------------------------------------------------------

  /** Every unit that runs belongs to a submitted batch and has an index
      below the batch's size, so no batch runs more units than it has. */
  lemma RunsInRange(waiting: seq<WaitingTask>, ready: seq<ReadyTask>, process: map<int, Progress>,
                    finishedTaskID: int, nextTaskID: int, killed: bool, sizes: map<int, int>,
                    handed: map<int, int>, log: seq<Unit>, pending: set<Unit>)
    requires Consistent(waiting, ready, process, finishedTaskID, nextTaskID, killed, sizes, handed, log, pending)
    ensures forall u :: u in log ==> u.batch in sizes && 0 <= u.index < sizes[u.batch]
    ensures forall id :: id in sizes ==> |Of(log, id)| <= Extent(sizes[id])
  {
    forall u | u in log ensures u.batch in sizes && 0 <= u.index < sizes[u.batch] {
      InOf(log, u);
    }
  }

  /** When nothing waits, every ready entry has handed out all of its
      units and no record expects another unit, every unit of every
      submitted batch has run, each exactly once: this is what `sync` is
      meant to wait for. */
  lemma AllDoneMeansAllRan(waiting: seq<WaitingTask>, ready: seq<ReadyTask>, process: map<int, Progress>,
                           finishedTaskID: int, nextTaskID: int, sizes: map<int, int>,
                           handed: map<int, int>, log: seq<Unit>, pending: set<Unit>)
    requires Consistent(waiting, ready, process, finishedTaskID, nextTaskID, false, sizes, handed, log, pending)
    requires waiting == [] && forall i :: 0 <= i < |ready| ==> ready[i].currentTask >= ready[i].numTotalTasks
    requires forall id :: id in process ==> process[id].finished >= process[id].total
    ensures pending == {}
    ensures forall id, i :: 0 <= id < nextTaskID && 0 <= i < sizes[id] ==> Unit(id, i) in log
    ensures Distinct(log)
  {
    if u :| u in pending {
      ClaimedRecord(waiting, ready, process, finishedTaskID, nextTaskID, false, sizes, handed, log, pending, u);
    }
    forall id | id in sizes ensures handed[id] == Extent(sizes[id]) {
      if x :| x in ready && x.id == id {
        var i :| 0 <= i < |ready| && ready[i] == x;
      }
    }
  }

  // ---------------------------------------------------------------------
  // Two places where the worker does not do what it evidently means to
  // ---------------------------------------------------------------------

  /**
   * The records of the promotion loop as written, after k promotions from
   * the waiting queue q. Line 148 binds `nextTask` to the queue's top by
   * reference and line 151 pops it, so the record of line 153 is written
   * under the id and size of the entry on top after the pop: the entry
   * after the promoted one. When the pop empties the queue the reference
   * names a destroyed element; the model then takes the promoted entry's
   * own values.
   */
  function AsWrittenRecord(process: map<int, Progress>, q: seq<WaitingTask>, k: nat): map<int, Progress>
    requires k <= |q|
  {
    if k == 0 then process
    else
      var top := if k < |q| then q[k] else q[k - 1];
      AsWrittenRecord(process, q, k - 1)[top.id := Progress(0, top.numTotalTasks)]
  }

  /**
   * The promotion as written stalls the scheduler. Batch 0 depends on
   * nothing and batch 1 on batch 0, one unit each. Promoting batch 0
   * records {0, 1} under id 1 and nothing under id 0, where the corrected
   * promotion records {0, 1} under id 0. Batch 0's unit then counts against
   * a missing record, created as {0, 0}, so its count never reaches the
   * total and the watermark stays -1; batch 1 is never promoted.
   */
  lemma AsWrittenPromotionStalls(process': map<int, Progress>, watermark: int)
    ensures var q := [WaitingTask(0, -1, 1), WaitingTask(1, 0, 1)];
            && Leading(q, -1) == 1
            && AsWrittenRecord(map[], q, 1) == map[1 := Progress(0, 1)]
            && Record(map[], q[..1]) == map[0 := Progress(0, 1)]
            && Leading(q[1..], -1) == 0
    ensures CountsUnit(map[1 := Progress(0, 1)], -1, Unit(0, 0), process', watermark) ==>
              watermark == -1 && process' == map[1 := Progress(0, 1), 0 := Progress(1, 0)]
  {
    var q := [WaitingTask(0, -1, 1), WaitingTask(1, 0, 1)];
    assert q[..1][..0] == [];
  }

  /**
   * The index run at line 176 as written: the worker keeps only the address
   * of its ready entry and reads the entry's cursor again after releasing
   * the lock, so it runs whatever `currentTask - 1` is by then.
   */
  function AsWrittenRunIndex(entry: ReadyTask): int {
    entry.currentTask - 1
  }

  /**
   * Two workers run the same unit and none runs another. Both claim a unit
   * of the two-unit batch 0 before either reaches line 176: the cursor is 2
   * by then, so both run index 1 and index 0 never runs. The two counts
   * still reach the total, so the record is erased and the watermark
   * raised to 0 as if the batch were complete.
   */
  lemma AsWrittenDoubleRun(process1: map<int, Progress>, watermark1: int,
                           process2: map<int, Progress>, watermark2: int)
    ensures var claimed := Advance(Advance([ReadyTask(0, 2, 0)]));
            && claimed == [ReadyTask(0, 2, 2)]
            && AsWrittenRunIndex(claimed[0]) == 1
    ensures CountsUnit(map[0 := Progress(0, 2)], -1, Unit(0, 1), process1, watermark1)
            && CountsUnit(process1, watermark1, Unit(0, 1), process2, watermark2)
            ==> 0 !in process2 && watermark2 == 0
  {
  }

  // ---------------------------------------------------------------------
  // The early return of `sync`
  // ---------------------------------------------------------------------

  /** A push lands right after the leading entries whose dependency is
      not larger than the pushed one's. */
  lemma InsertSplit(q: seq<WaitingTask>, w: WaitingTask, k: nat)
    requires k <= |q|
    requires forall i :: 0 <= i < k ==> q[i].dependTaskID <= w.dependTaskID
    requires k < |q| ==> q[k].dependTaskID > w.dependTaskID
    ensures Insert(q, w) == q[..k] + [w] + q[k..]
  {
    LeadingUnique(q, w.dependTaskID, k);
  }

  /** The waiting queue after each of the three submissions of EarlySync. */
  lemma EarlySyncPush0()
    ensures Dependency([]) == -1 && Dependency([0]) == 0
    ensures Insert([], WaitingTask(0, -1, 1)) == [WaitingTask(0, -1, 1)]
  {
    InsertSplit([], WaitingTask(0, -1, 1), 0);
  }

  lemma EarlySyncPush1()
    ensures Insert([WaitingTask(0, -1, 1)], WaitingTask(1, 0, 1)) == [WaitingTask(0, -1, 1), WaitingTask(1, 0, 1)]
  {
    var q := [WaitingTask(0, -1, 1)];
    InsertSplit(q, WaitingTask(1, 0, 1), 1);
    assert q[..1] == q && q[1..] == [];
  }

  lemma EarlySyncPush2()
    ensures Insert([WaitingTask(0, -1, 1), WaitingTask(1, 0, 1)], WaitingTask(2, -1, 1))
            == [WaitingTask(0, -1, 1), WaitingTask(2, -1, 1), WaitingTask(1, 0, 1)]
  {
    var q := [WaitingTask(0, -1, 1), WaitingTask(1, 0, 1)];
    InsertSplit(q, WaitingTask(2, -1, 1), 1);
    assert q[..1] == [WaitingTask(0, -1, 1)] && q[1..] == [WaitingTask(1, 0, 1)];
  }

  /** The promotion of EarlySync: batches 0 and 2 become ready, 1 waits. */
  lemma EarlySyncPromotion()
    ensures var q := [WaitingTask(0, -1, 1), WaitingTask(2, -1, 1), WaitingTask(1, 0, 1)];
            && Leading(q, -1) == 2
            && q[2..] == [WaitingTask(1, 0, 1)]
            && Readied(q[..2]) == [ReadyTask(0, 1, 0), ReadyTask(2, 1, 0)]
            && Record(map[], q[..2]) == map[0 := Progress(0, 1), 2 := Progress(0, 1)]
  {
    var q := [WaitingTask(0, -1, 1), WaitingTask(2, -1, 1), WaitingTask(1, 0, 1)];
    assert q[..2][..1] == [WaitingTask(0, -1, 1)];
    assert q[..2][..1][..0] == [];
    assert Record(map[], q[..2][..1]) == map[0 := Progress(0, 1)];
  }

  /** The two counts of EarlySync: batch 0's unit completes it and sets the
      watermark to 0, then batch 2's unit sets it to 2. */
  lemma EarlySyncCounts(process: map<int, Progress>, watermark: int, process': map<int, Progress>, watermark': int)
    ensures CountsUnit(map[0 := Progress(0, 1), 2 := Progress(0, 1)], -1, Unit(0, 0), process, watermark)
            ==> watermark == 0 && process == map[2 := Progress(0, 1)]
    ensures CountsUnit(map[2 := Progress(0, 1)], 0, Unit(2, 0), process', watermark') ==> watermark' == 2
  {
    assert map[0 := Progress(0, 1), 2 := Progress(0, 1)] - {0} == map[2 := Progress(0, 1)];
  }

  /** A fresh system after the three submissions of EarlySync. */
  method EarlySyncSubmitted() returns (s: TaskSystem)
    ensures fresh(s) && s.Valid() && !s.killed
    ensures s.waitingQueue == [WaitingTask(0, -1, 1), WaitingTask(2, -1, 1), WaitingTask(1, 0, 1)]
    ensures s.readyQueue == [] && s.taskProcess == map[] && s.finishedTaskID == -1 && s.log == []
    ensures s.nextTaskID == 3 && 1 in s.sizes && s.sizes[1] == 1 && s.pending == {}
  {
    EarlySyncPush0();
    EarlySyncPush1();
    EarlySyncPush2();
    s := new TaskSystem();
    var a := s.RunAsyncWithDeps(1, []);
    assert s.waitingQueue == [WaitingTask(0, -1, 1)] && s.sizes == map[0 := 1];
    var b := s.RunAsyncWithDeps(1, [0]);
    assert s.waitingQueue == [WaitingTask(0, -1, 1), WaitingTask(1, 0, 1)];
    var c := s.RunAsyncWithDeps(1, []);
  }

  /** The two claims of EarlySync: each moves its front entry's cursor
      past the entry's only unit. */
  lemma EarlySyncClaims()
    ensures Advance([ReadyTask(0, 1, 0), ReadyTask(2, 1, 0)]) == [ReadyTask(0, 1, 1), ReadyTask(2, 1, 0)]
    ensures [ReadyTask(0, 1, 1), ReadyTask(2, 1, 0)][1..] == [ReadyTask(2, 1, 0)]
    ensures Advance([ReadyTask(2, 1, 0)]) == [ReadyTask(2, 1, 1)]
  {
  }

  /** EarlySync's first worker steps: batches 0 and 2 are promoted, and
      batch 0's unit is claimed and run, which raises the watermark to 0. */
  method EarlySyncBatch0() returns (s: TaskSystem)
    ensures fresh(s) && s.Valid() && !s.killed
    ensures s.nextTaskID == 3 && 1 in s.sizes && s.sizes[1] == 1
    ensures s.waitingQueue == [WaitingTask(1, 0, 1)]
    ensures s.readyQueue == [ReadyTask(0, 1, 1), ReadyTask(2, 1, 0)]
    ensures s.taskProcess == map[2 := Progress(0, 1)] && s.finishedTaskID == 0 && s.log == [Unit(0, 0)]
  {
    s := EarlySyncSubmitted();
    EarlySyncPromotion();
    EarlySyncClaims();
    var k := s.PromoteWaiting();
    var u := s.ClaimFront();
    s.RunClaimed(u);
    EarlySyncCounts(s.taskProcess, s.finishedTaskID, map[], 0);
  }

  /** EarlySync's third worker step pops batch 0's exhausted entry. */
  method EarlySyncPopped() returns (s: TaskSystem)
    ensures fresh(s) && s.Valid() && !s.killed
    ensures s.nextTaskID == 3 && 1 in s.sizes && s.sizes[1] == 1
    ensures s.waitingQueue == [WaitingTask(1, 0, 1)] && s.readyQueue == [ReadyTask(2, 1, 0)]
    ensures s.taskProcess == map[2 := Progress(0, 1)] && s.finishedTaskID == 0
    ensures s.log == [Unit(0, 0)] && s.pending == {}
  {
    s := EarlySyncBatch0();
    EarlySyncClaims();
    s.PopFront();
  }

  /** EarlySync's next worker steps: the exhausted front entry of batch 0
      is popped and batch 2's only unit is claimed. */
  method EarlySyncBatch2() returns (s: TaskSystem)
    ensures fresh(s) && s.Valid() && !s.killed
    ensures s.nextTaskID == 3 && 1 in s.sizes && s.sizes[1] == 1
    ensures s.waitingQueue == [WaitingTask(1, 0, 1)]
    ensures s.taskProcess == map[2 := Progress(0, 1)] && s.finishedTaskID == 0
    ensures s.log == [Unit(0, 0)] && s.pending == {Unit(2, 0)}
  {
    s := EarlySyncPopped();
    EarlySyncClaims();
    var u := s.ClaimFront();
  }

  /**
   * The `sync` condition as written returns too early. Batch 1 depends on
   * batch 0; batch 2 depends on nothing. One worker promotes 0 and 2, runs
   * batch 0's unit (watermark 0), pops it, and runs batch 2's unit, which
   * raises the watermark to 2 = nextTaskID - 1: `sync` may return while
   * batch 1 has not run at all and still waits. Each step is the branch
   * WorkerStep takes in that state.
   */
  method EarlySync() returns (s: TaskSystem)
    ensures s.Valid() && s.SyncMayReturn() && !s.AllDone()
    ensures s.nextTaskID == 3 && 1 in s.sizes && s.sizes[1] == 1
    ensures Unit(1, 0) !in s.log
  {
    s := EarlySyncBatch2();
    s.RunClaimed(Unit(2, 0));
    EarlySyncCounts(map[], 0, s.taskProcess, s.finishedTaskID);
    assert s.log == [Unit(0, 0), Unit(2, 0)];
  }

  /** The corrected `sync` condition: `AllDone` holds before shutdown only
      once every unit of every submitted batch has run, each exactly once,
      and no worker holds a claimed unit. */
  lemma SyncAllDoneMeansAllRan(s: TaskSystem)
    requires s.Valid() && !s.killed && s.AllDone()
    ensures s.pending == {} && Distinct(s.log)
    ensures forall id, i :: 0 <= id < s.nextTaskID && 0 <= i < s.sizes[id] ==> Unit(id, i) in s.log
  {
    AllDoneMeansAllRan(s.waitingQueue, s.readyQueue, s.taskProcess, s.finishedTaskID, s.nextTaskID, s.sizes,
                       s.handed, s.log, s.pending);
  }

  // ---------------------------------------------------------------------
  // A dependent that runs before its dependency
  // ---------------------------------------------------------------------

  /** The counts of DependentRunsFirst: batch 2's unit completes batch 2
      and raises the watermark from -1 to 2 while batch 0's record is still
      open; batch 1's unit then completes batch 1. */
  lemma DependentCounts(p1: map<int, Progress>, w1: int, p2: map<int, Progress>, w2: int)
    ensures CountsUnit(map[0 := Progress(0, 1), 2 := Progress(0, 1)], -1, Unit(2, 0), p1, w1)
            ==> w1 == 2 && p1 == map[0 := Progress(0, 1)]
    ensures CountsUnit(map[0 := Progress(0, 1), 1 := Progress(0, 1)], 2, Unit(1, 0), p2, w2)
            ==> w2 == 2 && p2 == map[0 := Progress(0, 1)]
  {
    assert map[0 := Progress(0, 1), 2 := Progress(0, 1)] - {2} == map[0 := Progress(0, 1)];
    assert map[0 := Progress(0, 1), 1 := Progress(0, 1)] - {1} == map[0 := Progress(0, 1)];
  }

  /** The second promotion of DependentRunsFirst: with the watermark at 2,
      batch 1, which depends on batch 0, becomes ready. */
  lemma DependentPromotion()
    ensures var q := [WaitingTask(1, 0, 1)];
            && Leading(q, 2) == 1 && q[1..] == [] && Readied(q[..1]) == [ReadyTask(1, 1, 0)]
            && Record(map[0 := Progress(0, 1)], q[..1]) == map[0 := Progress(0, 1), 1 := Progress(0, 1)]
    ensures [ReadyTask(2, 1, 1)][1..] == [] && Advance([ReadyTask(1, 1, 0)]) == [ReadyTask(1, 1, 1)]
  {
    var q := [WaitingTask(1, 0, 1)];
    assert q[..1] == q && q[..1][..0] == [];
  }

  /** DependentRunsFirst, first steps: batches 0 and 2 are promoted and a
      worker claims batch 0's only unit, which it has not run yet. */
  method DependentClaimed() returns (s: TaskSystem)
    ensures fresh(s) && s.Valid() && !s.killed
    ensures s.waitingQueue == [WaitingTask(1, 0, 1)]
    ensures s.readyQueue == [ReadyTask(0, 1, 1), ReadyTask(2, 1, 0)]
    ensures s.taskProcess == map[0 := Progress(0, 1), 2 := Progress(0, 1)] && s.finishedTaskID == -1
    ensures s.log == [] && s.pending == {Unit(0, 0)}
  {
    s := EarlySyncSubmitted();
    EarlySyncPromotion();
    EarlySyncClaims();
    var k := s.PromoteWaiting();
    var u := s.ClaimFront();
  }

  /** DependentRunsFirst, next steps: batch 0's exhausted entry is popped and
      another worker claims batch 2's only unit. */
  method DependentBatch2Claimed() returns (s: TaskSystem)
    ensures fresh(s) && s.Valid() && !s.killed
    ensures s.waitingQueue == [WaitingTask(1, 0, 1)] && s.readyQueue == [ReadyTask(2, 1, 1)]
    ensures s.taskProcess == map[0 := Progress(0, 1), 2 := Progress(0, 1)] && s.finishedTaskID == -1
    ensures s.log == [] && s.pending == {Unit(0, 0), Unit(2, 0)}
  {
    s := DependentClaimed();
    EarlySyncClaims();
    s.PopFront();
    var u := s.ClaimFront();
  }

  /** DependentRunsFirst: batch 2's unit runs and completes batch 2, which
      raises the watermark to 2; batch 0's unit is still claimed. */
  method DependentBatch2Ran() returns (s: TaskSystem)
    ensures fresh(s) && s.Valid() && !s.killed
    ensures s.waitingQueue == [WaitingTask(1, 0, 1)] && s.readyQueue == [ReadyTask(2, 1, 1)]
    ensures s.taskProcess == map[0 := Progress(0, 1)] && s.finishedTaskID == 2
    ensures s.log == [Unit(2, 0)] && s.pending == {Unit(0, 0)}
  {
    s := DependentBatch2Claimed();
    s.RunClaimed(Unit(2, 0));
    DependentCounts(s.taskProcess, s.finishedTaskID, map[], 0);
  }

  /** DependentRunsFirst: batch 2's entry is popped and, the ready queue
      being empty, batch 1 is promoted. */
  method DependentPromoted() returns (s: TaskSystem)
    ensures fresh(s) && s.Valid() && !s.killed
    ensures s.waitingQueue == [] && s.readyQueue == [ReadyTask(1, 1, 0)]
    ensures s.taskProcess == map[0 := Progress(0, 1), 1 := Progress(0, 1)] && s.finishedTaskID == 2
    ensures s.log == [Unit(2, 0)] && s.pending == {Unit(0, 0)}
  {
    s := DependentBatch2Ran();
    DependentPromotion();
    s.PopFront();
    var k := s.PromoteWaiting();
  }

  /**
   * The watermark as written lets a dependent run before its dependency.
   * Batch 1 depends on batch 0; batch 2 depends on nothing. A worker claims
   * batch 0's unit and has not run it yet when batch 2 completes and raises
   * the watermark to 2, the largest finished id. The watermark is then at
   * least batch 1's dependency, so batch 1 is promoted, claimed and run
   * while batch 0's unit has still not run.
   */
  method DependentRunsFirst() returns (s: TaskSystem)
    ensures s.Valid() && !s.killed
    ensures Unit(1, 0) in s.log && Unit(0, 0) !in s.log && Unit(0, 0) in s.pending
  {
    s := DependentPromoted();
    DependentPromotion();
    var u := s.ClaimFront();
    s.RunClaimed(u);
  }

  /**
   * The corrected watermark: the largest id r below n such that every id
   * from w + 1 to r is in `finished`, the ids of the batches whose count
   * has reached its total (which FinishCompletes shows is the moment their
   * last unit has run). Started from w = -1 it is the end of the longest
   * run of completed ids 0, 1, 2, ..., so that every id at or below it
   * has completed.
   */
  function CompletedPrefix(finished: set<int>, w: int, n: int): (r: int)
    ensures w <= r
    ensures w < n ==> r < n
    ensures forall j :: w < j <= r ==> j in finished
    ensures r + 1 < n ==> r + 1 !in finished
    decreases n - w
  {
    if w + 1 < n && w + 1 in finished then CompletedPrefix(finished, w + 1, n) else w
  }

  /** With the corrected watermark, a batch whose recorded dependency is at
      most the watermark depends only on batches that have completed,
      because the recorded dependency is the largest one. */
  lemma CorrectedPromotionWaits(deps: seq<int>, finished: set<int>, n: int)
    requires Dependency(deps) <= CompletedPrefix(finished, -1, n)
    ensures forall d :: d in deps && 0 <= d ==> d in finished
  {
  }

  /** A batch completing can only raise the corrected watermark. */
  lemma {:induction false} CompletedPrefixMonotone(finished: set<int>, finished': set<int>, w: int, n: int)
    requires finished <= finished'
    ensures CompletedPrefix(finished, w, n) <= CompletedPrefix(finished', w, n)
    decreases n - w
  {
    if w + 1 < n && w + 1 in finished {
      CompletedPrefixMonotone(finished, finished', w + 1, n);
    }
  }

  /** With the corrected watermark, `sync`'s condition as written holds
      exactly when every submitted batch has completed. */
  lemma CorrectedSyncMeansAllCompleted(finished: set<int>, n: int)
    requires 0 <= n
    ensures CompletedPrefix(finished, -1, n) + 1 == n <==> forall j :: 0 <= j < n ==> j in finished
  {
  }

  /** On the run of DependentRunsFirst, when batch 1 is promoted batch 2 has
      completed and batch 0 has not: the watermark as written is 2 and
      promotes batch 1; the corrected watermark is -1 and keeps it waiting. */
  lemma CorrectedDependentWaits()
    ensures CompletedPrefix({2}, -1, 3) == -1
    ensures Leading([WaitingTask(1, 0, 1)], 2) == 1 && Leading([WaitingTask(1, 0, 1)], -1) == 0
  {
  }

  // ---------------------------------------------------------------------
  // A batch of no units
  // ---------------------------------------------------------------------

  /** The submission and promotion of AsWrittenZeroUnitHangs: batch 0 of
      no units enters the waiting queue alone, is eligible at watermark -1,
      and is promoted exhausted with the record {0, 0}. */
  lemma ZeroUnitPush()
    ensures Insert([], WaitingTask(0, -1, 0)) == [WaitingTask(0, -1, 0)]
  {
    InsertSplit([], WaitingTask(0, -1, 0), 0);
  }

  lemma ZeroUnitPromotion()
    ensures var q := [WaitingTask(0, -1, 0)];
            && Leading(q, -1) == 1 && q[1..] == []
            && Readied(q[..1]) == [ReadyTask(0, 0, 0)]
            && Record(map[], q[..1]) == map[0 := Progress(0, 0)]
  {
    var q := [WaitingTask(0, -1, 0)];
    assert q[..1] == q && q[..1][..0] == [];
  }

  /** AsWrittenZeroUnitHangs, first step: `run(r, 0)` on a fresh system
      submits batch 0 of no units. */
  method ZeroUnitBatchSubmitted() returns (s: TaskSystem)
    ensures fresh(s) && s.Valid() && !s.killed
    ensures s.waitingQueue == [WaitingTask(0, -1, 0)] && s.readyQueue == []
    ensures s.taskProcess == map[] && s.finishedTaskID == -1 && s.pending == {} && s.log == []
  {
    s := new TaskSystem();
    ZeroUnitPush();
    var id := s.Run(0);
  }

  /** AsWrittenZeroUnitHangs, next step: a worker promotes batch 0 with the
      record {0, 0}; its ready entry is already exhausted. */
  method ZeroUnitBatchPromoted() returns (s: TaskSystem)
    ensures fresh(s) && s.Valid() && !s.killed
    ensures s.waitingQueue == [] && s.readyQueue == [ReadyTask(0, 0, 0)]
    ensures s.taskProcess == map[0 := Progress(0, 0)] && s.finishedTaskID == -1
    ensures s.pending == {} && s.log == []
  {
    s := ZeroUnitBatchSubmitted();
    ZeroUnitPromotion();
    var k := s.PromoteWaiting();
  }

  /**
   * Lines 160-163 and 179 as written: a batch of no units never completes.
   * Its ready entry starts exhausted and is popped, so no unit runs and the
   * count of line 179, the only place that raises the watermark, never
   * happens. On a fresh system after `run(r, 0)`, both queues are empty,
   * nothing is claimed and every record is complete (the corrected condition
   * AllDone holds), yet the watermark stays -1 and `sync`'s condition as
   * written, which `run` waits on, is false. A worker's step from here
   * changes nothing, and with nothing claimed no RunClaimed can follow.
   */
  method AsWrittenZeroUnitHangs() returns (s: TaskSystem)
    ensures s.Valid() && !s.killed && s.waitingQueue == [] && s.readyQueue == [] && s.pending == {}
    ensures s.AllDone() && !s.SyncMayReturn() && s.finishedTaskID == -1
  {
    s := ZeroUnitBatchPromoted();
    s.PopFront();
    assert Leading([], -1) == 0;
    var outcome := s.WorkerStep();
  }
}
